=== FILE: README.md ===
# DFashion core, modelled in Dafny

DFashion is a social shopping site: customers browse a feed of posts and
24-hour stories that tag products, like, save, comment and follow, keep a
cart and a wishlist, and buy; vendors publish products and stories; admins
log in to a separate dashboard. This project models the parts of the
repository that decide things:

- the five stand-alone demo servers: `python-server.py`, `simple-server.js`,
  `minimal-server.js`, `standalone-server.js` and `quick-server.js`
  (routing, seeded data, likes, trending, admin login, department pages);
- the Express middleware and routes for authentication and roles, following,
  stories, products and reviews, and payments;
- the Angular cart, wishlist and media services;
- the Angular components for the feed, post card and post page, the two
  story viewers, the stories grid, story and product creation, the product
  page, the shopping buttons, the rating stars, the vendor's story list, the
  mobile cart page and the admin sidebar.

Pure computations (views, replies, filters, formatting) are functions with
contracts and lemmas. Components and services whose fields change become
classes; their methods state the whole new state, usually through one of
those functions. Servers that keep their data in memory are classes too.
Database documents are values in `map`s keyed by id. Requests are given as
values: the verb, the path, the parsed body, the current time in
milliseconds.

Shared modules: `Wrappers` (Option), `Lists` (find, filter, JavaScript
`splice`), `Text` (JavaScript `split`, `trim`, `includes`, `toLowerCase`,
number printing), `Numbers` (`Math.round`), `Paging`, `Grouping` (group by
key in first-appearance order), `TimeAgo`, `Catalog` (the demo data and the
sort by views) and `AdminShared` (what the two admin servers share).

## Model

| member | source | states |
|---|---|---|
| Catalog.FindUser | backend/simple-server.js:117 | the first user with the id, which is in the list; none is found exactly when no user has it |
| Catalog.FindProduct | backend/simple-server.js:120 | the product found is the first in the list with the id; none exactly when no product has it |
| Catalog.PostIndex | backend/simple-server.js:132 | the first index holding a post with the id; none exactly when no post has it |
| Catalog.WithVendors | backend/simple-server.js:159-162 | one entry per product in order, each with the first user whose id is the vendor id, or none |
| Catalog.Liked | backend/python-server.py:220-230 | liking keeps the number of posts |
| Catalog.LikedAppendsOne | backend/python-server.py:220-230 | the first post with the id gains exactly one like by user "1" at the end; every other post is unchanged |
| Catalog.LikedUnknownUnchanged | backend/python-server.py:223-230 | an unknown post id leaves every post unchanged |
| Catalog.LikedTwiceAddsTwo | backend/simple-server.js:136-137 | each like request appends a like again, so two requests add two likes |
| Catalog.InsertByViews | backend/python-server.py:208 | inserting keeps length and multiset, adding one copy of the product |
| Catalog.SortByViews | backend/python-server.py:208 | the sort keeps the number of products |
| Catalog.InsertByViewsSorted | backend/python-server.py:208 | inserting into a list sorted by descending views keeps it sorted; the head is the new product or the old head |
| Catalog.InsertByViewsStable | backend/python-server.py:208 | among products with equal views, insertion keeps the old order and puts the new one first |
| Catalog.SortByViewsSorted | backend/simple-server.js:165-166 | the sorted list is in descending order of views |
| Catalog.SortByViewsPermutes | backend/simple-server.js:165-166 | the sorted list is a permutation of the input |
| Catalog.SortByViewsStable | backend/simple-server.js:165-166 | products with equal views keep their relative order (a stable sort) |
| Catalog.SortByViewsCorrect | backend/python-server.py:208 | sorted by descending views, a permutation, and stable |
| Catalog.TopThree | backend/simple-server.js:167 | the slice is the first min(3, n) products |
| Catalog.TrendingCorrect | backend/python-server.py:206-214 | the trending list is sorted by views, has min(3, n) entries and comes from the catalogue; its first entry has views at least those of every product, and every product left out has views at most those of the last entry shown |
| Catalog.SortedPrefixBounds | backend/python-server.py:208 | in a view-descending permutation, the first of a prefix has the most views and nothing left out of the prefix has more views than its last |
| Catalog.SeedTrending | backend/simple-server.js:32-61 | on the seeded catalogue the trending order is the shirt (2100 views) then the dress (1250) |
| PythonServer.KnownTags | backend/python-server.py:167-171 | tags whose product is missing are dropped, the rest keep their order, each paired with the product it names |
| PythonServer.PostsView | backend/python-server.py:162-184 | one view per post, in order, each the view of that post: the post's own like and comment counts, the author, a user with the post's userId and none exactly when no user has it, and only the resolvable product tags |
| PythonServer.ViewOf | backend/python-server.py:165-179 | one post with its author (the first user with its userId, none exactly when there is none), its known tagged products (the resolvable tags in order, each with its product) and its like and comment counts |
| PythonServer.KnownTagsCons | backend/python-server.py:168-171 | a tag kept with its found product in front keeps every kept product the one found for its tag |
| PythonServer.StoryGroupsView | backend/python-server.py:186-195 | each group holds one story; the stories listed are exactly the unexpired ones whose author exists, in order |
| PythonServer.GetResponse | backend/python-server.py:116-137 | status 200 exactly for the six known paths, otherwise the "Not found" 404; health reports OK; the posts page holds the posts view with page 1 of 1 and the post total; stories, products, trending and users each carry the view of the seeded data |
| PythonServer.TrendingView | backend/python-server.py:206-214 | min(3, n) products from the catalogue in descending order of views; the first is the most viewed, and every product left out has views at most those of the last one shown |
| PythonServer.TrendingLeftOut | backend/python-server.py:206-214 | every product the trending view leaves out has views at most those of the last product shown |
| PythonServer.PostsPrefixSlashes | backend/python-server.py:143 | the prefix "/api/posts/" holds three slashes |
| PythonServer.LikePathHasSegment3 | backend/python-server.py:222 | any path containing "/api/posts/" splits into at least four pieces, so the segment read at index 3 exists |
| PythonServer.LikeSegmentOfPostPath | backend/python-server.py:222 | "/api/posts/<id>/like" is a like path and its segment 3 is the id |
| PythonServer.PrefixedLikePathSegment | backend/python-server.py:222 | a like path with an extra leading segment is still accepted, but its segment 3 is "posts", not the id |
| PythonServer.LikeResponse | backend/python-server.py:220-230 | status 200 with isLiked exactly when the post exists, with a likes count one more than that post's likes; any other status is the "Post not found" 404 |
| PythonServer.LikeRaisesViewCount | backend/python-server.py:227-228 | after a like the post's listed like count rises by one and equals the count the like reply reported |
| PythonServer.Store.constructor | backend/python-server.py:16-107 | the store starts with the seeded users, products, posts and stories |
| PythonServer.Store.LikePost | backend/python-server.py:220-230 | only the liked post changes; the reply is the like response and its count is the stored post's new number of likes |
| PythonServer.Store.Handle | backend/python-server.py:109-146 | OPTIONS answers 200 with nothing; GET answers per the GET table and changes nothing; POST likes only on a like path and answers 404 otherwise; HEAD is the inherited static-file answer and changes nothing; a method without a handler gets 501 and changes nothing |
| PythonServer.UrlPath | backend/python-server.py:109 | the path part of a request target is its longest prefix without "?" or "#" |
| PythonServer.HeadResponse | backend/python-server.py:109 | the inherited HEAD handler sends no body: 200 for a file named without a final "/" and for a directory named with one, 301 for a directory named without one, 404 for anything missing and for a file named with a final "/" |
| SimpleServer.AllTags | backend/simple-server.js:118-121 | every tag is kept in order, with the product or a missing marker exactly when the product is unknown |
| SimpleServer.PostsView | backend/simple-server.js:113-124 | one view per post, in order, each the view of that post: its counts, one product entry per tag, and the author, a user with the post's userId and none exactly when no user has it |
| SimpleServer.ViewOf | backend/simple-server.js:114-122 | one post with its author (the first user with its userId, none exactly when there is none), every tag paired with its product lookup and its like and comment counts |
| SimpleServer.TagsKeptVersusDropped | backend/simple-server.js:118-121 | this server keeps every tag while the Python server drops tags of unknown products; both agree when every tag resolves |
| SimpleServer.StoryGroupsView | backend/simple-server.js:145-151 | one group per unexpired story, in order, with the author lookup possibly empty |
| SimpleServer.StoriesKeptVersusSkipped | backend/simple-server.js:147-151 | the Python server lists the unexpired stories that have an author, this server lists every unexpired story |
| SimpleServer.Respond | backend/simple-server.js:183-216 | OPTIONS answers 200; health answers 200 with the OK status, message and time for any method; GET /api/posts is the posts view with one page of all posts; GET /api/stories is the story groups view; GET /api/users is the user list; other paths without a handler prefix answer 404; a handler prefix without a matching route sends no reply; trending is the top three |
| SimpleServer.HandlePosts | backend/simple-server.js:113-143 | under /api/posts a reply is sent exactly for GET /api/posts and a like request; GET /api/posts is the posts view with one page of all posts |
| SimpleServer.HandleStories | backend/simple-server.js:145-155 | under /api/stories a reply is sent exactly for GET /api/stories, the story groups view |
| SimpleServer.HandleProducts | backend/simple-server.js:157-174 | under /api/products a reply is sent exactly for GET /api/products (all products with vendors) and GET /api/products/trending (the top three by views) |
| SimpleServer.HandleUsers | backend/simple-server.js:176-180 | under /api/users a reply is sent exactly for GET /api/users, the user list |
| SimpleServer.LikeRequestReply | backend/simple-server.js:130-141 | every POST to a like path reaches the like handler: the post named by segment 3 gets `likes.length + 1`, and an unknown post gets 404 "Post not found" |
| SimpleServer.ProductsReply | backend/simple-server.js:158-163 | `GET /api/products` answers 200 with every stored product, in store order, joined with its vendor |
| SimpleServer.LikeReplyIsNewLength | backend/simple-server.js:130-141 | the like reply reports the post's old like count plus one, the length after the push |
| SimpleServer.TrendingAgreesWithPython | backend/simple-server.js:164-172 | the trending reply lists the same products as the Python server's |
| SimpleServer.ProductsAfterTrending | backend/simple-server.js:165-166 | because the in-place sort reorders the shared list, the product list after a trending request comes back sorted, and a second sort changes nothing |
| SimpleServer.SortedIsFixed | backend/simple-server.js:165-166 | sorting a list already in descending view order returns it unchanged |
| SimpleServer.Store.constructor | backend/simple-server.js:7-98 | the store starts with the seeded users, products, posts and stories |
| SimpleServer.Store.Handle | backend/simple-server.js:183-216 | the reply is the routing table's; a like request appends a like; a trending request leaves the product list sorted in place |
| AdminShared.FindAdmin | backend/minimal-server.js:138-140 | an admin is found exactly when some account matches both the e-mail and the password; an absent field never matches |
| AdminShared.SeededCredentials | backend/minimal-server.js:8-63 | each demo account logs in with its own password and with no other, and the account found is that one |
| AdminShared.LastSegmentIsHtmlName | backend/minimal-server.js:110-111 | the last segment of a path ending in ".html" has no slash and ends in ".html" |
| AdminShared.StaticFile | backend/minimal-server.js:105-114 | "/" and "/admin-login.html" serve the login page; other "/admin...html" paths serve their last segment; anything else serves no file |
| AdminShared.DepartmentSegmentOf | backend/minimal-server.js:204-205 | the department read from "/api/admin/departments/<d>" or "/api/admin/departments/<d>/..." is d |
| AdminShared.DepartmentsPathIsNoOtherRoute | backend/minimal-server.js:117-204 | a path under the departments prefix is not the health, login or stats path, so the earlier routes never take it |
| MinimalServer.UserPermissions | backend/minimal-server.js:238-253 | every role gets at least one permission; "all" exactly for super_admin; an unknown role gets only dashboard.view |
| MinimalServer.SeededRolesInTable | backend/minimal-server.js:8-63 | every demo account's role has its own permission entry |
| MinimalServer.Login | backend/minimal-server.js:128-174 | an unparsable body answers 400; 200 exactly when an account matches both fields, with an 8h token for that account; otherwise 401 INVALID_CREDENTIALS |
| MinimalServer.DepartmentOf | backend/minimal-server.js:204-231 | department data exists exactly for sales, marketing, support and accounting |
| MinimalServer.Route | backend/minimal-server.js:96-234 | OPTIONS answers 200; static pages are served exactly as the page table says; health answers OK with the time; POST login is the login reply; stats answers 200; a department path answers 200 with the department table entry or the "Department not found" error; anything else is the 404 |
| MinimalServer.ApiRoute | backend/minimal-server.js:117-234 | health answers OK with the time; POST login is the login reply; stats answers 200; a department path answers 200 with the department table entry or the "Department not found" error; anything else is the "Not found" 404 |
| MinimalServer.UnknownDepartmentAnswersOk | backend/minimal-server.js:204-231 | an unknown department still answers 200 |
| StandaloneServer.Accounts | backend/standalone-server.js:10-68 | the accounts are the five demo admins, in order, each with its own permission list |
| StandaloneServer.PermissionsWithinRoleTable | backend/standalone-server.js:10-68 | every permission an account holds here is also granted to its role by the minimal server's role table |
| StandaloneServer.ManagersLackAnalytics | backend/standalone-server.js:10-68 | the sales, marketing and account managers lack dashboard.analytics here although their role table grants it |
| StandaloneServer.SessionOf | backend/standalone-server.js:226-234 | the session user carries the account's id, e-mail, role and permissions |
| StandaloneServer.Login | backend/standalone-server.js:207-250 | an unparsable body answers 400; 200 exactly when the same admin as in the minimal server matches, with that admin's id, e-mail and role and the permission list stored with that admin's account; otherwise 401 |
| StandaloneServer.FindAccountIsFindAdmin | backend/standalone-server.js:217 | looking up the accounts finds an account exactly when the shared admin lookup does; it is the one account of that admin |
| StandaloneServer.Capitalize | backend/standalone-server.js:272 | the first letter is upper-cased and the rest kept |
| StandaloneServer.DepartmentMetrics | backend/standalone-server.js:265-282 | metrics exist exactly for the four departments, each starting with team_size |
| StandaloneServer.DepartmentNamesAgree | backend/standalone-server.js:265-282 | both admin servers know the same four departments and name them the same capitalised way |
| StandaloneServer.DepartmentReply | backend/standalone-server.js:265-282 | 200 with the capitalised name and metrics exactly for a known department; otherwise the "Department not found" 404 |
| StandaloneServer.Route | backend/standalone-server.js:174-192 | OPTIONS answers 200 with an empty body; a request is served as a page exactly when the page table names a file; every other request is answered by the API routes |
| StandaloneServer.ApiRoute | backend/standalone-server.js:194-319 | health answers OK with the time; POST login is the login reply; stats and analytics answer 200; a department path is answered by that department's reply; a path that is none of the five routes gets the 404 that lists the available endpoints |
| StandaloneServer.UnknownDepartmentDiffers | backend/standalone-server.js:265-282 | an unknown department answers 404 here while the minimal server answers 200 |
| QuickServer.Lookup | backend/quick-server.js:40-46 | a stored password is found exactly for the five known e-mails |
| QuickServer.FullName | backend/quick-server.js:57 | the name is the part before the first "@", with its first "." made a space |
| QuickServer.Role | backend/quick-server.js:58 | "super_admin" when the address contains "super", otherwise the part before the first "." followed by "_manager" |
| QuickServer.DottedAddress | backend/quick-server.js:57-58 | for "w.m@domain" the full name is "w m" and, without "super", the role is "w_manager" |
| QuickServer.NoSuper | backend/quick-server.js:58 | an address without the letter 'p' never contains "super" |
| QuickServer.AccountsManagerRole | backend/quick-server.js:57-58 | the accounts manager logs in as role accounts_manager named "accounts manager" |
| QuickServer.AccountsManagerRoleUnknown | backend/quick-server.js:58 | the role the quick server derives for the accounts manager is not the account_manager role of the admin table, and the role table grants it only dashboard.view |
| QuickServer.LoginAsWritten | backend/quick-server.js:36-75 | as written: an unparsable body answers 400; a body with neither e-mail nor password ends the server process (the 200 head is written, the name split throws, and the catch block's second head throws uncaught); otherwise the granted reply exactly when the stored password, absent or not, equals the given one, so an unknown e-mail without a password logs in, and 401 in every other case |
| QuickServer.UnknownAddressWithoutPassword | backend/quick-server.js:48 | an unknown e-mail with no password field is granted by the code as written and refused by the intended check |
| QuickServer.EmptyBodyCrashes | backend/quick-server.js:48-70 | a body with neither field ends the server as written and gets 401 from the intended check |
| QuickServer.LoginIntended | backend/quick-server.js:36-75 | corrected: 200 exactly for a known e-mail with its own password, with the derived name and role; otherwise the 401 |
| QuickServer.IntendedAgreesOnKnownAddresses | backend/quick-server.js:48 | for a known e-mail the corrected login answers exactly as written |
| QuickServer.IntendedAgreesWithAdminTable | backend/quick-server.js:40-46 | the corrected login grants exactly the e-mail and password pairs of the demo admin table |
| QuickServer.AdminInTable | backend/quick-server.js:40-46 | every demo admin of the other two servers has an entry in this table, with the same password |
| QuickServer.TableEntryIsAdmin | backend/quick-server.js:40-46 | every entry of this table is a demo admin of the other two servers, with the same password |
| QuickServer.Dispatch | backend/quick-server.js:11-82 | OPTIONS answers 200 with nothing; health answers 200 for any verb; a POST to the login path gets the login reply; every other request answers 404 |
| QuickServer.Route | backend/quick-server.js:11-82 | the server as written: the same routing, with the login path answered by the written check `accounts[email] === password`, including the process ending on a body with neither field |
| QuickServer.RouteIntended | backend/quick-server.js:11-82 | the same routing with the corrected login check |
| QuickServer.RoutesDifferOnUnknownAddress | backend/quick-server.js:48 | a login request with an unknown e-mail and no password gets 200 from the server as written and 401 from the corrected one |
| QuickServer.RoutesDifferOnEmptyBody | backend/quick-server.js:48-70 | a login request with an empty object ends the server as written and gets 401 from the corrected one |
| AuthMiddleware.TokenOf | backend/middleware/auth.js:7 | a token exists exactly when the header does; a leading "Bearer " is removed |
| AuthMiddleware.Auth | backend/middleware/auth.js:5-30 | the request passes exactly when a token is given and resolves to an active user; every refusal is a 401, with the no-token message when no token was given |
| AuthMiddleware.OptionalAuth | backend/middleware/auth.js:94-111 | never refuses; attaches the user exactly when auth would pass |
| AuthMiddleware.BearerToken | backend/middleware/auth.js:7-9 | "Bearer t" with t non-empty yields a token, and it is t |
| AuthMiddleware.IsVendor | backend/middleware/auth.js:33-38 | passes exactly vendors and admins; refuses with 403 |
| AuthMiddleware.IsAdmin | backend/middleware/auth.js:41-46 | passes exactly admins; refuses with 403 |
| AuthMiddleware.RequireAdmin | backend/middleware/auth.js:49-58 | passes exactly the roles admin, sales, marketing, accounting and support; refuses with "Admin access required" |
| AuthMiddleware.AllowedRoles | backend/middleware/auth.js:63 | one role or a list of roles |
| AuthMiddleware.RequireRole | backend/middleware/auth.js:61-72 | passes exactly the listed roles; refuses with the 403 naming them |
| AuthMiddleware.IsApprovedVendor | backend/middleware/auth.js:75-80 | refuses exactly vendors not approved, with 403 |
| AuthMiddleware.RequireCustomer | backend/middleware/auth.js:83-91 | passes exactly customers and admins; refuses with 403 |
| AuthMiddleware.AdminPassesAll | backend/middleware/auth.js:34-84 | an admin passes every check, and a role check exactly when admin is listed |
| AuthMiddleware.RequireAdminIsRequireRole | backend/middleware/auth.js:49-72 | requireAdmin passes exactly whom requireRole over its five roles passes |
| AuthMiddleware.RequireRoleOneIsMany | backend/middleware/auth.js:63 | one role behaves as a one-element list |
| AuthMiddleware.DemoAdminRolesRefused | backend/middleware/auth.js:50-51 | none of the five demo admin accounts' roles (super_admin, sales_manager, ...) is in that list, so each is refused |
| UsersRoutes.Pull | backend/routes/users.js:48-49 | pulling removes every copy of the id and keeps every other id |
| UsersRoutes.PullPushed | backend/routes/users.js:48-55 | pulling an id that was just pushed restores the list |
| UsersRoutes.FollowReplyOf | backend/routes/users.js:31-70 | 404 exactly for an unknown target, 400 for oneself, otherwise toggled with isFollowing true exactly when the target was not followed |
| UsersRoutes.AfterFollow | backend/routes/users.js:44-66 | only the two users change and nothing changes unless the reply toggled; following pushes the target onto the follower's list and the follower onto the target's list, unfollowing pulls every copy from each, each other list and both ids stay, and both counters move by one together |
| UsersRoutes.FollowThenUnfollowRestores | backend/routes/users.js:44-66 | follow then unfollow restores both users exactly, with the two replies |
| UsersRoutes.Directory.constructor | backend/routes/users.js:31 | the directory holds the given users |
| UsersRoutes.Directory.Follow | backend/routes/users.js:31-70 | the reply and the new users are those of the follow functions |
| Paging.OrDefault | backend/routes/products.js:13-14 | `parseInt(q) \|\| d`: a missing or zero value gives the default, which is never zero |
| Paging.Skip | backend/routes/products.js:15 | the first page skips nothing and valid pages skip a non-negative count |
| Paging.Pages | backend/routes/products.js:63 | the page count is the least n with n pages covering the total |
| Paging.PagesIsLeast | backend/routes/products.js:63 | no smaller page count covers the total |
| StoriesRoutes.ListPage | backend/routes/stories.js:13-15 | page 1 and limit 20 by default, skip from the page |
| StoriesRoutes.ActiveStories | backend/routes/stories.js:18-21 | exactly the active stories that have not expired |
| StoriesRoutes.GroupByUser | backend/routes/stories.js:29-41 | one group per author in first-appearance order, each holding that author's stories in order |
| Grouping.GroupBy | backend/routes/stories.js:29-41 | one bucket per key in first-appearance order, each holding exactly the items with that key, in order |
| Grouping.FirstOfKey | frontend/src/app/features/posts/social-feed.component.ts:953-966 | the first item of a bucket is an item of the input with that key |
| Grouping.KeysInOrder | backend/routes/stories.js:29-41 | the keys are distinct, are exactly the keys that occur, and come in the order they are first met: of two keys, the earlier one occurs before any element with the later one |
| StoriesRoutes.Viewed | backend/routes/stories.js:125-134 | the viewer is recorded once: an earlier viewer leaves the story unchanged, a new one is appended and counted |
| StoriesRoutes.ViewIdempotent | backend/routes/stories.js:125-134 | viewing twice is viewing once |
| StoriesRoutes.LikeToggled | backend/routes/stories.js:154-173 | a user who already likes the story has their first like spliced out and the count goes down by one; otherwise a like is appended and counted up; views and shares are untouched |
| StoriesRoutes.LikeTwiceRestores | backend/routes/stories.js:154-173 | liking twice restores the story |
| StoriesRoutes.ShareReply | backend/routes/stories.js:191-196 | refused exactly when sharing is not allowed |
| StoriesRoutes.StoryBoard.constructor | backend/routes/stories.js:117 | the board holds the given stories |
| StoriesRoutes.StoryBoard.View | backend/routes/stories.js:117-144 | 404 for an unknown story; otherwise only that story changes, by the view function |
| StoriesRoutes.StoryBoard.Like | backend/routes/stories.js:146-181 | 404 for an unknown story; otherwise only that story changes, by the like toggle |
| StoriesRoutes.StoryBoard.Share | backend/routes/stories.js:183-207 | 404 for an unknown story; a refused share changes nothing; an allowed one records the share |
| StoriesRoutes.StoryBoard.Delete | backend/routes/stories.js:209-220 | 404 for an unknown story; 403 and no change for another user's story; the owner's story is removed |
| ProductsRoutes.ListPage | backend/routes/products.js:13-15 | page 1 and limit 12 by default, skip from the page |
| ProductsRoutes.PaginationOf | backend/routes/products.js:60-65 | the current page, the total, and the least page count covering the total |
| ProductsRoutes.PriceFilterOf | backend/routes/products.js:34-38 | a price range exactly when a bound is given, holding exactly the bounds given |
| ProductsRoutes.Keep | backend/routes/products.js:31-33 | a filter is kept exactly when given and non-empty |
| ProductsRoutes.QueryOf | backend/routes/products.js:29-45 | each filter is kept exactly when given, and the price range as above |
| ProductsRoutes.SortOf | backend/routes/products.js:48-49 | the sort field defaults to createdAt; descending exactly when the order is "desc" or absent |
| ProductsRoutes.UpdateReply | backend/routes/products.js:141-176 | the update succeeds exactly for an approved vendor or admin who owns the product; 404 for a missing one; other refusals are 403 |
| ProductsRoutes.DeleteReply | backend/routes/products.js:177-200 | the delete succeeds exactly for a vendor or admin who owns the product, approved or not |
| ProductsRoutes.UnapprovedVendorDeletes | backend/routes/products.js:141-200 | an unapproved vendor cannot update its product but can delete it |
| ProductsRoutes.SumRatingsBounds | backend/routes/products.js:238 | the sum of n ratings from 1 to 5 lies between n and 5n |
| ProductsRoutes.Reviewed | backend/routes/products.js:230-240 | the review is appended and the average times the count equals the rating sum |
| ProductsRoutes.ReviewedAverageInRange | backend/routes/products.js:237-240 | after a valid review the average lies between 1 and 5 |
| ProductsRoutes.ReviewErrors | backend/routes/products.js:202-210 | no errors exactly when the rating is a whole number from 1 to 5 and the comment at most 500 characters; the rating message appears exactly for a missing, non-numeric, fractional or out-of-range rating, the comment message exactly for a comment over 500 characters |
| ProductsRoutes.ProductShelf.constructor | backend/routes/products.js:202 | the shelf holds the given products |
| ProductsRoutes.ProductShelf.AddReview | backend/routes/products.js:202-252 | invalid input (a rating that is not a whole number from 1 to 5, or a long comment) answers 400, a missing product 404, a user who already reviewed the product 400, each without change; otherwise only that product changes, by the review function |
| PaymentsRoutes.InitiateReply | backend/routes/payments.js:14-126 | 403 for non-customers; 400 without order or method; paid exactly for the caller's unpaid order and a known method, with the order total as amount for online methods |
| PaymentsRoutes.Settled | backend/routes/payments.js:69-70 | the order becomes paid and confirmed, nothing else changes |
| PaymentsRoutes.NewPayment | backend/routes/payments.js:51-103 | the payment is completed for the order total; a gateway exactly for online methods; no refund yet |
| PaymentsRoutes.NoUserIdNeverPays | backend/routes/payments.js:35 | a caller without a user id never pays (the ownership check compares with undefined) |
| PaymentsRoutes.RefundReply | backend/routes/payments.js:222-256 | accepted exactly for the caller's completed, not already refunded payment; 404 for an unknown one |
| PaymentsRoutes.RefundAmount | backend/routes/payments.js:258 | `amount \|\| payment.amount`: a missing or zero amount asks for the full amount |
| PaymentsRoutes.CanView | backend/routes/payments.js:145-146 | the test throws exactly when the populated customer is null (no customer field, or the user was deleted), whatever the role; otherwise the three staff roles may read it, and anyone else exactly when they are its customer, so a caller without a user id may not |
| PaymentsRoutes.ViewReply | backend/routes/payments.js:131-167 | 404 for an unknown payment; 500 when the access test throws, in particular for a payment with no customer or a deleted one; the payment itself exactly when the test grants access; 403 when it refuses |
| PaymentsRoutes.StaffRefusedOrphanPayment | backend/routes/payments.js:145-146 | an admin asking for a payment with no customer field gets the 500 reply, as does its refund request |
| PaymentsRoutes.DeletedCustomerPayment | backend/routes/payments.js:143-236 | for a payment whose customer's user was deleted, an admin gets the 500 reply from the details route while the refund route answers 403 to anyone but that customer |
| PaymentsRoutes.PaymentDesk.constructor | backend/routes/payments.js:14 | the desk holds the given orders and payments |
| PaymentsRoutes.PaymentDesk.Initiate | backend/routes/payments.js:14-126 | the reply is the initiate function's; only a paid reply settles the order and records the payment |
| PaymentsRoutes.PaymentDesk.RequestRefund | backend/routes/payments.js:222-264 | the reply is the refund function's; only an accepted request records a pending refund |
| PaymentsRoutes.PaidOrderRefusedAgain | backend/routes/payments.js:43-48 | an order once paid is refused a second payment |
| PaymentsRoutes.RefundRequestRepeatable | backend/routes/payments.js:250-264 | a pending refund does not block another request, since only a completed refund is refused |
| CartService.Key | frontend/src/app/core/services/cart.service.ts:134 | `x \|\| 'default'`: a missing or empty size or colour becomes "default" |
| CartService.LineId | frontend/src/app/core/services/cart.service.ts:134 | the local line id is the product id, "_", the size key, "_" and the colour key, with "default" for a missing size or colour |
| CartService.IsInCart | frontend/src/app/core/services/cart.service.ts:255-261 | true exactly when some line has the product, size and colour, a missing size or colour counting as "default" |
| CartService.TotalQuantity | frontend/src/app/core/services/cart.service.ts:103-107 | the item count is never negative for non-negative quantities and is at least the number of lines when each has a quantity of at least one |
| CartService.ItemsTotal | frontend/src/app/core/services/cart.service.ts:244-248 | the fallback total over the lines is never negative for non-negative prices and quantities |
| CartService.TotalQuantityAppend | frontend/src/app/core/services/cart.service.ts:103-107 | the item count grows by the appended line's quantity |
| CartService.TotalQuantityUpdate | frontend/src/app/core/services/cart.service.ts:103-107 | replacing a line changes the item count by the quantity difference |
| CartService.AddedLocally | frontend/src/app/core/services/cart.service.ts:150-164 | when a line for the product, size and colour exists, the first such line gains the quantity and nothing else changes; otherwise one new line with the composite id is appended; the cart total grows by the quantity |
| CartService.AddedLocallyKeepsLinesUnique | frontend/src/app/core/services/cart.service.ts:150-164 | adding keeps at most one line per product, size and colour, and adds at most one line |
| CartService.FirstLineUnique | frontend/src/app/core/services/cart.service.ts:151-155 | only one index is the first line with a given product, size and colour |
| CartService.Increased | frontend/src/app/core/services/cart.service.ts:157-158 | raising the quantity of a matching line raises the item count by that quantity and keeps a line with the key |
| CartService.IncreasedFirst | frontend/src/app/core/services/cart.service.ts:151-158 | updating the first matching line is the update of every index that is first to match, and a cart with a matching line is not one without |
| CartService.Appended | frontend/src/app/core/services/cart.service.ts:159-161 | appending the new line when no line has the key raises the item count by its quantity, and the cart then has a line with the key |
| CartService.GetCartItem | frontend/src/app/core/services/cart.service.ts:263-269 | the first line for the product, size and colour; none exactly when the cart has no such line |
| CartService.Cart.constructor | frontend/src/app/core/services/cart.service.ts:38-40 | the cart starts empty with count 0 and no summary |
| CartService.Cart.UpdateCartCount | frontend/src/app/core/services/cart.service.ts:103-107 | the count becomes the sum of the line quantities |
| CartService.Cart.AddToCartLegacy | frontend/src/app/core/services/cart.service.ts:116-175 | always reports success; an accepted server call leaves the local cart alone, otherwise the local fallback adds the line and the count follows |
| CartService.Cart.CartTotal | frontend/src/app/core/services/cart.service.ts:238-249 | the server summary's total when present, else the sum over the lines |
| WishlistService.AddedOffline | frontend/src/app/core/services/wishlist.service.ts:153-184 | nothing is stored when the product is already listed; otherwise one item for it is appended to the stored list |
| WishlistService.IsInWishlist | frontend/src/app/core/services/wishlist.service.ts:113-116 | true exactly when some item carries the product id |
| WishlistService.RemovedOffline | frontend/src/app/core/services/wishlist.service.ts:186-200 | the product is no longer listed and every other item stays |
| WishlistService.AddThenRemoveRestores | frontend/src/app/core/services/wishlist.service.ts:153-200 | adding an unlisted product offline then removing it restores the stored list |
| WishlistService.Wishlist.constructor | frontend/src/app/core/services/wishlist.service.ts:49-50 | the wishlist starts empty with nothing stored |
| WishlistService.Wishlist.AddOffline | frontend/src/app/core/services/wishlist.service.ts:153-184 | after adding, the stored list holds the product; the visible items and count follow the stored list when it changed |
| WishlistService.Wishlist.RemoveOffline | frontend/src/app/core/services/wishlist.service.ts:186-200 | without a stored list nothing changes; otherwise the product is removed and the items follow |
| WishlistService.Wishlist.ToggleOffline | frontend/src/app/core/services/wishlist.service.ts:202-209 | removes when the visible items hold the product, adds otherwise |
| WishlistService.Wishlist.Cleared | frontend/src/app/core/services/wishlist.service.ts:88-95 | a successful clear empties the items and count |
| WishlistService.ToggleCanMissTheStoredList | frontend/src/app/core/services/wishlist.service.ts:202-209 | toggling reads the visible items but writes the stored list, so a product visible but not stored is not removed |
| MediaService.IsLikelyToFail | frontend/src/app/core/services/media.service.ts:69-71 | true exactly for an external image URL (four substring tests decide it) or a broken one |
| MediaService.ExternalDomainsOverlap | frontend/src/app/core/services/media.service.ts:203-214 | the six-domain external test is decided by four substrings, since two domains contain others |
| MediaService.IsExternalImageUrl | frontend/src/app/core/services/media.service.ts:203-214 | true exactly when the URL contains one of the six placeholder-image domains |
| MediaService.IsBrokenUrl | frontend/src/app/core/services/media.service.ts:367-369 | true exactly when the URL contains one of the five known-broken patterns |
| MediaService.IsVideoUrl | frontend/src/app/core/services/media.service.ts:250-257 | never for the empty URL; otherwise true exactly when the lower-cased URL contains "video" or a video extension |
| MediaService.UpperCaseExtensionIsVideo | frontend/src/app/core/services/media.service.ts:250-257 | the test is case-insensitive: ".MP4" is a video |
| MediaService.GetReplacementMediaUrl | frontend/src/app/core/services/media.service.ts:143-162 | the first mapping whose key the lower-cased URL contains gives the replacement; none gives the slot's fallback |
| MediaService.LocalAssetPath | frontend/src/app/core/services/media.service.ts:129-130 | the text after "localhost:4200" is kept as the path |
| MediaService.AssetPatternHasHost | frontend/src/app/core/services/media.service.ts:127-129 | a local asset URL names the local host, so the split has a second piece |
| MediaService.FixBrokenUrl | frontend/src/app/core/services/media.service.ts:116-138 | a URL without a broken pattern is kept as it is |
| MediaService.FixStoryUpload | frontend/src/app/core/services/media.service.ts:121-123 | a story upload URL is replaced through the mapping table |
| MediaService.FixSampleVideo | frontend/src/app/core/services/media.service.ts:124-126 | a sample-videos URL takes the random sample-video branch, which the model treats as failing |
| MediaService.FixLocalAsset | frontend/src/app/core/services/media.service.ts:127-131 | a local asset URL is replaced by its path |
| MediaService.FixFileUrl | frontend/src/app/core/services/media.service.ts:132-134 | a file:// URL is replaced by the slot's fallback image |
| MediaService.GetSafeImageUrl | frontend/src/app/core/services/media.service.ts:76-111 | a missing or blank URL gives the inline placeholder; the call fails exactly in the sample-video branch; a URL the fix changed is returned fixed |
| MediaService.UnbrokenUrl | frontend/src/app/core/services/media.service.ts:87-110 | a non-blank URL without a broken pattern is shown as it is exactly when it is external, parses or is relative; otherwise the placeholder |
| MediaService.ExternalUrlKept | frontend/src/app/core/services/media.service.ts:94-97 | an external image URL that is not broken is returned as a link |
| MediaService.SampleVideoUrlThrows | frontend/src/app/core/services/media.service.ts:82-85 | a sample-video URL makes the safe-URL call fail |
| StoriesViewer.StoryDuration | frontend/src/app/features/stories/stories-viewer.component.ts:1571-1573 | images last 15 seconds, videos their own duration |
| StoriesViewer.TimerDelay | frontend/src/app/features/stories/stories-viewer.component.ts:1652-1654 | the timer waits 15000 ms for an image |
| StoriesViewer.TimerMatchesDuration | frontend/src/app/features/stories/stories-viewer.component.ts:1571-1654 | the timer delay is the story duration in milliseconds |
| StoriesViewer.StoryThumbnail | frontend/src/app/features/stories/stories-viewer.component.ts:1709-1714 | images show their own URL; anything else shown is the video's non-empty thumbnail |
| StoriesViewer.ProgressWidth | frontend/src/app/features/stories/stories-viewer.component.ts:1702-1707 | 100 exactly for earlier stories, 0 exactly for the current and later ones |
| StoriesViewer.ThumbnailProgress | frontend/src/app/features/stories/stories-viewer.component.ts:1716-1724 | the thumbnail bar shows the same progress as the top bar |
| StoriesViewer.Viewer.constructor | frontend/src/app/features/stories/stories-viewer.component.ts:1460-1488 | the viewer starts with no stories at the requested index, no timer and not closed |
| StoriesViewer.Viewer.StartStoryTimer | frontend/src/app/features/stories/stories-viewer.component.ts:1647-1659 | the old timer is cleared; with a current story the new one has its delay; nothing else changes |
| StoriesViewer.Viewer.Load | frontend/src/app/features/stories/stories-viewer.component.ts:1592-1618 | the stories are exactly the active ones in order; with stories the index is clamped to the last one |
| StoriesViewer.Viewer.NextStory | frontend/src/app/features/stories/stories-viewer.component.ts:1661-1670 | moves one forward, or closes at the last story; keeps the index valid |
| StoriesViewer.Viewer.PreviousStory | frontend/src/app/features/stories/stories-viewer.component.ts:1672-1679 | moves one back, or stays at the first story |
| StoriesViewer.Viewer.JumpToStoryIndex | frontend/src/app/features/stories/stories-viewer.component.ts:1681-1688 | moves to a valid different index, otherwise nothing changes |
| StoriesViewer.Viewer.JumpToStory | frontend/src/app/features/stories/stories-viewer.component.ts:1638-1645 | moves to the first story with the id, or stays when none has it |
| StoryViewer.BrokenMarkersCoverServicePatterns | frontend/src/app/features/story/story-viewer/story-viewer.component.ts:1077-1079 | every URL the media service calls broken, apart from file:// URLs, is also broken for the viewer |
| StoryViewer.IsBrokenMediaUrl | frontend/src/app/features/story/story-viewer/story-viewer.component.ts:1077-1079 | true exactly when the URL mentions uploads, the sample-video site or localhost |
| StoryViewer.EnhanceStoriesWithMedia | frontend/src/app/features/story/story-viewer/story-viewer.component.ts:1052-1075 | one story per input in order; a story needing a fallback gets the fallback media, the others are kept; none needs a fallback afterwards |
| StoryViewer.EnhanceIdempotent | frontend/src/app/features/story/story-viewer/story-viewer.component.ts:1052-1075 | enhancing twice is enhancing once |
| StoryViewer.ProgressWidth | frontend/src/app/features/story/story-viewer/story-viewer.component.ts:1125-1133 | 100 for earlier stories, the running progress for the current one, 0 for later ones |
| StoryViewer.PadTwo | frontend/src/app/features/story/story-viewer/story-viewer.component.ts:1396 | one-character strings get a leading zero, longer ones are kept |
| StoryViewer.PaddedSeconds | frontend/src/app/features/story/story-viewer/story-viewer.component.ts:1395-1396 | seconds below 60 are written as exactly two digits with their value |
| StoryViewer.FormatDuration | frontend/src/app/features/story/story-viewer/story-viewer.component.ts:1393-1397 | "m:ss" whose minutes and two-digit seconds read back as the given number of seconds |
| StoryViewer.Viewer.constructor | frontend/src/app/features/story/story-viewer/story-viewer.component.ts:966-972 | the viewer starts empty at index 0 with no current story |
| StoryViewer.Viewer.StartStoryProgress | frontend/src/app/features/story/story-viewer/story-viewer.component.ts:1096-1116 | the progress restarts at 0 and the timer runs unless the current story is a video |
| StoryViewer.Viewer.LoadUserStories | frontend/src/app/features/story/story-viewer/story-viewer.component.ts:1028-1049 | the stories are the enhanced fetch; the index is clamped to the last story; an empty fetch leaves no current story |
| StoryViewer.Viewer.NextStory | frontend/src/app/features/story/story-viewer/story-viewer.component.ts:1135-1145 | moves one forward and resets the progress, or closes at the last story |
| StoryViewer.Viewer.PreviousStory | frontend/src/app/features/story/story-viewer/story-viewer.component.ts:1147-1154 | moves one back and resets the progress, or stays at the first story |
| TimeAgo.HourBucket | frontend/src/app/features/stories/stories-grid.component.ts:587-596 | "just now" under an hour, whole hours under a day, whole days after, each bucket bounding the elapsed time |
| TimeAgo.MinuteBucket | frontend/src/app/features/posts/social-feed.component.ts:1222-1232 | "just now" under a minute, minutes under an hour, then hours and days under a week, the date after |
| TimeAgo.MinuteBucketRefinesHourBucket | frontend/src/app/features/posts/post-detail.component.ts:998-1008 | between an hour and a week the minute-grained and hour-grained labels agree |
| TimeAgo.Label | frontend/src/app/features/posts/social-feed.component.ts:1229-1232 | "now" for just now; otherwise a run of decimal digits that reads back as the bucket's number, followed by m, h or d for minutes, hours or days |
| TimeAgo.Suffixed | frontend/src/app/features/posts/social-feed.component.ts:1230-1232 | the number's decimal digits, which read back as the number, followed by the unit letter |
| SocialFeed.Toggled | frontend/src/app/features/posts/social-feed.component.ts:1062-1076 | liking appends the user's mark; unliking removes every mark of the user and keeps the others |
| SocialFeed.ToggleOnOff | frontend/src/app/features/posts/social-feed.component.ts:1062-1076 | like then unlike leaves only the other users' marks, so a user's first like is undone |
| SocialFeed.NextPage | frontend/src/app/features/posts/social-feed.component.ts:1000 | the requested page is the one after the full pages of 10 already shown |
| SocialFeed.GroupStories | frontend/src/app/features/posts/social-feed.component.ts:946-972 | one group per author in first-appearance order, none empty, each holding that author's stories |
| SocialFeed.Feed.constructor | frontend/src/app/features/posts/social-feed.component.ts:920-926 | no posts, no comment drafts, not loading, more posts expected |
| SocialFeed.Feed.ToggleLike | frontend/src/app/features/posts/social-feed.component.ts:1062-1076 | only that post changes: its flag flips and the like marks toggle |
| SocialFeed.Feed.ToggleSave | frontend/src/app/features/posts/social-feed.component.ts:1078-1092 | only that post changes: its saved flag flips and the save marks toggle |
| SocialFeed.Feed.AddComment | frontend/src/app/features/posts/social-feed.component.ts:1118-1135 | a non-blank draft becomes a comment on that post and the draft is cleared; a blank one changes nothing; blank and trimmed are meant as in JavaScript, over the full ECMAScript white-space and line-terminator set |
| SocialFeed.Feed.LoadStories | frontend/src/app/features/posts/social-feed.component.ts:946-972 | the story groups are the author groups of the fetch |
| SocialFeed.Feed.RequestMorePosts | frontend/src/app/features/posts/social-feed.component.ts:996-1000 | no request while loading or when no more posts exist; otherwise asks for the next page and starts loading |
| SocialFeed.Feed.ReceiveMorePosts | frontend/src/app/features/posts/social-feed.component.ts:1003-1024 | new posts are appended unliked and unsaved and more are expected exactly after a full page of 10; an empty or unsuccessful answer stops paging; a failed request keeps the posts; loading ends |
| PostDetail.IsOwnPost | frontend/src/app/features/posts/post-detail.component.ts:824 | the post is one's own exactly when its author is the current user |
| PostDetail.PostPage.constructor | frontend/src/app/features/posts/post-detail.component.ts:780-785 | no post, empty draft, not one's own |
| PostDetail.PostPage.LoadPost | frontend/src/app/features/posts/post-detail.component.ts:811-831 | the loaded post starts unliked and unsaved and ownership is decided |
| PostDetail.PostPage.ToggleLike | frontend/src/app/features/posts/post-detail.component.ts:847-863 | without a post nothing changes; otherwise the like flag flips and the like marks toggle |
| PostDetail.PostPage.ToggleSave | frontend/src/app/features/posts/post-detail.component.ts:865-881 | without a post nothing changes; otherwise the save flag flips and the marks toggle |
| PostDetail.PostPage.AddComment | frontend/src/app/features/posts/post-detail.component.ts:909-925 | a non-blank draft on a loaded post becomes a comment and clears the draft; otherwise nothing changes; blank and trimmed are meant as in JavaScript, over the full ECMAScript white-space and line-terminator set |
| PostDetail.PostPage.BuyNow | frontend/src/app/features/posts/post-detail.component.ts:936-943 | checkout opens exactly for a post with a tagged product, with the first one |
| PostCard.WordRun | frontend/src/app/features/home/components/post-card/post-card.component.ts:405 | the maximal run of word characters at the start |
| PostCard.FormatCaption | frontend/src/app/features/home/components/post-card/post-card.component.ts:404-406 | a caption without '#' is returned unchanged |
| PostCard.HashtagWrapped | frontend/src/app/features/home/components/post-card/post-card.component.ts:405 | a '#' followed by a whole word is wrapped in the hashtag span and the rest is formatted after it |
| PostCard.StripFormatted | frontend/src/app/features/home/components/post-card/post-card.component.ts:404-406 | removing the spans from a formatted caption without '<' gives back the caption |
| PostCard.RecentComments | frontend/src/app/features/home/components/post-card/post-card.component.ts:408-410 | the last two comments, or all when fewer |
| PostCard.LikeStep | frontend/src/app/features/home/components/post-card/post-card.component.ts:412-416 | the flag flips and the count moves by one, up exactly when now liked |
| PostCard.LikeTwiceRestores | frontend/src/app/features/home/components/post-card/post-card.component.ts:412-416 | toggling twice restores flag and count |
| PostCard.Card.constructor | frontend/src/app/features/home/components/post-card/post-card.component.ts:384-391 | not liked, not saved, empty draft, the analytics like count |
| PostCard.Card.ToggleLike | frontend/src/app/features/home/components/post-card/post-card.component.ts:412-416 | the flag and count move by the like step and the post id is emitted |
| PostCard.Card.ToggleSave | frontend/src/app/features/home/components/post-card/post-card.component.ts:418-420 | the saved flag flips, nothing else changes |
| PostCard.Card.AddComment | frontend/src/app/features/home/components/post-card/post-card.component.ts:422-430 | a non-blank draft is emitted trimmed with the post id and cleared; a blank one is kept and nothing is emitted; blank and trimmed are meant as in JavaScript, over the full ECMAScript white-space and line-terminator set |
| CreateStory.SearchResults | frontend/src/app/features/vendor/pages/stories/create-story.component.ts:645-666 | no results for queries of up to two UTF-16 code units; otherwise exactly the demo products whose lower-cased name contains the lower-cased query |
| Text.Utf16Length | frontend/src/app/features/vendor/pages/stories/create-story.component.ts:615 | JavaScript's string length: between the character count and twice it, and equal to the character count exactly when no character lies outside the Basic Multilingual Plane |
| CreateStory.SearchResultsInListOrder | frontend/src/app/features/vendor/pages/stories/create-story.component.ts:651-662 | for a query of more than two characters the results are the demo list read at increasing positions, exactly the positions of the matching products |
| CreateStory.WithTag | frontend/src/app/features/vendor/pages/stories/create-story.component.ts:668-673 | the product ends up tagged; it is appended exactly when its id was not tagged yet |
| CreateStory.WithTagKeepsIdsDistinct | frontend/src/app/features/vendor/pages/stories/create-story.component.ts:668-673 | tagging keeps the tagged ids distinct |
| CreateStory.RemoveAtKeepsIdsDistinct | frontend/src/app/features/vendor/pages/stories/create-story.component.ts:675-677 | removing a tag keeps the tagged ids distinct |
| CreateStory.MediaKindOf | frontend/src/app/features/vendor/pages/stories/create-story.component.ts:689 | image exactly when the MIME type starts with "image" |
| CreateStory.DigitRun | frontend/src/app/features/vendor/pages/stories/create-story.component.ts:702 | the maximal run of leading digits |
| CreateStory.ParseInt | frontend/src/app/features/vendor/pages/stories/create-story.component.ts:702 | JavaScript parseInt on decimal digits only: after white space and an optional sign, the value of the leading digit run, negated after "-"; none exactly when no digit follows |
| CreateStory.ParseIntOfNatToString | frontend/src/app/features/vendor/pages/stories/create-story.component.ts:619 | the written form of a whole number parses back to it, so the default "24" gives 24 |
| CreateStory.Payload | frontend/src/app/features/vendor/pages/stories/create-story.component.ts:683-708 | a payload exactly for a valid form (a caption of at most 500 UTF-16 code units) with media; tagged products in order at (50, 50), the caption, settings and parsed duration |
| CreateStory.CentredTags | frontend/src/app/features/vendor/pages/stories/create-story.component.ts:693-696 | one product tag per tagged product, in order, each carrying that product's id and the centre position (50, 50) |
| CreateStory.Composer.constructor | frontend/src/app/features/vendor/pages/stories/create-story.component.ts:604-607 | no media, no tags, no results, not uploading |
| CreateStory.Composer.SearchProducts | frontend/src/app/features/vendor/pages/stories/create-story.component.ts:645-666 | the results are the search function's; nothing else changes |
| CreateStory.Composer.AddProductTag | frontend/src/app/features/vendor/pages/stories/create-story.component.ts:668-673 | the tags follow the tag function, the ids stay distinct, the results are cleared |
| CreateStory.Composer.RemoveProductTag | frontend/src/app/features/vendor/pages/stories/create-story.component.ts:675-677 | the tag at the index is spliced out and the ids stay distinct |
| CreateStory.Composer.MediaRead | frontend/src/app/features/vendor/pages/stories/create-story.component.ts:625-639 | the first picked file becomes the selected media with its preview; no file changes nothing |
| CreateStory.Composer.RemoveMedia | frontend/src/app/features/vendor/pages/stories/create-story.component.ts:641-643 | the media is cleared, nothing else changes |
| CreateStory.Composer.Submit | frontend/src/app/features/vendor/pages/stories/create-story.component.ts:683-708 | the payload is the payload function's and uploading starts exactly when there is one |
| CreateStory.Composer.UploadTimerFired | frontend/src/app/features/vendor/pages/stories/create-story.component.ts:705-708 | the 2000 ms timer ends the upload; media, tags and results are unchanged |
| CreateProduct.AcceptedAsWritten | frontend/src/app/features/vendor/pages/products/create-product.component.ts:401-416 | as written: all files are read when fewer than five images are shown, none otherwise |
| CreateProduct.AsWrittenExceedsCap | frontend/src/app/features/vendor/pages/products/create-product.component.ts:405-407 | six files picked on an empty form are all read, beyond the limit of five |
| CreateProduct.AcceptedCapped | frontend/src/app/features/vendor/pages/products/create-product.component.ts:401-416 | corrected: a prefix of the files that never takes the total past five and stops only at the limit |
| CreateProduct.CappedKeepsLimit | frontend/src/app/features/vendor/pages/products/create-product.component.ts:401-416 | the corrected selection never exceeds five images and keeps every file when they fit |
| CreateProduct.Ticked | frontend/src/app/features/vendor/pages/products/create-product.component.ts:422-438 | a ticked value is appended; an unticked one is removed everywhere, others kept |
| CreateProduct.TickThenUntick | frontend/src/app/features/vendor/pages/products/create-product.component.ts:422-438 | ticking then unticking equals unticking |
| CreateProduct.Payload | frontend/src/app/features/vendor/pages/products/create-product.component.ts:445-466 | a payload exactly for a valid form; the image previews in order, the sizes and colours |
| CreateProduct.Composer.constructor | frontend/src/app/features/vendor/pages/products/create-product.component.ts:368-371 | no images, sizes or colours, not uploading |
| CreateProduct.Composer.SelectFilesAsWritten | frontend/src/app/features/vendor/pages/products/create-product.component.ts:401-416 | as written: queues the files the length check lets through |
| CreateProduct.Composer.SelectFiles | frontend/src/app/features/vendor/pages/products/create-product.component.ts:401-416 | corrected: queues the capped files and keeps shown plus pending images at most five |
| CreateProduct.Composer.FinishRead | frontend/src/app/features/vendor/pages/products/create-product.component.ts:410-412 | the oldest pending read becomes an image with its preview, keeping the limit |
| CreateProduct.Composer.RemoveImage | frontend/src/app/features/vendor/pages/products/create-product.component.ts:418-420 | the image at the index is spliced out |
| CreateProduct.Composer.OnSizeChange | frontend/src/app/features/vendor/pages/products/create-product.component.ts:422-429 | the sizes follow the tick function |
| CreateProduct.Composer.OnColorChange | frontend/src/app/features/vendor/pages/products/create-product.component.ts:431-438 | the colours follow the tick function |
| CreateProduct.Composer.Submit | frontend/src/app/features/vendor/pages/products/create-product.component.ts:445-466 | the payload is the payload function's; uploading starts exactly for a valid form and is set whenever a payload is emitted |
| CreateProduct.Composer.UploadTimerFired | frontend/src/app/features/vendor/pages/products/create-product.component.ts:460-464 | the simulated call's timer ends the upload and changes nothing else |
| ProductDetail.StarFor | frontend/src/app/features/product/product-detail/product-detail.component.ts:588-601 | full exactly when the star's number is at most the rating, half exactly within half a star below it |
| ProductDetail.StarsOrdered | frontend/src/app/features/product/product-detail/product-detail.component.ts:588-601 | a full or half star is preceded only by full stars, an empty one followed only by empty ones |
| ProductDetail.DetailPage.constructor | frontend/src/app/features/product/product-detail/product-detail.component.ts:459-468 | loading, no product, quantity 1, nothing selected |
| ProductDetail.DetailPage.LoadProduct | frontend/src/app/features/product/product-detail/product-detail.component.ts:487-504 | a product shows with its first image; a failed load shows the error; loading ends either way |
| ProductDetail.DetailPage.SelectSize | frontend/src/app/features/product/product-detail/product-detail.component.ts:510-512 | the size is selected, nothing else changes |
| ProductDetail.DetailPage.SelectColor | frontend/src/app/features/product/product-detail/product-detail.component.ts:514-516 | the colour is selected, nothing else changes |
| ProductDetail.DetailPage.IncreaseQuantity | frontend/src/app/features/product/product-detail/product-detail.component.ts:518-522 | the quantity rises by one up to 10 and stays in 1..10 |
| ProductDetail.DetailPage.DecreaseQuantity | frontend/src/app/features/product/product-detail/product-detail.component.ts:524-528 | the quantity falls by one down to 1 and stays in 1..10 |
| ProductDetail.DetailPage.CanAddToCart | frontend/src/app/features/product/product-detail/product-detail.component.ts:530-540 | true exactly when a product is shown and a size and a colour are chosen wherever the product offers any |
| ProductDetail.DetailPage.AddToCart | frontend/src/app/features/product/product-detail/product-detail.component.ts:530-555 | a request exactly when adding is allowed, for the product, quantity, size and colour |
| ProductDetail.DetailPage.BuyNow | frontend/src/app/features/product/product-detail/product-detail.component.ts:557-570 | the same request, and checkout opens exactly when it succeeded |
| ProductDetail.DetailPage.ToggleWishlist | frontend/src/app/features/product/product-detail/product-detail.component.ts:572-586 | with a product the flag flips; the offline toggle runs exactly when the server did not answer |
| ProductDetail.DetailPage.GetStars | frontend/src/app/features/product/product-detail/product-detail.component.ts:588-601 | five stars, the i-th filled according to the rating |
| Numbers.Round | frontend/src/app/shared/components/shopping-actions/shopping-actions.component.ts:272 | Math.round: the nearest integer, halves rounded up |
| Numbers.RoundMonotone | frontend/src/app/shared/components/shopping-actions/shopping-actions.component.ts:272 | rounding is monotone |
| Numbers.RoundWhole | frontend/src/app/shared/components/shopping-actions/shopping-actions.component.ts:272 | a whole number rounds to itself |
| ShoppingActions.DiscountPercentage | frontend/src/app/shared/components/shopping-actions/shopping-actions.component.ts:270-275 | 0 unless the original price is given and above the price; then the rounded percentage saved |
| ShoppingActions.DiscountInPercentRange | frontend/src/app/shared/components/shopping-actions/shopping-actions.component.ts:270-275 | for a non-negative price the discount lies between 0 and 100 |
| ShoppingActions.Actions.constructor | frontend/src/app/shared/components/shopping-actions/shopping-actions.component.ts:251-255 | nothing loading, not in cart, not in wishlist |
| ShoppingActions.Actions.OnBuyNow | frontend/src/app/shared/components/shopping-actions/shopping-actions.component.ts:287-302 | anonymous users go to login; otherwise loading starts and the product is emitted |
| ShoppingActions.Actions.BuyTimerFired | frontend/src/app/shared/components/shopping-actions/shopping-actions.component.ts:298-301 | after the delay loading ends and checkout opens |
| ShoppingActions.Actions.OnAddToCart | frontend/src/app/shared/components/shopping-actions/shopping-actions.component.ts:304-324 | anonymous users go to login; otherwise loading starts |
| ShoppingActions.Actions.CartTimerFired | frontend/src/app/shared/components/shopping-actions/shopping-actions.component.ts:314-323 | after the delay the cart flag flips and loading ends |
| ShoppingActions.Actions.OnToggleWishlist | frontend/src/app/shared/components/shopping-actions/shopping-actions.component.ts:326-346 | anonymous users go to login; otherwise loading starts |
| ShoppingActions.Actions.WishlistTimerFired | frontend/src/app/shared/components/shopping-actions/shopping-actions.component.ts:336-345 | after the delay the wishlist flag flips and loading ends |
| Rating.StarIcon | frontend/src/app/shared/components/rating/rating.component.ts:39-48 | full at or above the star, half from half a star below, empty under that |
| Rating.StarColorOf | frontend/src/app/shared/components/rating/rating.component.ts:50-52 | warning colour exactly when the value exceeds the index |
| Rating.LitStarsAreWarning | frontend/src/app/shared/components/rating/rating.component.ts:39-52 | every full or half star is coloured warning |
| Rating.ClickedValueFillsStars | frontend/src/app/shared/components/rating/rating.component.ts:54-60 | after clicking star i the stars up to i are full and the next one empty |
| Rating.Widget.constructor | frontend/src/app/shared/components/rating/rating.component.ts:25-28 | the widget holds the given value, star count and interactivity |
| Rating.Widget.Stars | frontend/src/app/shared/components/rating/rating.component.ts:35-37 | the indices 0 to maxStars-1 in order |
| Rating.Widget.OnStarClick | frontend/src/app/shared/components/rating/rating.component.ts:54-60 | interactive: the value becomes index+1 and is emitted; otherwise nothing happens |
| StoriesGrid.ThumbnailOr | frontend/src/app/features/stories/stories-grid.component.ts:578-579 | the video thumbnail when given and non-empty, otherwise the default image; never empty |
| StoriesGrid.StoryThumbnail | frontend/src/app/features/stories/stories-grid.component.ts:577-581 | images show their URL, videos their thumbnail or the default image |
| StoriesGrid.PreviewImage | frontend/src/app/features/stories/stories-grid.component.ts:570-575 | no preview exactly for a group without stories |
| StoriesGrid.PreviewIsFirstThumbnail | frontend/src/app/features/stories/stories-grid.component.ts:570-575 | the preview is the first story's thumbnail |
| StoriesGrid.HasVideo | frontend/src/app/features/stories/stories-grid.component.ts:583-585 | true exactly when some story is a video |
| StoriesGrid.VideoInFirstStoryShowsInFlag | frontend/src/app/features/stories/stories-grid.component.ts:583-585 | a group opening with a video is flagged |
| VendorStories.JsRem | frontend/src/app/features/vendor/pages/stories/vendor-stories.component.ts:355 | JavaScript remainder agrees with the mathematical one on non-negative operands |
| VendorStories.MinutesIntoHour | frontend/src/app/features/vendor/pages/stories/vendor-stories.component.ts:355 | the minutes into the hour lie in 0..59 |
| VendorStories.TimeRemaining | frontend/src/app/features/vendor/pages/stories/vendor-stories.component.ts:345-360 | expired exactly after 24 hours; otherwise whole hours left between 1 and 24 |
| VendorStories.NoMinutesBranch | frontend/src/app/features/vendor/pages/stories/vendor-stories.component.ts:352-356 | the minutes-left branch is never taken, since whole hours left are at least 1 before expiry |
| VendorStories.StoryStatus | frontend/src/app/features/vendor/pages/stories/vendor-stories.component.ts:362-368 | expired exactly after 24 hours |
| VendorStories.RemainingAgreesWithStatus | frontend/src/app/features/vendor/pages/stories/vendor-stories.component.ts:345-368 | the remaining-time label and the status agree on expiry |
| VendorStories.StoryList.constructor | frontend/src/app/features/vendor/pages/stories/vendor-stories.component.ts:340-343 | the list starts empty |
| VendorStories.StoryList.DeleteStory | frontend/src/app/features/vendor/pages/stories/vendor-stories.component.ts:380-385 | a confirmed delete removes exactly the stories with the id; otherwise nothing changes |
| CartPage.Tax | frontend/src/app/mobile/cart/cart.page.ts:127-129 | 18% of the subtotal rounded, 0 without a summary |
| CartPage.Shipping | frontend/src/app/mobile/cart/cart.page.ts:131-133 | free exactly from 500 upward, otherwise 50 |
| CartPage.DiscountOf | frontend/src/app/mobile/cart/cart.page.ts:135-138 | the summary's discount or 0 |
| CartPage.Total | frontend/src/app/mobile/cart/cart.page.ts:135-138 | 0 without a summary |
| CartPage.TotalSurcharge | frontend/src/app/mobile/cart/cart.page.ts:135-138 | the total is the subtotal plus tax, plus 50 below 500, minus the discount |
| CartPage.ImageUrl | frontend/src/app/mobile/cart/cart.page.ts:140-145 | a string is used as is, an object's non-empty url next, the placeholder otherwise |
| CartPage.QuantityUpdate | frontend/src/app/mobile/cart/cart.page.ts:54-67 | no update exactly for quantities below 1 |
| CartPage.ProceedToCheckout | frontend/src/app/mobile/cart/cart.page.ts:147-153 | checkout exactly for a non-empty cart |
| Sidebar.ActiveGroups | frontend/src/app/admin/layout/sidebar.component.ts:214-226 | exactly the labels of menu groups with a child whose route prefixes the current route |
| Sidebar.ActiveGroupsSnoc | frontend/src/app/admin/layout/sidebar.component.ts:214-226 | a menu item adds its label exactly when it has an active child |
| Sidebar.LoosePrefixOpensUsers | frontend/src/app/admin/layout/sidebar.component.ts:219 | the prefix test opens the Users group for "/admin/usersX", a route that is not under it |
| Sidebar.Toggled | frontend/src/app/admin/layout/sidebar.component.ts:202-208 | toggling flips membership of the label and keeps the others |
| Sidebar.ToggleTwice | frontend/src/app/admin/layout/sidebar.component.ts:202-208 | toggling twice restores the set |
| Sidebar.Menu.constructor | frontend/src/app/admin/layout/sidebar.component.ts:117-174 | nothing expanded, empty route, the seven menu items |
| Sidebar.Menu.ToggleExpanded | frontend/src/app/admin/layout/sidebar.component.ts:202-208 | the expanded set follows the toggle function |
| Sidebar.Menu.IsExpanded | frontend/src/app/admin/layout/sidebar.component.ts:210-212 | true exactly when the group is in the expanded set; toggling a group flips it and no other |
| Sidebar.Menu.AutoExpandForCurrentRoute | frontend/src/app/admin/layout/sidebar.component.ts:214-226 | the active groups are added to the expanded set and nothing is removed |
| Sidebar.Menu.Navigated | frontend/src/app/admin/layout/sidebar.component.ts:188-199 | the route becomes the new URL and its active groups are expanded |
| Lists.FilterKeepsOrder | frontend/src/app/features/vendor/pages/stories/create-story.component.ts:662 | `filter` keeps order: its result is the list read at increasing positions, exactly the positions whose element passes the test |
| Lists.RemoveAt | frontend/src/app/features/vendor/pages/stories/create-story.component.ts:675-677 | JavaScript splice(i, 1): one element fewer when the normalised index is in range, else unchanged; order kept |
| Lists.SpliceStart | frontend/src/app/features/vendor/pages/stories/create-story.component.ts:676 | a negative start counts from the end, clamped to the list |

## Left out

- HTTP plumbing: headers, CORS, JSON encoding, status text, console output and timestamps are not modelled; the time is a parameter.
- MongoDB: `populate`, `sort`, `skip` and `limit` of the route queries, `save`, and the 500 replies of the catch blocks are not modelled; the skip and limit values are computed.
- Regular-expression semantics of the brand and search filters are not modelled; the filter keeps the given text.
- Static file contents are not modelled; a route answers with the file name it would serve.
- The nested metric lists of the department pages and the other mock dashboards are not modelled.
- The users list route, the product GET by id with its view counter, product creation, categories and filters are not modelled; they only read or write documents.
- The payments route's `req.user.userId` is a parameter, since the `User` model that would supply it is not part of this model; the same holds for `vendorInfo.isApproved`.
- ProductsRoutes.ReviewErrors: the rating field is a number or absent; a numeric string is taken as the number it spells, every other non-number (a word, null, a boolean) as absent, and a rating sent as an array, which the validator checks element by element, is not modelled.
- `parseFloat` of the price bounds is not modelled; the bounds are kept as the given strings.
- Prototype keys (`accounts['__proto__']`, `departmentData['constructor']`) are not modelled; the tables are plain maps.
- CartService.Cart.AddToCartLegacy: the outer catch that answers false when storage fails, `product._id || product.id`, the toast and the cart refresh are not modelled.
- WishlistService: JSON parse errors of local storage and the server add, remove and sync observables are not modelled.
- MediaService: the base64 backups are the abstract `InlinePlaceholder`; `new URL` validity is the `parses` parameter; `toLowerCase` in `isVideoUrl` and `fixBrokenUrl` is modelled on ASCII letters only; `handleImageError`, `getVideoByType`, `processMediaItems`, `enhanceWithSampleVideos`, preloading and error logging are not modelled.
- MediaService.FixSampleVideo: the random sample video is not modelled; the model returns a failure outcome for this branch instead of a URL.
- StoriesViewer: the timer firing `nextStory` later, touch, keyboard and scroll handling, comments and product modals are not modelled.
- StoryViewer: progress increments by timer, `updateCurrentMedia`, pause and resume are not modelled.
- StoryViewer.FormatDuration: only non-negative whole seconds are modelled.
- SocialFeed: the initial `loadPosts`, the order of `Object.values` for integer-like keys, sharing and navigation are not modelled; posts are values addressed by position, and the fetch is split into a request method and a reply method.
- PostDetail: navigation, sharing, the cart and wishlist buttons and the product modal are not modelled.
- PostCard.StripFormatted: the round trip is proved only for captions without '<'. Events are modelled as return values.
- CreateStory.SearchResults: `toLowerCase` is modelled on ASCII letters only, so a query or name with non-ASCII capitals (such as "É") is compared without lower-casing them.
- CreateStory.ParseInt: only decimal digits are modelled; the "0x" or "0X" prefix on which a radix-less `parseInt` switches to base 16 (so "0x1A" gives 26) is read here as the digit 0 followed by a stop.
- CreateStory: the FileReader is replaced by the preview it produces; `saveDraft`, console output, and the alert and navigation when the simulated call's timer fires are not modelled; the caption limit is the form validator only.
- CreateProduct: the alert and the navigation when the simulated call's timer fires are not modelled; reads are assumed to finish in selection order (the oldest pending read finishes first); `Validators.required` is modelled as a non-empty string; the other field validators are not modelled. `Composer.FinishRead` requires the class invariant of at most five images counting pending reads, so the six pending reads of the as-written picker cannot be finished inside the class; that excess is shown on values by `CreateProduct.AsWrittenExceedsCap`, and the class follows the corrected picker.
- ProductDetail: the route subscription, navigation and the wishlist server call are not modelled; the `|| 0` on the rating also maps NaN, which is not modelled since ratings are reals.
- ShoppingActions: alerts are not modelled, the 1000 ms timer is split into a separate fired method, and the emitted product is a flag.
- Rating: the `toFixed` display is not modelled, and `maxStars` is taken as non-negative since `Array` of a negative length throws.
- StoriesGrid: the fetch in `loadStoryGroups`, `setViewMode` and opening a group are not modelled.
- VendorStories: the confirm dialog is a parameter; viewing and analytics only log and are not modelled.
- PythonServer.HeadResponse: the file system is the `StaticEntry` parameter; the headers, the 304 answer to `If-Modified-Since`, a directory that cannot be listed, and the normalisation `translate_path` applies to the path (dropping `..` and empty segments, stripping trailing white space before the final-slash test) are not modelled.
- PaymentsRoutes.CanView: the set of existing user ids is a parameter, since the `User` collection is not part of this model.
- CartPage: the Ionic alerts for removing and clearing, `loadCart`, the service calls and refresh are not modelled; `typeof` on other kinds of value is not modelled; rounding of float products at exact .5 boundaries follows real arithmetic.
- Sidebar: the other menu fields (icon, badge, permission), `logout` and the current user subscription are not modelled.

## Findings

| source | as written | input that shows it | evidently intended | confidence | as-written member | corrected member |
|---|---|---|---|---|---|---|
| backend/quick-server.js:48 | `accounts[email] === password` compares two `undefined` values for an unknown e-mail without a password | body `{"email": "nobody@x.com"}` | log in only a known e-mail with its own password | not executed | QuickServer.LoginAsWritten, QuickServer.Route, QuickServer.UnknownAddressWithoutPassword, QuickServer.RoutesDifferOnUnknownAddress | QuickServer.LoginIntended, QuickServer.RouteIntended, QuickServer.IntendedAgreesWithAdminTable |
| backend/quick-server.js:48-70 | for a body with neither e-mail nor password the test holds, the 200 head is written, `email.split` throws, and the catch block's `writeHead(400)` throws again inside the `'end'` listener, so the process ends | body `{}` | refuse the request with 401 | not executed | QuickServer.LoginAsWritten, QuickServer.Route, QuickServer.EmptyBodyCrashes, QuickServer.RoutesDifferOnEmptyBody | QuickServer.LoginIntended, QuickServer.RouteIntended |
| frontend/src/app/features/vendor/pages/products/create-product.component.ts:401-416 | the limit `selectedImages.length < 5` is tested for every picked file before any read finishes, and the push happens later in `onload` | six images picked at once on an empty form give six images | at most five images | not executed | CreateProduct.AcceptedAsWritten, CreateProduct.AsWrittenExceedsCap | CreateProduct.AcceptedCapped, CreateProduct.CappedKeepsLimit |

=== FILE: admin_shared.dfy ===
/**
 * What backend/minimal-server.js and backend/standalone-server.js share
 * word for word: the five demo admin accounts, the credential match of the
 * login route, the static-file selection and the department path segment.
 */
module AdminShared {
  import opened Wrappers
  import opened Text
  import Lists

  datatype AdminUser = AdminUser(
    id: string, email: string, password: string, fullName: string, role: string,
    department: string, employeeId: string, isActive: bool)

  function SeededAdmins(): seq<AdminUser> {
    [ AdminUser("1", "superadmin@dfashion.com", "admin123", "Super Admin", "super_admin", "administration", "EMP001", true),
      AdminUser("2", "sales.manager@dfashion.com", "sales123", "Sales Manager", "sales_manager", "sales", "EMP002", true),
      AdminUser("3", "marketing.manager@dfashion.com", "marketing123", "Marketing Manager", "marketing_manager", "marketing", "EMP003", true),
      AdminUser("4", "accounts.manager@dfashion.com", "accounts123", "Account Manager", "account_manager", "accounting", "EMP004", true),
      AdminUser("5", "support.manager@dfashion.com", "support123", "Support Manager", "support_manager", "support", "EMP005", true) ]
  }

  /**
   * The login request body after `JSON.parse`: unparsable, or the two fields,
   * each possibly absent (`undefined`).
   */
  datatype LoginBody = Malformed | Fields(email: Option<string>, password: Option<string>)

  /**
   * `adminUsers.find(u => u.email === email && u.password === password)`:
   * an absent field never equals a stored string.
   */
  function FindAdmin(admins: seq<AdminUser>, email: Option<string>, password: Option<string>): (r: Option<AdminUser>)
    ensures r.Some? <==> exists i :: 0 <= i < |admins| && Some(admins[i].email) == email && Some(admins[i].password) == password
    ensures r.Some? ==> r.value in admins && Some(r.value.email) == email && Some(r.value.password) == password
  {
    var r := Lists.Find(admins, (u: AdminUser) => Some(u.email) == email && Some(u.password) == password);
    assert r.Some? ==> exists i :: 0 <= i < |admins| && Some(admins[i].email) == email && Some(admins[i].password) == password;
    r
  }

  /**
   * Each demo account logs in with its own password and with nothing else:
   * the e-mails are distinct, so a wrong or missing password finds nobody.
   */
  lemma SeededCredentials(i: nat, password: Option<string>)
    requires i < |SeededAdmins()|
    ensures FindAdmin(SeededAdmins(), Some(SeededAdmins()[i].email), password).Some?
        <==> password == Some(SeededAdmins()[i].password)
    ensures FindAdmin(SeededAdmins(), Some(SeededAdmins()[i].email), password).Some?
        ==> FindAdmin(SeededAdmins(), Some(SeededAdmins()[i].email), password).value == SeededAdmins()[i]
  {
  }

  /** `'demo-token-' + user.id + '-' + Date.now()`. */
  function LoginToken(id: string, now: nat): string {
    "demo-token-" + id + "-" + NatToString(now)
  }

  /** `pathname.split('/').pop()`. */
  function LastSegment(pathname: string): string {
    var pieces := Split(pathname, "/");
    pieces[|pieces| - 1]
  }

  lemma LastSegmentIsHtmlName(pathname: string)
    requires EndsWith(pathname, ".html")
    ensures '/' !in LastSegment(pathname) && EndsWith(LastSegment(pathname), ".html")
  {
    SplitLast(pathname, '/');
    SplitLastEndsWith(pathname, '/', ".html");
  }

  /** A request for the login page or another admin page under `public/`. */
  datatype StaticTarget = NoFile | File(name: string)

  /**
   * `/` and `/admin-login.html` serve admin-login.html; any other pathname
   * starting with `/admin` and ending with `.html` serves the file named by
   * its last segment, which therefore has no '/' and ends with `.html`.
   */
  function StaticFile(pathname: string): (r: StaticTarget)
    ensures pathname == "/" || pathname == "/admin-login.html" ==> r == File("admin-login.html")
    ensures r.NoFile? <==> pathname != "/" && pathname != "/admin-login.html"
                           && !(StartsWith(pathname, "/admin") && EndsWith(pathname, ".html"))
    ensures r.File? ==> '/' !in r.name && EndsWith(r.name, ".html")
  {
    if pathname == "/" || pathname == "/admin-login.html" then File("admin-login.html")
    else if StartsWith(pathname, "/admin") && EndsWith(pathname, ".html") then
      LastSegmentIsHtmlName(pathname);
      File(LastSegment(pathname))
    else NoFile
  }

  lemma DepartmentsPrefixWords()
    ensures "/api/admin/departments/" == "/" + "api" + "/" + "admin" + "/" + "departments" + "/"
  {
  }

  lemma DepartmentsWordsSplit(rest: string)
    ensures Split("/" + "api" + "/" + "admin" + "/" + "departments" + "/" + rest, "/")
         == ["", "api", "admin", "departments"] + Split(rest, "/")
  {
    var t3 := "departments" + "/" + rest;
    var t2 := "admin" + "/" + t3;
    var t1 := "api" + "/" + t2;
    assert "/" + "api" + "/" + "admin" + "/" + "departments" + "/" + rest == "" + "/" + t1;
    SplitAppend("", '/', t1);
    SplitAppend("api", '/', t2);
    SplitAppend("admin", '/', t3);
    SplitAppend("departments", '/', rest);
  }

  /** The departments prefix contributes four fixed pieces to the split. */
  lemma DepartmentsPathSplit(rest: string)
    ensures Split("/api/admin/departments/" + rest, "/") == ["", "api", "admin", "departments"] + Split(rest, "/")
  {
    DepartmentsPrefixWords();
    DepartmentsWordsSplit(rest);
  }

  /** `pathname.split('/')[4]`, which always exists under the departments prefix. */
  function DepartmentSegment(pathname: string): string
    requires StartsWith(pathname, "/api/admin/departments/")
  {
    var rest := pathname[|"/api/admin/departments/"|..];
    assert pathname == "/api/admin/departments/" + rest;
    DepartmentsPathSplit(rest);
    Split(pathname, "/")[4]
  }

  /** A department path is none of the routes tested before it. */
  lemma DepartmentsPathIsNoOtherRoute(pathname: string)
    ensures StartsWith(pathname, "/api/admin/departments/") ==>
      pathname != "/api/health" && pathname != "/api/admin/auth/login" && pathname != "/api/admin/dashboard/stats"
  {
    if StartsWith(pathname, "/api/admin/departments/") {
      assert pathname[12] == "/api/admin/departments/"[12] == 'e';
      assert "/api/admin/dashboard/stats"[12] == 'a';
    }
  }

  /**
   * For `/api/admin/departments/<d>` and `/api/admin/departments/<d>/...`
   * the segment is `d`.
   */
  lemma DepartmentSegmentOf(d: string, rest: string)
    requires '/' !in d
    requires rest == [] || rest[0] == '/'
    ensures StartsWith("/api/admin/departments/" + d + rest, "/api/admin/departments/")
    ensures DepartmentSegment("/api/admin/departments/" + d + rest) == d
  {
    var path := "/api/admin/departments/" + (d + rest);
    assert path[..23] == "/api/admin/departments/";
    assert path[23..] == d + rest;
    DepartmentsPathSplit(d + rest);
    if rest == [] {
      assert d + rest == d;
      SplitNoSeparator(d, '/');
    } else {
      assert d + rest == d + [rest[0]] + rest[1..];
      SplitAppend(d, '/', rest[1..]);
    }
    assert "/api/admin/departments/" + d + rest == path;
  }
}

=== FILE: auth_middleware.dfy ===
/**
 * backend/middleware/auth.js: the bearer-token check and the role guards
 * that the Express routes put in front of their handlers.
 */
module AuthMiddleware {
  import opened Wrappers
  import opened Text
  import AdminShared

  /** The fields of a user document the guards read. */
  datatype AccountUser = AccountUser(id: string, role: string, isActive: bool, vendorApproved: Option<bool>)

  /**
   * What `jwt.verify` followed by `User.findById` makes of a token: an
   * invalid token (verify throws), no such user, or the stored user.
   */
  datatype Resolution = Rejected | NoSuchUser | Resolved(user: AccountUser)

  /**
   * The outcome of a middleware: `next()` with the user then on the request
   * (if any), or a JSON error reply with its status.
   */
  datatype Verdict = Next(user: Option<AccountUser>) | Deny(status: int, message: string)

  /**
   * `req.header('Authorization')?.replace('Bearer ', '')`: the header with its
   * first "Bearer " removed, wherever it occurs. Absent when the header is.
   */
  function TokenOf(header: Option<string>): (r: Option<string>)
    ensures r.Some? <==> header.Some?
    ensures header.Some? && StartsWith(header.value, "Bearer ") ==> r.value == header.value[7..]
  {
    match header
    case None => None
    case Some(h) => Some(ReplaceText(h, "Bearer ", ""))
  }

  /** A token is used only when it is present and not the empty string. */
  predicate HasToken(header: Option<string>) {
    TokenOf(header).Some? && TokenOf(header).value != ""
  }

  /**
   * `auth`: requests pass exactly when they carry a token that resolves to an
   * active user, who is then put on the request; everything else is a 401.
   */
  function Auth(header: Option<string>, resolve: string -> Resolution): (r: Verdict)
    ensures r.Next? <==> HasToken(header) && resolve(TokenOf(header).value).Resolved?
                         && resolve(TokenOf(header).value).user.isActive
    ensures r.Next? ==> r.user == Some(resolve(TokenOf(header).value).user) && r.user.value.isActive
    ensures r.Deny? ==> r.status == 401
    ensures !HasToken(header) ==> r == Deny(401, "No token, authorization denied")
    ensures HasToken(header) && resolve(TokenOf(header).value).Resolved? && !resolve(TokenOf(header).value).user.isActive
            ==> r == Deny(401, "Account is deactivated")
  {
    if !HasToken(header) then Deny(401, "No token, authorization denied")
    else match resolve(TokenOf(header).value)
      case Rejected => Deny(401, "Token is not valid")
      case NoSuchUser => Deny(401, "Token is not valid")
      case Resolved(u) => if !u.isActive then Deny(401, "Account is deactivated") else Next(Some(u))
  }

  /**
   * `optionalAuth` never rejects: it continues, with the user on the request
   * exactly when `auth` would have let the same request through.
   */
  function OptionalAuth(header: Option<string>, resolve: string -> Resolution): (r: Verdict)
    ensures r.Next?
    ensures r.user.Some? <==> Auth(header, resolve).Next?
    ensures r.user.Some? ==> r.user == Auth(header, resolve).user
  {
    if HasToken(header) then
      match resolve(TokenOf(header).value)
      case Resolved(u) => if u.isActive then Next(Some(u)) else Next(None)
      case _ => Next(None)
    else Next(None)
  }

  /** A header "Bearer " + t with a non-empty t carries the token t. */
  lemma BearerToken(t: string)
    requires t != ""
    ensures HasToken(Some("Bearer " + t)) && TokenOf(Some("Bearer " + t)).value == t
  {
    assert ("Bearer " + t)[7..] == t;
  }

  // ---------------------------------------------------------------------------
  // Role guards, run after `auth` on `req.user`

  function IsVendor(u: AccountUser): (r: Verdict)
    ensures r.Next? <==> u.role == "vendor" || u.role == "admin"
    ensures r.Next? ==> r.user == Some(u)
    ensures r.Deny? ==> r.status == 403
  {
    if u.role != "vendor" && u.role != "admin" then Deny(403, "Access denied. Vendor role required.")
    else Next(Some(u))
  }

  function IsAdmin(u: AccountUser): (r: Verdict)
    ensures r.Next? <==> u.role == "admin"
    ensures r.Next? ==> r.user == Some(u)
    ensures r.Deny? ==> r.status == 403
  {
    if u.role != "admin" then Deny(403, "Access denied. Admin role required.") else Next(Some(u))
  }

  function AdminRoles(): seq<string> {
    ["admin", "sales", "marketing", "accounting", "support"]
  }

  function RequireAdmin(u: AccountUser): (r: Verdict)
    ensures r.Next? <==> u.role in AdminRoles()
    ensures r.Next? ==> r.user == Some(u)
    ensures r.Deny? ==> r == Deny(403, "Admin access required")
  {
    if u.role !in AdminRoles() then Deny(403, "Admin access required") else Next(Some(u))
  }

  /** `requireRole(roles)` accepts one role or an array of roles. */
  datatype RoleSpec = One(role: string) | Many(roles: seq<string>)

  function AllowedRoles(spec: RoleSpec): (r: seq<string>)
    ensures spec.One? ==> r == [spec.role]
    ensures spec.Many? ==> r == spec.roles
  {
    match spec
    case One(role) => [role]
    case Many(roles) => roles
  }

  /** `allowedRoles.join(', ')`. */
  function JoinRoles(roles: seq<string>): string {
    if |roles| == 0 then ""
    else if |roles| == 1 then roles[0]
    else roles[0] + ", " + JoinRoles(roles[1..])
  }

  function RequireRole(spec: RoleSpec, u: AccountUser): (r: Verdict)
    ensures r.Next? <==> u.role in AllowedRoles(spec)
    ensures r.Next? ==> r.user == Some(u)
    ensures r.Deny? ==> r == Deny(403, "Access denied. Required roles: " + JoinRoles(AllowedRoles(spec)))
  {
    var allowed := AllowedRoles(spec);
    if u.role !in allowed then Deny(403, "Access denied. Required roles: " + JoinRoles(allowed))
    else Next(Some(u))
  }

  /**
   * `isApprovedVendor` refuses only vendors whose `vendorInfo.isApproved` is
   * not true (false or missing); every other role passes.
   */
  function IsApprovedVendor(u: AccountUser): (r: Verdict)
    ensures r.Deny? <==> u.role == "vendor" && u.vendorApproved != Some(true)
    ensures r.Next? ==> r.user == Some(u)
    ensures r.Deny? ==> r.status == 403
  {
    if u.role == "vendor" && u.vendorApproved != Some(true) then Deny(403, "Vendor account not approved yet.")
    else Next(Some(u))
  }

  function RequireCustomer(u: AccountUser): (r: Verdict)
    ensures r.Next? <==> u.role == "customer" || u.role == "admin"
    ensures r.Next? ==> r.user == Some(u)
    ensures r.Deny? ==> r.status == 403
  {
    if u.role != "customer" && u.role != "admin" then Deny(403, "Access denied. Customer role required.")
    else Next(Some(u))
  }

  /** The admin role passes every guard. */
  lemma AdminPassesAll(u: AccountUser, spec: RoleSpec)
    requires u.role == "admin"
    ensures IsVendor(u).Next? && IsAdmin(u).Next? && RequireAdmin(u).Next?
    ensures IsApprovedVendor(u).Next? && RequireCustomer(u).Next?
    ensures RequireRole(spec, u).Next? <==> "admin" in AllowedRoles(spec)
  {
  }

  /** `requireAdmin` is `requireRole` over its fixed list, up to the message. */
  lemma RequireAdminIsRequireRole(u: AccountUser)
    ensures RequireAdmin(u).Next? == RequireRole(Many(AdminRoles()), u).Next?
  {
  }

  /** A single role and the one-element list behave the same. */
  lemma RequireRoleOneIsMany(role: string, u: AccountUser)
    ensures RequireRole(One(role), u) == RequireRole(Many([role]), u)
  {
  }

  /**
   * None of the roles that the demo admin servers hand out (super_admin and
   * the *_manager roles) passes `requireAdmin`.
   */
  lemma DemoAdminRolesRefused(i: nat, u: AccountUser)
    requires i < |AdminShared.SeededAdmins()| && u.role == AdminShared.SeededAdmins()[i].role
    ensures RequireAdmin(u) == Deny(403, "Admin access required")
  {
  }
}

=== FILE: cart_page.dfy ===
/**
 * frontend/src/app/mobile/cart/cart.page.ts: the mobile cart page. Tax,
 * shipping and the total are derived from the cart summary; quantity
 * updates and checkout are guarded.
 */
module CartPage {
  import opened Wrappers
  import Numbers

  /** The server's cart summary; `discount` may be absent. */
  datatype Summary = Summary(subtotal: real, discount: Option<real>)

  const FreeShippingFrom := 500.0
  const ShippingFee := 50
  const PlaceholderImage := "/assets/images/placeholder.jpg"

  /** `getTax`: 18% of the subtotal, rounded; 0 before a summary arrives. */
  function Tax(summary: Option<Summary>): (r: int)
    ensures summary.None? ==> r == 0
    ensures summary.Some? ==> (r as real - 0.5 <= summary.value.subtotal * 0.18 < r as real + 0.5)
  {
    if summary.Some? then Numbers.Round(summary.value.subtotal * 0.18) else 0
  }

  /** `getShipping`: free from a subtotal of 500, otherwise 50, also with no summary. */
  function Shipping(summary: Option<Summary>): (r: int)
    ensures r == 0 <==> summary.Some? && summary.value.subtotal >= FreeShippingFrom
    ensures r == 0 || r == ShippingFee
  {
    if summary.Some? && summary.value.subtotal >= FreeShippingFrom then 0 else ShippingFee
  }

  /** `discount || 0`. */
  function DiscountOf(summary: Summary): (d: real)
    ensures summary.discount.Some? ==> d == summary.discount.value
    ensures summary.discount.None? ==> d == 0.0
  {
    if summary.discount.Some? then summary.discount.value else 0.0
  }

  /** `getTotal`: subtotal plus tax plus shipping less any discount; 0 with no summary. */
  function Total(summary: Option<Summary>): (r: real)
    ensures summary.None? ==> r == 0.0
  {
    if summary.None? then 0.0
    else summary.value.subtotal + Tax(summary) as real + Shipping(summary) as real - DiscountOf(summary.value)
  }

  /**
   * What the total adds on top of the discounted subtotal: the rounded 18%
   * tax, and the fee only below 500.
   */
  lemma TotalSurcharge(s: Summary)
    ensures var extra := Total(Some(s)) - (s.subtotal - DiscountOf(s));
            s.subtotal * 0.18 - 0.5 < extra - Shipping(Some(s)) as real <= s.subtotal * 0.18 + 0.5
    ensures s.subtotal >= FreeShippingFrom ==> Total(Some(s)) == s.subtotal + Tax(Some(s)) as real - DiscountOf(s)
    ensures s.subtotal < FreeShippingFrom ==> Total(Some(s)) == s.subtotal + Tax(Some(s)) as real + 50.0 - DiscountOf(s)
  {
  }

  /** An item image: a plain url, an object with an optional url, or nothing. */
  datatype ImageRef = Url(url: string) | ImageObject(objectUrl: Option<string>) | NoImage

  /** `getImageUrl`: a string as it is, else the object's url, else the placeholder. */
  function ImageUrl(image: ImageRef): (r: string)
    ensures image.Url? ==> r == image.url
    ensures image.ImageObject? && image.objectUrl.Some? && image.objectUrl.value != "" ==> r == image.objectUrl.value
    ensures !image.Url? && !(image.ImageObject? && image.objectUrl.Some? && image.objectUrl.value != "") ==> r == PlaceholderImage
  {
    match image
    case Url(u) => u
    case ImageObject(u) => if u.Some? && u.value != "" then u.value else PlaceholderImage
    case NoImage => PlaceholderImage
  }

  /** `updateQuantity`: the update sent to the cart service, or none below 1. */
  function QuantityUpdate(itemId: string, newQuantity: int): (r: Option<(string, int)>)
    ensures r.None? <==> newQuantity < 1
    ensures r.Some? ==> r.value == (itemId, newQuantity) && r.value.1 >= 1
  {
    if newQuantity < 1 then None else Some((itemId, newQuantity))
  }

  datatype CheckoutOutcome = EmptyCartWarning | ToCheckout

  /** `proceedToCheckout`: an empty cart only shows a warning. */
  function ProceedToCheckout<T>(cartItems: seq<T>): (r: CheckoutOutcome)
    ensures r == ToCheckout <==> |cartItems| > 0
  {
    if |cartItems| == 0 then EmptyCartWarning else ToCheckout
  }
}

=== FILE: cart_service.dfy ===
/**
 * frontend/src/app/core/services/cart.service.ts: the client cart. Lines
 * are keyed by product id, size and colour (a missing or empty size or
 * colour counting as 'default'); the badge count is the sum of quantities.
 */
module CartService {
  import opened Wrappers
  import Lists

  datatype CartItem = CartItem(
    id: string, productId: string, name: string, price: real,
    quantity: int, size: Option<string>, color: Option<string>)

  /** `size || 'default'`. */
  function Key(o: Option<string>): (r: string)
    ensures o.Some? && o.value != "" ==> r == o.value
    ensures o.None? || o.value == "" ==> r == "default"
  {
    if o.Some? && o.value != "" then o.value else "default"
  }

  /** The key match shared by `isInCart`, `getCartItem` and the local add. */
  predicate SameLine(item: CartItem, productId: string, size: Option<string>, color: Option<string>) {
    item.productId == productId && Key(item.size) == Key(size) && Key(item.color) == Key(color)
  }

  function LineTest(productId: string, size: Option<string>, color: Option<string>): CartItem -> bool {
    (item: CartItem) => SameLine(item, productId, size, color)
  }

  /** No two lines of the cart share a key. */
  predicate UniqueLines(items: seq<CartItem>) {
    forall i, j :: 0 <= i < j < |items| ==>
      !SameLine(items[j], items[i].productId, items[i].size, items[i].color)
  }

  /** `reduce((total, item) => total + item.quantity, 0)`. */
  function TotalQuantity(items: seq<CartItem>): (n: int)
    ensures (forall i :: 0 <= i < |items| ==> items[i].quantity >= 0) ==> n >= 0
    ensures (forall i :: 0 <= i < |items| ==> items[i].quantity >= 1) ==> n >= |items|
  {
    if items == [] then 0 else TotalQuantity(items[..|items| - 1]) + items[|items| - 1].quantity
  }

  lemma {:induction false} TotalQuantityAppend(items: seq<CartItem>, x: CartItem)
    ensures TotalQuantity(items + [x]) == TotalQuantity(items) + x.quantity
  {
    assert (items + [x])[..|items|] == items;
  }

  lemma {:induction false} TotalQuantityUpdate(items: seq<CartItem>, i: nat, x: CartItem)
    requires i < |items|
    ensures TotalQuantity(items[i := x]) == TotalQuantity(items) - items[i].quantity + x.quantity
    decreases |items|
  {
    var n := |items|;
    if i < n - 1 {
      assert items[i := x][..n - 1] == items[..n - 1][i := x];
      TotalQuantityUpdate(items[..n - 1], i, x);
    } else {
      assert items[i := x][..n - 1] == items[..n - 1];
    }
  }

  /** The id of a line added locally: `${productId}_${size||'default'}_${color||'default'}`. */
  function LineId(productId: string, size: Option<string>, color: Option<string>): (r: string)
    ensures |r| == |productId| + |Key(size)| + |Key(color)| + 2
    ensures r[..|productId|] == productId && r[|productId|] == '_'
    ensures r[|r| - |Key(color)|..] == Key(color) && r[|r| - |Key(color)| - 1] == '_'
  {
    productId + "_" + Key(size) + "_" + Key(color)
  }

  /**
   * The local fallback of `addToCartLegacy`: the matching line's quantity
   * grows by `quantity`, or a new line is appended.
   */
  function AddedLocally(items: seq<CartItem>, productId: string, name: string, price: real,
                        quantity: int, size: Option<string>, color: Option<string>): (r: seq<CartItem>)
    ensures TotalQuantity(r) == TotalQuantity(items) + quantity
    ensures Lists.Any(r, LineTest(productId, size, color))
    ensures forall k :: 0 <= k < |items| && SameLine(items[k], productId, size, color)
                        && (forall j :: 0 <= j < k ==> !SameLine(items[j], productId, size, color))
                        ==> r == items[k := items[k].(quantity := items[k].quantity + quantity)]
    ensures (forall j :: 0 <= j < |items| ==> !SameLine(items[j], productId, size, color))
            ==> r == items + [CartItem(LineId(productId, size, color), productId, name, price, quantity, size, color)]
  {
    match Lists.IndexWhere(items, LineTest(productId, size, color))
    case Some(k) =>
      assert forall j :: 0 <= j < k ==> !SameLine(items[j], productId, size, color);
      Increased(items, productId, size, color, quantity, k);
      IncreasedFirst(items, productId, size, color, quantity, k);
      items[k := items[k].(quantity := items[k].quantity + quantity)]
    case None =>
      assert forall j :: 0 <= j < |items| ==> !SameLine(items[j], productId, size, color);
      Appended(items, productId, name, price, quantity, size, color);
      items + [CartItem(LineId(productId, size, color), productId, name, price, quantity, size, color)]
  }

  /** The update branch of the local add: the count and the key after the update. */
  lemma Increased(items: seq<CartItem>, productId: string, size: Option<string>, color: Option<string>, quantity: int, k: nat)
    requires k < |items| && SameLine(items[k], productId, size, color)
    ensures TotalQuantity(items[k := items[k].(quantity := items[k].quantity + quantity)]) == TotalQuantity(items) + quantity
    ensures Lists.Any(items[k := items[k].(quantity := items[k].quantity + quantity)], LineTest(productId, size, color))
  {
    var r := items[k := items[k].(quantity := items[k].quantity + quantity)];
    TotalQuantityUpdate(items, k, r[k]);
    assert LineTest(productId, size, color)(r[k]);
  }

  /** The update branch of the local add is the one update of the first matching line. */
  lemma IncreasedFirst(items: seq<CartItem>, productId: string, size: Option<string>, color: Option<string>, quantity: int, k: nat)
    requires k < |items| && SameLine(items[k], productId, size, color)
    requires forall j :: 0 <= j < k ==> !SameLine(items[j], productId, size, color)
    ensures forall i :: 0 <= i < |items| && SameLine(items[i], productId, size, color)
                        && (forall j :: 0 <= j < i ==> !SameLine(items[j], productId, size, color))
                        ==> items[k := items[k].(quantity := items[k].quantity + quantity)]
                            == items[i := items[i].(quantity := items[i].quantity + quantity)]
    ensures !(forall j :: 0 <= j < |items| ==> !SameLine(items[j], productId, size, color))
  {
    FirstLineUnique(items, productId, size, color, k);
    forall i | 0 <= i < |items| && SameLine(items[i], productId, size, color)
               && (forall j :: 0 <= j < i ==> !SameLine(items[j], productId, size, color))
      ensures items[k := items[k].(quantity := items[k].quantity + quantity)]
              == items[i := items[i].(quantity := items[i].quantity + quantity)]
    {
      assert i == k;
    }
  }

  /** The append branch of the local add, when no line has the key. */
  lemma Appended(items: seq<CartItem>, productId: string, name: string, price: real,
                 quantity: int, size: Option<string>, color: Option<string>)
    requires forall j :: 0 <= j < |items| ==> !SameLine(items[j], productId, size, color)
    ensures var r := items + [CartItem(LineId(productId, size, color), productId, name, price, quantity, size, color)];
      && TotalQuantity(r) == TotalQuantity(items) + quantity
      && Lists.Any(r, LineTest(productId, size, color))
      && (forall i :: 0 <= i < |items| ==> !SameLine(items[i], productId, size, color))
  {
    var item := CartItem(LineId(productId, size, color), productId, name, price, quantity, size, color);
    TotalQuantityAppend(items, item);
    assert (items + [item])[|items|] == item;
    assert LineTest(productId, size, color)((items + [item])[|items|]);
  }

  /** Only one index can be the first line with a given key. */
  lemma FirstLineUnique(items: seq<CartItem>, productId: string, size: Option<string>, color: Option<string>, k: nat)
    requires k < |items| && SameLine(items[k], productId, size, color)
    requires forall j :: 0 <= j < k ==> !SameLine(items[j], productId, size, color)
    ensures forall i :: 0 <= i < |items| && SameLine(items[i], productId, size, color)
                        && (forall j :: 0 <= j < i ==> !SameLine(items[j], productId, size, color))
                        ==> i == k
  {
  }

  /** A local add never creates a second line with the same key. */
  lemma AddedLocallyKeepsLinesUnique(items: seq<CartItem>, productId: string, name: string, price: real,
                                     quantity: int, size: Option<string>, color: Option<string>)
    requires UniqueLines(items)
    ensures UniqueLines(AddedLocally(items, productId, name, price, quantity, size, color))
    ensures |AddedLocally(items, productId, name, price, quantity, size, color)| <= |items| + 1
  {
    var r := AddedLocally(items, productId, name, price, quantity, size, color);
    match Lists.IndexWhere(items, LineTest(productId, size, color))
    case Some(k) =>
      assert forall i :: 0 <= i < |r| ==>
        (r[i].productId == items[i].productId && r[i].size == items[i].size && r[i].color == items[i].color);
    case None =>
      var item := CartItem(LineId(productId, size, color), productId, name, price, quantity, size, color);
      assert r == items + [item];
      forall i, j | 0 <= i < j < |r|
        ensures !SameLine(r[j], r[i].productId, r[i].size, r[i].color)
      {
        if j == |items| {
          assert !LineTest(productId, size, color)(items[i]);
        }
      }
  }

  /** `isInCart`: some line has the product, size and colour key. */
  function IsInCart(items: seq<CartItem>, productId: string, size: Option<string>, color: Option<string>): (r: bool)
    ensures r <==> exists i :: 0 <= i < |items| && SameLine(items[i], productId, size, color)
  {
    Lists.Any(items, LineTest(productId, size, color))
  }

  /**
   * `getCartItem` is undefined exactly when `isInCart` is false, and otherwise
   * returns the first line with that key, as `find` does.
   */
  function GetCartItem(items: seq<CartItem>, productId: string, size: Option<string>, color: Option<string>): (r: Option<CartItem>)
    ensures r.None? <==> !IsInCart(items, productId, size, color)
    ensures r.Some? ==> exists k :: 0 <= k < |items| && items[k] == r.value && SameLine(r.value, productId, size, color)
                                    && forall j :: 0 <= j < k ==> !SameLine(items[j], productId, size, color)
  {
    Lists.Find(items, LineTest(productId, size, color))
  }

  /** Σ price × quantity over the lines. */
  function ItemsTotal(items: seq<CartItem>): (t: real)
    ensures (forall i :: 0 <= i < |items| ==> items[i].price >= 0.0 && items[i].quantity >= 0) ==> t >= 0.0
  {
    if items == [] then 0.0
    else
      var last := items[|items| - 1];
      assert last.price >= 0.0 && last.quantity >= 0 ==> last.price * last.quantity as real >= 0.0;
      ItemsTotal(items[..|items| - 1]) + last.price * last.quantity as real
  }

  /** How the add request ended: it threw, or it answered with a success flag. */
  datatype ApiOutcome = Threw | Answered(success: bool)

  class Cart {
    var items: seq<CartItem>
    var count: int
    /** `cartSummary.value.total`, when a summary is loaded. */
    var summaryTotal: Option<real>

    constructor()
      ensures items == [] && count == 0 && summaryTotal.None?
    {
      items := [];
      count := 0;
      summaryTotal := None;
    }

    /** `updateCartCount`: the badge shows the sum of the quantities. */
    method UpdateCartCount()
      modifies this
      ensures count == TotalQuantity(items)
      ensures items == old(items) && summaryTotal == old(summaryTotal)
    {
      var total := 0;
      var k := 0;
      while k < |items|
        invariant 0 <= k <= |items|
        invariant total == TotalQuantity(items[..k])
        invariant items == old(items) && summaryTotal == old(summaryTotal)
      {
        assert items[..k + 1] == items[..k] + [items[k]];
        TotalQuantityAppend(items[..k], items[k]);
        total := total + items[k].quantity;
        k := k + 1;
      }
      assert items[..k] == items;
      count := total;
    }

    /**
     * `addToCartLegacy`: when the server accepts the add the local lines are
     * left to the reload; when the call throws or does not report success the
     * line is added locally and the count raised by the quantity.
     */
    method AddToCartLegacy(productId: string, name: string, price: real, quantity: int,
                           size: Option<string>, color: Option<string>, api: ApiOutcome) returns (added: bool)
      modifies this
      ensures added
      ensures api == Answered(true) ==> items == old(items) && count == old(count)
      ensures api != Answered(true) ==>
        items == AddedLocally(old(items), productId, name, price, quantity, size, color)
        && count == TotalQuantity(items)
      ensures summaryTotal == old(summaryTotal)
    {
      if api == Answered(true) {
        return true;
      }
      items := AddedLocally(items, productId, name, price, quantity, size, color);
      UpdateCartCount();
      added := true;
    }

    /** `getCartTotal`: the summary's total when there is one, else the line sum. */
    function CartTotal(): (r: real)
      reads this
      ensures summaryTotal.Some? ==> r == summaryTotal.value
      ensures summaryTotal.None? ==> r == ItemsTotal(items)
    {
      if summaryTotal.Some? then summaryTotal.value else ItemsTotal(items)
    }
  }
}

=== FILE: catalog.dfy ===
/**
 * The records of the two dependency-free development servers (the Python one
 * and the Node one hold the same four in-memory lists) and the pieces of their
 * views that the two share: lookups by id, products joined with their vendor,
 * and the "trending" order (views descending, ties in store order).
 */
module Catalog {
  import opened Wrappers
  import Lists

  datatype SocialStats = SocialStats(postsCount: int, followersCount: int, followingCount: int)

  datatype User = User(
    id: string, username: string, fullName: string, email: string, avatar: string, role: string,
    followers: seq<string>, following: seq<string>, socialStats: SocialStats)

  datatype Product = Product(
    id: string, name: string, price: int, originalPrice: int, discount: int, category: string,
    brand: string, image: string, vendorId: string, views: int, likes: int, purchases: int)

  datatype ProductTag = ProductTag(productId: string, x: int, y: int)

  /** A like record; `likedAt` is the server clock in milliseconds. */
  datatype Like = Like(userId: string, likedAt: int)

  datatype Comment = Comment(userId: string, text: string)

  datatype Post = Post(
    id: string, userId: string, caption: string, image: string, productTags: seq<ProductTag>,
    likes: seq<Like>, comments: seq<Comment>, createdAt: int)

  datatype Story = Story(
    id: string, userId: string, image: string, caption: string, productTags: seq<ProductTag>,
    views: seq<string>, likes: seq<string>, expiresAt: int, createdAt: int)

  /** A product with `vendor` = the user whose id is its `vendorId`, if any. */
  datatype ProductWithVendor = ProductWithVendor(product: Product, vendor: Option<User>)

  function FindUser(users: seq<User>, id: string): (r: Option<User>)
    ensures r.None? <==> forall i :: 0 <= i < |users| ==> users[i].id != id
    ensures r.Some? ==> r.value in users && r.value.id == id
    ensures r.Some? ==> exists k :: 0 <= k < |users| && users[k] == r.value && forall j :: 0 <= j < k ==> users[j].id != id
  {
    Lists.Find(users, (u: User) => u.id == id)
  }

  function FindProduct(products: seq<Product>, id: string): (r: Option<Product>)
    ensures r.None? <==> forall i :: 0 <= i < |products| ==> products[i].id != id
    ensures r.Some? ==> r.value in products && r.value.id == id
    ensures r.Some? ==> exists k :: 0 <= k < |products| && products[k] == r.value
                                    && forall j :: 0 <= j < k ==> products[j].id != id
  {
    Lists.Find(products, (p: Product) => p.id == id)
  }

  /** Position of the first post with the given id. */
  function PostIndex(posts: seq<Post>, id: string): (r: Option<nat>)
    ensures r.None? <==> forall i :: 0 <= i < |posts| ==> posts[i].id != id
    ensures r.Some? ==> r.value < |posts| && posts[r.value].id == id
                        && forall j :: 0 <= j < r.value ==> posts[j].id != id
  {
    Lists.IndexWhere(posts, (p: Post) => p.id == id)
  }

  /** The products view: one entry per product, in store order, with its vendor. */
  function WithVendors(users: seq<User>, products: seq<Product>): (r: seq<ProductWithVendor>)
    ensures |r| == |products|
    ensures forall i :: 0 <= i < |r| ==> r[i].product == products[i]
    ensures forall i :: 0 <= i < |r| ==>
      (r[i].vendor.None? <==> forall j :: 0 <= j < |users| ==> users[j].id != products[i].vendorId)
    ensures forall i :: 0 <= i < |r| && r[i].vendor.Some? ==> r[i].vendor.value in users && r[i].vendor.value.id == products[i].vendorId
  {
    seq(|products|, i requires 0 <= i < |products| => ProductWithVendor(products[i], FindUser(users, products[i].vendorId)))
  }

  // ---------------------------------------------------------------------------
  // Liking a post: both servers append `{userId: '1', likedAt: now}`.

  /** The post list after one like of the post with the given id. */
  function Liked(posts: seq<Post>, id: string, now: int): (r: seq<Post>)
    ensures |r| == |posts|
  {
    match PostIndex(posts, id)
    case None => posts
    case Some(k) => posts[k := posts[k].(likes := posts[k].likes + [Like("1", now)])]
  }

  /**
   * A like of an existing post appends exactly one record by user "1" to that
   * post and changes nothing else, also not the other posts.
   */
  lemma LikedAppendsOne(posts: seq<Post>, id: string, now: int, k: nat)
    requires k < |posts| && posts[k].id == id
    requires forall j :: 0 <= j < k ==> posts[j].id != id
    ensures Liked(posts, id, now)[k].likes == posts[k].likes + [Like("1", now)]
    ensures Liked(posts, id, now)[k] == posts[k].(likes := Liked(posts, id, now)[k].likes)
    ensures forall j :: 0 <= j < |posts| && j != k ==> Liked(posts, id, now)[j] == posts[j]
  {
    var r := PostIndex(posts, id);
    assert r.Some? && r.value == k;
  }

  /** A like of an unknown id leaves every post as it was. */
  lemma LikedUnknownUnchanged(posts: seq<Post>, id: string, now: int)
    requires forall i :: 0 <= i < |posts| ==> posts[i].id != id
    ensures Liked(posts, id, now) == posts
  {
  }

  /** Nothing is de-duplicated: two likes of the same post add two records. */
  lemma LikedTwiceAddsTwo(posts: seq<Post>, id: string, now1: int, now2: int, k: nat)
    requires k < |posts| && posts[k].id == id
    requires forall j :: 0 <= j < k ==> posts[j].id != id
    ensures |Liked(Liked(posts, id, now1), id, now2)[k].likes| == |posts[k].likes| + 2
  {
    LikedAppendsOne(posts, id, now1, k);
    var once := Liked(posts, id, now1);
    LikedAppendsOne(once, id, now2, k);
  }

  // ---------------------------------------------------------------------------
  // Trending order: `sorted(products, key=views, reverse=True)` in Python and
  // `products.sort((a, b) => b.views - a.views)` in JavaScript. Both sorts are
  // stable, so products with equal views keep their store order.

  predicate ByViewsDesc(ps: seq<Product>) {
    forall i, j :: 0 <= i < j < |ps| ==> ps[i].views >= ps[j].views
  }

  /** The products with exactly `v` views, in order. */
  function WithViews(ps: seq<Product>, v: int): seq<Product> {
    Lists.Filter(ps, (p: Product) => p.views == v)
  }

  /** Inserts `x` before the first element with no more views than it. */
  function InsertByViews(x: Product, ps: seq<Product>): (r: seq<Product>)
    ensures |r| == |ps| + 1
    ensures multiset(r) == multiset(ps) + multiset{x}
  {
    if |ps| == 0 then [x]
    else if ps[0].views <= x.views then [x] + ps
    else
      assert ps == [ps[0]] + ps[1..];
      [ps[0]] + InsertByViews(x, ps[1..])
  }

  /** Stable sort by views, descending. */
  function SortByViews(ps: seq<Product>): (r: seq<Product>)
    ensures |r| == |ps|
  {
    if |ps| == 0 then [] else InsertByViews(ps[0], SortByViews(ps[1..]))
  }

  lemma {:induction false} InsertByViewsSorted(x: Product, ps: seq<Product>)
    requires ByViewsDesc(ps)
    ensures ByViewsDesc(InsertByViews(x, ps))
    ensures |ps| > 0 ==> InsertByViews(x, ps)[0] == x || InsertByViews(x, ps)[0] == ps[0]
    decreases |ps|
  {
    if |ps| > 0 && ps[0].views > x.views {
      InsertByViewsSorted(x, ps[1..]);
    }
  }

  lemma {:induction false} InsertByViewsStable(x: Product, ps: seq<Product>, v: int)
    requires ByViewsDesc(ps)
    ensures WithViews(InsertByViews(x, ps), v) == (if x.views == v then [x] else []) + WithViews(ps, v)
    decreases |ps|
  {
    if |ps| == 0 {
    } else if ps[0].views <= x.views {
      Lists.FilterAppend([x], ps, (p: Product) => p.views == v);
    } else {
      InsertByViewsStable(x, ps[1..], v);
      Lists.FilterAppend([ps[0]], InsertByViews(x, ps[1..]), (p: Product) => p.views == v);
      Lists.FilterAppend([ps[0]], ps[1..], (p: Product) => p.views == v);
      assert ps == [ps[0]] + ps[1..];
    }
  }

  lemma {:induction false} SortByViewsSorted(ps: seq<Product>)
    ensures ByViewsDesc(SortByViews(ps))
    decreases |ps|
  {
    if |ps| > 0 {
      SortByViewsSorted(ps[1..]);
      InsertByViewsSorted(ps[0], SortByViews(ps[1..]));
    }
  }

  lemma {:induction false} SortByViewsPermutes(ps: seq<Product>)
    ensures multiset(SortByViews(ps)) == multiset(ps)
    decreases |ps|
  {
    if |ps| > 0 {
      SortByViewsPermutes(ps[1..]);
      assert ps == [ps[0]] + ps[1..];
    }
  }

  lemma {:induction false} SortByViewsStable(ps: seq<Product>, v: int)
    ensures WithViews(SortByViews(ps), v) == WithViews(ps, v)
    decreases |ps|
  {
    if |ps| > 0 {
      SortByViewsStable(ps[1..], v);
      SortByViewsSorted(ps[1..]);
      InsertByViewsStable(ps[0], SortByViews(ps[1..]), v);
      Lists.FilterAppend([ps[0]], ps[1..], (p: Product) => p.views == v);
      assert ps == [ps[0]] + ps[1..];
    }
  }

  /**
   * The trending order is sorted by views descending, is a permutation of the
   * store, and is stable: for every view count, the products with that count
   * appear in the same relative order as in the store.
   */
  lemma SortByViewsCorrect(ps: seq<Product>)
    ensures ByViewsDesc(SortByViews(ps))
    ensures multiset(SortByViews(ps)) == multiset(ps)
    ensures forall v :: WithViews(SortByViews(ps), v) == WithViews(ps, v)
  {
    SortByViewsSorted(ps);
    SortByViewsPermutes(ps);
    forall v ensures WithViews(SortByViews(ps), v) == WithViews(ps, v) {
      SortByViewsStable(ps, v);
    }
  }

  /** `[:3]` / `.slice(0, 3)`. */
  function TopThree(ps: seq<Product>): (r: seq<Product>)
    ensures |r| == Lists.Min(3, |ps|)
    ensures r == ps[..|r|]
  {
    if |ps| <= 3 then ps else ps[..3]
  }

  /**
   * The trending view: at most three products, views descending, each one from
   * the store, the first one the most viewed, and no product outside it has
   * more views than the last shown.
   */
  lemma TrendingCorrect(ps: seq<Product>)
    ensures ByViewsDesc(TopThree(SortByViews(ps)))
    ensures |TopThree(SortByViews(ps))| == Lists.Min(3, |ps|)
    ensures forall p :: p in TopThree(SortByViews(ps)) ==> p in ps
    ensures forall i :: 0 <= i < |ps| ==> ps[i].views <= TopThree(SortByViews(ps))[0].views
    ensures forall i :: 0 <= i < |ps| && ps[i] !in TopThree(SortByViews(ps)) ==>
      ps[i].views <= TopThree(SortByViews(ps))[|TopThree(SortByViews(ps))| - 1].views
  {
    var s := SortByViews(ps);
    var t := TopThree(s);
    SortByViewsCorrect(ps);
    forall p | p in t ensures p in ps {
      assert p in multiset(s);
    }
    if |ps| > 0 {
      SortedPrefixBounds(ps, s, t);
    }
  }

  /**
   * For a descending permutation `s` of `ps` and a non-empty prefix `t` of
   * it: no product outdoes the first of `t`, and none left out of `t`
   * outdoes its last.
   */
  lemma SortedPrefixBounds(ps: seq<Product>, s: seq<Product>, t: seq<Product>)
    requires ByViewsDesc(s) && multiset(s) == multiset(ps)
    requires 0 < |t| <= |s| && t == s[..|t|]
    ensures forall i :: 0 <= i < |ps| ==> ps[i].views <= t[0].views
    ensures forall i :: 0 <= i < |ps| && ps[i] !in t ==> ps[i].views <= t[|t| - 1].views
  {
    forall i | 0 <= i < |ps| ensures ps[i].views <= t[0].views {
      assert ps[i] in multiset(s);
      var j :| 0 <= j < |s| && s[j] == ps[i];
      assert j == 0 || s[0].views >= s[j].views;
    }
    forall i | 0 <= i < |ps| && ps[i] !in t ensures ps[i].views <= t[|t| - 1].views {
      assert ps[i] in multiset(s);
      var j :| 0 <= j < |s| && s[j] == ps[i];
      assert forall k :: 0 <= k < |t| ==> s[k] == t[k];
      assert s[|t| - 1].views >= s[j].views;
    }
  }

  // ---------------------------------------------------------------------------
  // The data both servers start with; timestamps are relative to the start
  // time `now`.

  function SeedUsers(): seq<User> {
    [ User("1", "fashionista_maya", "Maya Sharma", "maya@example.com",
           "https://images.unsplash.com/photo-1494790108755-2616b612b786?w=150", "customer",
           ["2", "3"], ["2", "4"], SocialStats(12, 1250, 890)),
      User("2", "style_guru_raj", "Raj Patel", "raj@example.com",
           "https://images.unsplash.com/photo-1507003211169-0a1dd7228f2d?w=150", "vendor",
           ["1"], ["3", "4"], SocialStats(45, 5600, 234)) ]
  }

  function SeedProducts(): seq<Product> {
    [ Product("p1", "Floral Maxi Dress", 2499, 3499, 29, "women", "StyleCraft",
              "https://images.unsplash.com/photo-1515372039744-b8f02a3ae446?w=500", "2", 1250, 89, 45),
      Product("p2", "Classic White Shirt", 1899, 2299, 17, "men", "StyleCraft",
              "https://images.unsplash.com/photo-1596755094514-f87e34085b2c?w=500", "2", 2100, 156, 78) ]
  }

  function SeedPosts(now: int): seq<Post> {
    [ Post("post1", "1", "Loving this new floral dress! Perfect for the summer vibes \U{1F338} #SummerFashion #FloralDress #OOTD",
           "https://images.unsplash.com/photo-1469334031218-e382a71b716b?w=600",
           [ProductTag("p1", 40, 50)], [], [], now - 2 * 3600000),
      Post("post2", "2", "Perfect formal shirt for office meetings! Quality fabric and great fit \U{1F454} #FormalWear #OfficeStyle",
           "https://images.unsplash.com/photo-1596755094514-f87e34085b2c?w=600",
           [ProductTag("p2", 50, 50)], [], [], now - 4 * 3600000) ]
  }

  function SeedStories(now: int): seq<Story> {
    [ Story("story1", "1", "https://images.unsplash.com/photo-1469334031218-e382a71b716b?w=400",
            "Perfect outfit for brunch! \U{1F950}\U{2615}", [ProductTag("p1", 30, 60)], [], [], now + 24 * 3600000, now) ]
  }

  /** With the seed data, trending lists the shirt (2100 views) before the dress. */
  lemma SeedTrending()
    ensures TopThree(SortByViews(SeedProducts())) == [SeedProducts()[1], SeedProducts()[0]]
  {
    var ps := SeedProducts();
    assert ps[1..][1..] == [];
    assert SortByViews(ps[1..]) == [ps[1]];
  }
}

=== FILE: create_product.dfy ===
/**
 * frontend/src/app/features/vendor/pages/products/create-product.component.ts:
 * the vendor's product form. Images are picked up to a cap of five, sizes
 * and colours are ticked on and off, and a valid form becomes a product
 * payload.
 */
module CreateProduct {
  import opened Wrappers
  import Lists

  const MaxImages := 5

  /** A chosen file whose `FileReader` has not finished yet. */
  datatype PickedFile = PickedFile(name: string)

  /** A read file: its data-URL preview and name. */
  datatype ImageEntry = ImageEntry(name: string, preview: string)

  /**
   * The files `onFileSelect` as written schedules for reading: every file of
   * the selection tests `selectedImages.length < 5`, but the images are only
   * pushed when the reads finish, so the length seen by each test is the one
   * before the selection.
   */
  function AcceptedAsWritten(current: nat, files: seq<PickedFile>): (r: seq<PickedFile>)
    ensures current < MaxImages ==> r == files
    ensures current >= MaxImages ==> r == []
  {
    if current < MaxImages then files else []
  }

  /** Six files picked on an empty form all get read: six images. */
  lemma AsWrittenExceedsCap(files: seq<PickedFile>)
    requires |files| == 6
    ensures |AcceptedAsWritten(0, files)| == 6 > MaxImages
  {
  }

  /**
   * The intended cap: of the selection only as many files are read as still
   * fit next to the images shown and the reads in flight.
   */
  function AcceptedCapped(taken: nat, files: seq<PickedFile>): (r: seq<PickedFile>)
    ensures |r| <= |files| && r == files[..|r|]
    ensures taken + |r| <= MaxImages || r == []
    ensures |r| == |files| || taken + |r| == MaxImages || taken > MaxImages
  {
    if taken >= MaxImages then []
    else files[..Lists.Min(|files|, MaxImages - taken)]
  }

  /** The intended cap never lets the images go above five. */
  lemma CappedKeepsLimit(taken: nat, files: seq<PickedFile>)
    requires taken <= MaxImages
    ensures taken + |AcceptedCapped(taken, files)| <= MaxImages
    ensures |files| + taken <= MaxImages ==> AcceptedCapped(taken, files) == files
  {
  }

  /**
   * `onSizeChange` / `onColorChange`: a ticked value is appended (again, if
   * it is there already); an unticked one is removed everywhere.
   */
  function Ticked(selected: seq<string>, value: string, checked: bool): (r: seq<string>)
    ensures checked ==> r == selected + [value]
    ensures !checked ==> value !in r && |r| <= |selected|
    ensures !checked ==> forall v :: v != value ==> (v in r <==> v in selected)
  {
    if checked then selected + [value]
    else
      var r := Lists.Filter(selected, (s: string) => s != value);
      forall v ensures v in r <==> v in selected && v != value {
        Lists.FilterMember(selected, (s: string) => s != value, v);
      }
      r
  }

  /** Unticking after ticking is unticking alone: earlier duplicates go too. */
  lemma TickThenUntick(selected: seq<string>, value: string)
    ensures Ticked(Ticked(selected, value, true), value, false) == Ticked(selected, value, false)
  {
    Lists.FilterAppend(selected, [value], (s: string) => s != value);
  }

  /** The form values and their validators. */
  datatype ProductForm = ProductForm(
    name: string, brand: string, category: string, description: string,
    price: Option<real>, originalPrice: Option<real>, stock: Option<int>, sku: string)

  /**
   * Name, category, description, price and stock are required; price is at
   * least 1 and stock at least 0.
   */
  predicate FormValid(form: ProductForm) {
    form.name != "" && form.category != "" && form.description != ""
    && form.price.Some? && form.price.value >= 1.0
    && form.stock.Some? && form.stock.value >= 0
  }

  datatype ProductPayload = ProductPayload(
    form: ProductForm, images: seq<string>, sizes: seq<string>, colors: seq<string>)

  /** `onSubmit`'s product data: the form, the previews as image urls in order, sizes and colours. */
  function Payload(form: ProductForm, images: seq<ImageEntry>, sizes: seq<string>, colors: seq<string>): (r: Option<ProductPayload>)
    ensures r.Some? <==> FormValid(form)
    ensures r.Some? ==> (|r.value.images| == |images|
                         && forall i :: 0 <= i < |images| ==> r.value.images[i] == images[i].preview)
    ensures r.Some? ==> r.value.form == form && r.value.sizes == sizes && r.value.colors == colors
  {
    if FormValid(form) then
      Some(ProductPayload(form, seq(|images|, i requires 0 <= i < |images| => images[i].preview), sizes, colors))
    else None
  }

  class Composer {
    var selectedImages: seq<ImageEntry>
    var reading: seq<PickedFile>
    var selectedSizes: seq<string>
    var selectedColors: seq<string>
    var uploading: bool

    /** Shown images plus reads in flight stay within the cap. */
    predicate Valid()
      reads this
    {
      |selectedImages| + |reading| <= MaxImages
    }

    constructor()
      ensures Valid()
      ensures selectedImages == [] && reading == [] && selectedSizes == [] && selectedColors == [] && !uploading
    {
      selectedImages := [];
      reading := [];
      selectedSizes := [];
      selectedColors := [];
      uploading := false;
    }

    /** `onFileSelect` as written: each file tests the length before any read finished. */
    method SelectFilesAsWritten(files: seq<PickedFile>)
      modifies this
      ensures reading == old(reading) + AcceptedAsWritten(|selectedImages|, files)
      ensures selectedImages == old(selectedImages) && selectedSizes == old(selectedSizes)
      ensures selectedColors == old(selectedColors) && uploading == old(uploading)
    {
      var k := 0;
      while k < |files|
        invariant 0 <= k <= |files|
        invariant selectedImages == old(selectedImages) && selectedSizes == old(selectedSizes)
        invariant selectedColors == old(selectedColors) && uploading == old(uploading)
        invariant reading == old(reading) + AcceptedAsWritten(|selectedImages|, files[..k])
      {
        if |selectedImages| < MaxImages {
          reading := reading + [files[k]];
        }
        assert files[..k + 1] == files[..k] + [files[k]];
        k := k + 1;
      }
      assert files[..k] == files;
    }

    /** `onFileSelect` with the cap counting the reads in flight. */
    method SelectFiles(files: seq<PickedFile>)
      requires Valid()
      modifies this
      ensures Valid()
      ensures reading == old(reading) + AcceptedCapped(|old(selectedImages)| + |old(reading)|, files)
      ensures selectedImages == old(selectedImages) && selectedSizes == old(selectedSizes)
      ensures selectedColors == old(selectedColors) && uploading == old(uploading)
    {
      var k := 0;
      while k < |files| && |selectedImages| + |reading| < MaxImages
        invariant 0 <= k <= |files|
        invariant Valid()
        invariant selectedImages == old(selectedImages) && selectedSizes == old(selectedSizes)
        invariant selectedColors == old(selectedColors) && uploading == old(uploading)
        invariant reading == old(reading) + files[..k]
      {
        reading := reading + [files[k]];
        assert files[..k + 1] == files[..k] + [files[k]];
        k := k + 1;
      }
    }

    /** The oldest read finishes and its preview is pushed. */
    method FinishRead(preview: string)
      requires Valid() && reading != []
      modifies this
      ensures Valid()
      ensures selectedImages == old(selectedImages) + [ImageEntry(old(reading)[0].name, preview)]
      ensures reading == old(reading)[1..]
      ensures selectedSizes == old(selectedSizes) && selectedColors == old(selectedColors) && uploading == old(uploading)
    {
      selectedImages := selectedImages + [ImageEntry(reading[0].name, preview)];
      reading := reading[1..];
    }

    /** `removeImage`: `splice(index, 1)`. */
    method RemoveImage(index: int)
      requires Valid()
      modifies this
      ensures Valid()
      ensures selectedImages == Lists.RemoveAt(old(selectedImages), index)
      ensures reading == old(reading) && selectedSizes == old(selectedSizes)
      ensures selectedColors == old(selectedColors) && uploading == old(uploading)
    {
      selectedImages := Lists.RemoveAt(selectedImages, index);
    }

    method OnSizeChange(size: string, checked: bool)
      modifies this
      ensures selectedSizes == Ticked(old(selectedSizes), size, checked)
      ensures selectedImages == old(selectedImages) && reading == old(reading)
      ensures selectedColors == old(selectedColors) && uploading == old(uploading)
    {
      selectedSizes := Ticked(selectedSizes, size, checked);
    }

    method OnColorChange(color: string, checked: bool)
      modifies this
      ensures selectedColors == Ticked(old(selectedColors), color, checked)
      ensures selectedImages == old(selectedImages) && reading == old(reading)
      ensures selectedSizes == old(selectedSizes) && uploading == old(uploading)
    {
      selectedColors := Ticked(selectedColors, color, checked);
    }

    /**
     * `onSubmit`: a valid form yields the payload and starts the upload; the
     * flag stays set until the simulated call's timer fires.
     */
    method Submit(form: ProductForm) returns (payload: Option<ProductPayload>)
      modifies this
      ensures payload == Payload(form, old(selectedImages), old(selectedSizes), old(selectedColors))
      ensures uploading == (FormValid(form) || old(uploading))
      ensures payload.Some? ==> uploading
      ensures selectedImages == old(selectedImages) && reading == old(reading)
      ensures selectedSizes == old(selectedSizes) && selectedColors == old(selectedColors)
    {
      payload := Payload(form, selectedImages, selectedSizes, selectedColors);
      if FormValid(form) {
        uploading := true;
      }
    }

    /** The 2000 ms timer of `onSubmit`: the upload ends; nothing else changes. */
    method UploadTimerFired()
      modifies this
      ensures !uploading
      ensures selectedImages == old(selectedImages) && reading == old(reading)
      ensures selectedSizes == old(selectedSizes) && selectedColors == old(selectedColors)
    {
      uploading := false;
    }
  }
}

=== FILE: create_story.dfy ===
/**
 * frontend/src/app/features/vendor/pages/stories/create-story.component.ts:
 * the vendor's story composer. Products are searched in a fixed demo list,
 * tagged at most once each, and the form is turned into a story payload.
 */
module CreateStory {
  import opened Wrappers
  import opened Text
  import Lists

  datatype TagProduct = TagProduct(id: string, name: string, price: int, imageUrl: string)

  /** The two demo products `searchProducts` filters. */
  function DemoProducts(): seq<TagProduct> {
    [ TagProduct("1", "Summer Dress", 2999, "/assets/images/product1.jpg"),
      TagProduct("2", "Casual Shirt", 1599, "/assets/images/product2.jpg") ]
  }

  function NameMatches(query: string): TagProduct -> bool {
    (p: TagProduct) => Contains(ToLower(p.name), ToLower(query))
  }

  /**
   * `searchProducts`: a query of at most two UTF-16 code units clears the
   * results; a longer one keeps the demo products whose lower-cased name
   * contains the lower-cased query, in list order.
   */
  function SearchResults(query: string): (r: seq<TagProduct>)
    ensures Utf16Length(query) <= 2 ==> r == []
    ensures forall p :: p in r ==> p in DemoProducts() && Contains(ToLower(p.name), ToLower(query))
    ensures Utf16Length(query) > 2 ==> forall p :: p in DemoProducts() && Contains(ToLower(p.name), ToLower(query)) ==> p in r
  {
    if Utf16Length(query) > 2 then
      var r := Lists.Filter(DemoProducts(), NameMatches(query));
      forall p ensures p in r <==> p in DemoProducts() && NameMatches(query)(p) {
        Lists.FilterMember(DemoProducts(), NameMatches(query), p);
      }
      r
    else []
  }

  /**
   * The results keep the order of the demo list: they are the list read at
   * increasing positions, exactly the positions of the matching products.
   */
  lemma SearchResultsInListOrder(query: string) returns (idx: seq<nat>)
    requires Utf16Length(query) > 2
    ensures |idx| == |SearchResults(query)|
    ensures forall i :: 0 <= i < |idx| ==> idx[i] < |DemoProducts()| && SearchResults(query)[i] == DemoProducts()[idx[i]]
    ensures forall i, j :: 0 <= i < j < |idx| ==> idx[i] < idx[j]
    ensures forall k :: 0 <= k < |DemoProducts()| ==>
      (k in idx <==> Contains(ToLower(DemoProducts()[k].name), ToLower(query)))
  {
    idx := Lists.FilterKeepsOrder(DemoProducts(), NameMatches(query));
  }

  predicate TaggedWithId(tagged: seq<TagProduct>, id: string) {
    exists i :: 0 <= i < |tagged| && tagged[i].id == id
  }

  /** No two tagged products share an `_id`. */
  predicate DistinctIds(tagged: seq<TagProduct>) {
    forall i, j :: 0 <= i < j < |tagged| ==> tagged[i].id != tagged[j].id
  }

  /** `addProductTag`'s list: the product is appended only when its id is not tagged yet. */
  function WithTag(tagged: seq<TagProduct>, product: TagProduct): (r: seq<TagProduct>)
    ensures TaggedWithId(r, product.id)
    ensures TaggedWithId(tagged, product.id) ==> r == tagged
    ensures !TaggedWithId(tagged, product.id) ==> r == tagged + [product]
  {
    if TaggedWithId(tagged, product.id) then tagged
    else
      var r := tagged + [product];
      assert r[|tagged|].id == product.id;
      r
  }

  lemma WithTagKeepsIdsDistinct(tagged: seq<TagProduct>, product: TagProduct)
    requires DistinctIds(tagged)
    ensures DistinctIds(WithTag(tagged, product))
  {
  }

  lemma RemoveAtKeepsIdsDistinct(tagged: seq<TagProduct>, index: int)
    requires DistinctIds(tagged)
    ensures DistinctIds(Lists.RemoveAt(tagged, index))
  {
    var r := Lists.RemoveAt(tagged, index);
    var k := Lists.SpliceStart(|tagged|, index);
    forall i, j | 0 <= i < j < |r| ensures r[i].id != r[j].id {
      var i' := if i < k then i else i + 1;
      var j' := if j < k then j else j + 1;
      assert r[i] == tagged[i'] && r[j] == tagged[j'];
    }
  }

  datatype MediaKind = Image | Video

  /** A file read through `FileReader`: its MIME type and data-URL preview. */
  datatype SelectedMedia = SelectedMedia(mimeType: string, preview: string, name: string)

  /** `type.startsWith('image') ? 'image' : 'video'`. */
  function MediaKindOf(mimeType: string): (k: MediaKind)
    ensures k == Image <==> StartsWith(mimeType, "image")
  {
    if StartsWith(mimeType, "image") then Image else Video
  }

  /** The length of the leading run of decimal digits. */
  function DigitRun(s: string): (n: nat)
    ensures n <= |s|
    ensures forall i :: 0 <= i < n ==> '0' <= s[i] <= '9'
    ensures n < |s| ==> !('0' <= s[n] <= '9')
  {
    if s != [] && '0' <= s[0] <= '9' then 1 + DigitRun(s[1..]) else 0
  }

  /** What follows an optional leading '-' or '+'. */
  function AfterSign(t: string): (u: string)
    ensures |u| <= |t|
  {
    if t != [] && (t[0] == '-' || t[0] == '+') then t[1..] else t
  }

  /** The value of the leading run of decimal digits (0 when there is none). */
  function LeadingValue(u: string): int {
    var n := DigitRun(u);
    var digits := u[..n];
    assert forall i :: 0 <= i < |digits| ==> '0' <= digits[i] <= '9';
    DigitsValue(digits)
  }

  /**
   * `parseInt(s)` in base 10: leading white space, an optional sign, then
   * the longest run of digits; no digit at all gives `NaN` (None).
   */
  function ParseInt(s: string): (r: Option<int>)
    ensures var u := AfterSign(TrimStart(s));
            r.None? <==> u == [] || !('0' <= u[0] <= '9')
    ensures var t := TrimStart(s);
            r.Some? ==> t != [] && r.value == (if t[0] == '-' then -LeadingValue(AfterSign(t)) else LeadingValue(AfterSign(t)))
  {
    var t := TrimStart(s);
    var u := AfterSign(t);
    var n := DigitRun(u);
    assert n == 0 <==> u == [] || !('0' <= u[0] <= '9');
    if n == 0 then None
    else
      var v := LeadingValue(u);
      Some(if t != [] && t[0] == '-' then -v else v)
  }

  /** The text of a whole number parses back to that number. */
  lemma ParseIntOfNatToString(n: nat)
    ensures ParseInt(NatToString(n)) == Some(n)
  {
    var s := NatToString(n);
    assert !IsSpace(s[0]);
    assert TrimStart(s) == s;
    assert AfterSign(s) == s;
    assert DigitRun(s) == |s|;
    assert s[..|s|] == s;
    NatToStringValue(n);
  }

  datatype Position = Position(x: int, y: int)
  datatype ProductTag = ProductTag(product: string, position: Position)
  datatype Settings = Settings(allowReplies: bool, showViewers: bool, highlightProducts: bool)
  datatype StoryPayload = StoryPayload(
    kind: MediaKind, url: string, caption: string, products: seq<ProductTag>,
    settings: Settings, duration: Option<int>)

  const MaxCaption := 500

  datatype StoryForm = StoryForm(caption: string, settings: Settings, duration: string)

  /** `Validators.maxLength(500)` on the caption, which counts UTF-16 code units. */
  predicate FormValid(form: StoryForm) {
    Utf16Length(form.caption) <= MaxCaption
  }

  /**
   * `onSubmit`: nothing without a valid form and a selected file; otherwise
   * the media kind from the MIME type, the preview as url, every tagged
   * product in order at the centre (50, 50), and the parsed duration.
   */
  function Payload(form: StoryForm, media: Option<SelectedMedia>, tagged: seq<TagProduct>): (r: Option<StoryPayload>)
    ensures r.Some? <==> FormValid(form) && media.Some?
    ensures r.Some? ==> r.value.kind == MediaKindOf(media.value.mimeType) && r.value.url == media.value.preview
    ensures r.Some? ==> (|r.value.products| == |tagged|
                         && forall i :: 0 <= i < |tagged| ==> r.value.products[i] == ProductTag(tagged[i].id, Position(50, 50)))
    ensures r.Some? ==> r.value.caption == form.caption && Utf16Length(r.value.caption) <= MaxCaption
    ensures r.Some? ==> r.value.settings == form.settings && r.value.duration == ParseInt(form.duration)
  {
    if FormValid(form) && media.Some? then
      Some(StoryPayload(
        MediaKindOf(media.value.mimeType), media.value.preview, form.caption,
        CentredTags(tagged), form.settings, ParseInt(form.duration)))
    else None
  }

  /** `taggedProducts.map(p => ({ product: p._id, position: { x: 50, y: 50 } }))`. */
  function CentredTags(tagged: seq<TagProduct>): (r: seq<ProductTag>)
    ensures |r| == |tagged|
    ensures forall i :: 0 <= i < |tagged| ==> r[i] == ProductTag(tagged[i].id, Position(50, 50))
  {
    seq(|tagged|, i requires 0 <= i < |tagged| => ProductTag(tagged[i].id, Position(50, 50)))
  }

  class Composer {
    var selectedMedia: Option<SelectedMedia>
    var taggedProducts: seq<TagProduct>
    var searchResults: seq<TagProduct>
    var uploading: bool

    predicate Valid()
      reads this
    {
      DistinctIds(taggedProducts)
    }

    constructor()
      ensures Valid()
      ensures selectedMedia.None? && taggedProducts == [] && searchResults == [] && !uploading
    {
      selectedMedia := None;
      taggedProducts := [];
      searchResults := [];
      uploading := false;
    }

    method SearchProducts(query: string)
      modifies this
      ensures searchResults == SearchResults(query)
      ensures taggedProducts == old(taggedProducts) && selectedMedia == old(selectedMedia) && uploading == old(uploading)
    {
      searchResults := SearchResults(query);
    }

    /** `addProductTag`: tags a product once, and always clears the search results. */
    method AddProductTag(product: TagProduct)
      requires Valid()
      modifies this
      ensures Valid()
      ensures taggedProducts == WithTag(old(taggedProducts), product)
      ensures searchResults == []
      ensures selectedMedia == old(selectedMedia) && uploading == old(uploading)
    {
      WithTagKeepsIdsDistinct(taggedProducts, product);
      taggedProducts := WithTag(taggedProducts, product);
      searchResults := [];
    }

    /** `removeProductTag`: `splice(index, 1)`. */
    method RemoveProductTag(index: int)
      requires Valid()
      modifies this
      ensures Valid()
      ensures taggedProducts == Lists.RemoveAt(old(taggedProducts), index)
      ensures searchResults == old(searchResults) && selectedMedia == old(selectedMedia) && uploading == old(uploading)
    {
      RemoveAtKeepsIdsDistinct(taggedProducts, index);
      taggedProducts := Lists.RemoveAt(taggedProducts, index);
    }

    /**
     * `onFileSelect` once the reader's `onload` has fired: the first picked
     * file, if any, becomes the selected media with its data-URL preview.
     */
    method MediaRead(file: Option<(string, string)>, preview: string)
      modifies this
      ensures file.None? ==> selectedMedia == old(selectedMedia)
      ensures file.Some? ==> selectedMedia == Some(SelectedMedia(file.value.1, preview, file.value.0))
      ensures taggedProducts == old(taggedProducts) && searchResults == old(searchResults) && uploading == old(uploading)
    {
      if file.Some? {
        selectedMedia := Some(SelectedMedia(file.value.1, preview, file.value.0));
      }
    }

    method RemoveMedia()
      modifies this
      ensures selectedMedia.None?
      ensures taggedProducts == old(taggedProducts) && searchResults == old(searchResults) && uploading == old(uploading)
    {
      selectedMedia := None;
    }

    /** `onSubmit`: builds the payload and starts the upload only when it exists. */
    method Submit(form: StoryForm) returns (payload: Option<StoryPayload>)
      modifies this
      ensures payload == Payload(form, old(selectedMedia), old(taggedProducts))
      ensures uploading == (payload.Some? || old(uploading))
      ensures taggedProducts == old(taggedProducts) && searchResults == old(searchResults) && selectedMedia == old(selectedMedia)
    {
      var media, tagged := selectedMedia, taggedProducts;
      payload := Payload(form, media, tagged);
      uploading := payload.Some? || uploading;
    }

    /** The 2000 ms timer of `onSubmit`: the upload ends; nothing else changes. */
    method UploadTimerFired()
      modifies this
      ensures !uploading
      ensures selectedMedia == old(selectedMedia) && taggedProducts == old(taggedProducts)
      ensures searchResults == old(searchResults)
    {
      uploading := false;
    }
  }
}

=== FILE: grouping.dfy ===
/**
 * Grouping a list by a string key into buckets, one per distinct key in the
 * order keys are first met, each holding its elements in list order. Both
 * the server's story listing and the feed's story strip group stories by
 * author this way.
 */
module Grouping {
  import Lists

  datatype Bucket<T> = Bucket(key: string, items: seq<T>)

  function KeyIs<T(==)>(key: T -> string, u: string): T -> bool {
    (x: T) => key(x) == u
  }

  /** Some element of `xs` has key `u`. */
  predicate HasKey<T(==)>(xs: seq<T>, key: T -> string, u: string) {
    exists k :: 0 <= k < |xs| && key(xs[k]) == u
  }

  lemma HasKeySnoc<T>(xs: seq<T>, x: T, key: T -> string, u: string)
    ensures HasKey(xs + [x], key, u) <==> HasKey(xs, key, u) || key(x) == u
  {
    if HasKey(xs + [x], key, u) {
      var k :| 0 <= k < |xs + [x]| && key((xs + [x])[k]) == u;
      if k < |xs| {
        assert xs[k] == (xs + [x])[k];
      }
    }
    if HasKey(xs, key, u) {
      var k :| 0 <= k < |xs| && key(xs[k]) == u;
      assert (xs + [x])[k] == xs[k];
    }
    if key(x) == u {
      assert (xs + [x])[|xs|] == x;
    }
  }

  /** Some element with key `u` comes before every element with key `v`. */
  predicate MetBefore<T(==)>(xs: seq<T>, key: T -> string, u: string, v: string) {
    exists k :: 0 <= k < |xs| && key(xs[k]) == u && forall m :: 0 <= m <= k ==> key(xs[m]) != v
  }

  /** Of two keys of `keys`, the earlier one is met in `xs` before any element carrying the later one. */
  predicate InFirstMetOrder<T(==)>(xs: seq<T>, key: T -> string, keys: seq<string>) {
    forall i, j :: 0 <= i < j < |keys| ==> MetBefore(xs, key, keys[i], keys[j])
  }

  lemma MetBeforeSnoc<T>(xs: seq<T>, x: T, key: T -> string, u: string, v: string)
    requires MetBefore(xs, key, u, v)
    ensures MetBefore(xs + [x], key, u, v)
  {
    var k :| 0 <= k < |xs| && key(xs[k]) == u && forall m :: 0 <= m <= k ==> key(xs[m]) != v;
    assert (xs + [x])[k] == xs[k];
    forall m | 0 <= m <= k
      ensures key((xs + [x])[m]) != v
    {
      assert (xs + [x])[m] == xs[m];
    }
  }

  /** A key already met comes before the key of a new element that no earlier element has. */
  lemma MetBeforeNewKey<T>(xs: seq<T>, x: T, key: T -> string, u: string)
    requires HasKey(xs, key, u) && !HasKey(xs, key, key(x))
    ensures MetBefore(xs + [x], key, u, key(x))
  {
    var k :| 0 <= k < |xs| && key(xs[k]) == u;
    assert (xs + [x])[k] == xs[k];
    forall m | 0 <= m <= k
      ensures key((xs + [x])[m]) != key(x)
    {
      assert (xs + [x])[m] == xs[m];
    }
  }

  /**
   * The distinct keys of `xs` in the order they are first met: of two keys,
   * the earlier one is met before any element carrying the later one.
   */
  function KeysInOrder<T(==)>(xs: seq<T>, key: T -> string): (r: seq<string>)
    ensures forall i, j :: 0 <= i < j < |r| ==> r[i] != r[j]
    ensures forall u :: u in r <==> HasKey(xs, key, u)
    ensures InFirstMetOrder(xs, key, r)
  {
    if xs == [] then []
    else
      var prefix := xs[..|xs| - 1];
      var last := xs[|xs| - 1];
      assert xs == prefix + [last];
      forall u
        ensures HasKey(xs, key, u) <==> HasKey(prefix, key, u) || key(last) == u
      {
        HasKeySnoc(prefix, last, key, u);
      }
      var r := KeysInOrder(prefix, key);
      forall i, j | 0 <= i < j < |r|
        ensures MetBefore(xs, key, r[i], r[j])
      {
        MetBeforeSnoc(prefix, last, key, r[i], r[j]);
      }
      if key(last) in r then r
      else
        var r' := r + [key(last)];
        forall i | 0 <= i < |r|
          ensures MetBefore(xs, key, r'[i], r'[|r|])
        {
          assert r'[i] == r[i] && r[i] in r;
          MetBeforeNewKey(prefix, last, key, r[i]);
        }
        r'
  }

  lemma KeysSnoc<T>(xs: seq<T>, x: T, key: T -> string)
    ensures KeysInOrder(xs + [x], key) ==
      if key(x) in KeysInOrder(xs, key) then KeysInOrder(xs, key) else KeysInOrder(xs, key) + [key(x)]
  {
    assert (xs + [x])[..|xs + [x]| - 1] == xs;
  }

  lemma FilterSnoc<T>(xs: seq<T>, x: T, key: T -> string, u: string)
    ensures Lists.Filter(xs + [x], KeyIs(key, u)) == Lists.Filter(xs, KeyIs(key, u)) + (if key(x) == u then [x] else [])
  {
    Lists.FilterAppend(xs, [x], KeyIs(key, u));
    assert [x][1..] == [];
  }

  /**
   * `buckets` is the grouping of `xs`: one bucket per key in first-seen
   * order, holding the elements of `xs` with that key, in order.
   */
  predicate GroupsOf<T(==)>(xs: seq<T>, key: T -> string, buckets: seq<Bucket<T>>) {
    |buckets| == |KeysInOrder(xs, key)|
    && (forall i :: 0 <= i < |buckets| ==> buckets[i].key == KeysInOrder(xs, key)[i])
    && (forall i :: 0 <= i < |buckets| ==> buckets[i].items == Lists.Filter(xs, KeyIs(key, buckets[i].key)))
  }

  lemma AppendToBucket<T>(xs: seq<T>, x: T, key: T -> string, buckets: seq<Bucket<T>>, j: nat)
    requires GroupsOf(xs, key, buckets) && j < |buckets| && buckets[j].key == key(x)
    ensures GroupsOf(xs + [x], key, buckets[j := buckets[j].(items := buckets[j].items + [x])])
  {
    KeysSnoc(xs, x, key);
    assert key(x) in KeysInOrder(xs, key);
    var b' := buckets[j := buckets[j].(items := buckets[j].items + [x])];
    forall i | 0 <= i < |b'|
      ensures b'[i].items == Lists.Filter(xs + [x], KeyIs(key, b'[i].key))
    {
      FilterSnoc(xs, x, key, b'[i].key);
      if i != j {
        assert b'[i].key != key(x) by {
          assert KeysInOrder(xs, key)[i] != KeysInOrder(xs, key)[j];
        }
      }
    }
  }

  /** A key no element of `xs` has is appended to the keys, and its elements are just `x`. */
  lemma NewKeySnoc<T>(xs: seq<T>, x: T, key: T -> string)
    requires key(x) !in KeysInOrder(xs, key)
    ensures KeysInOrder(xs + [x], key) == KeysInOrder(xs, key) + [key(x)]
    ensures Lists.Filter(xs + [x], KeyIs(key, key(x))) == [x]
  {
    KeysSnoc(xs, x, key);
    assert forall i :: 0 <= i < |xs| ==> !KeyIs(key, key(x))(xs[i]) by {
      assert !HasKey(xs, key, key(x));
    }
    Lists.FilterNone(xs, KeyIs(key, key(x)));
    FilterSnoc(xs, x, key, key(x));
  }

  lemma OpenBucket<T>(xs: seq<T>, x: T, key: T -> string, buckets: seq<Bucket<T>>)
    requires GroupsOf(xs, key, buckets) && forall i :: 0 <= i < |buckets| ==> buckets[i].key != key(x)
    ensures GroupsOf(xs + [x], key, buckets + [Bucket(key(x), [x])])
  {
    var keys := KeysInOrder(xs, key);
    assert key(x) !in keys by {
      assert forall i :: 0 <= i < |keys| ==> keys[i] != key(x);
    }
    NewKeySnoc(xs, x, key);
    var b' := buckets + [Bucket(key(x), [x])];
    forall i | 0 <= i < |buckets|
      ensures b'[i].items == Lists.Filter(xs + [x], KeyIs(key, b'[i].key))
    {
      FilterSnoc(xs, x, key, b'[i].key);
    }
  }

  /**
   * One pass over `xs`: an element joins the bucket of its key, or opens a
   * new bucket when its key is new.
   */
  method GroupBy<T(==)>(xs: seq<T>, key: T -> string) returns (buckets: seq<Bucket<T>>)
    ensures |buckets| == |KeysInOrder(xs, key)|
    ensures forall i :: 0 <= i < |buckets| ==> buckets[i].key == KeysInOrder(xs, key)[i]
    ensures forall i :: 0 <= i < |buckets| ==> buckets[i].items == Lists.Filter(xs, KeyIs(key, buckets[i].key))
  {
    buckets := [];
    var k := 0;
    while k < |xs|
      invariant 0 <= k <= |xs|
      invariant GroupsOf(xs[..k], key, buckets)
    {
      var x := xs[k];
      assert xs[..k + 1] == xs[..k] + [x];
      var j := Lists.IndexWhere(buckets, (b: Bucket<T>) => b.key == key(x));
      if j.Some? {
        AppendToBucket(xs[..k], x, key, buckets, j.value);
        buckets := buckets[j.value := buckets[j.value].(items := buckets[j.value].items + [x])];
      } else {
        OpenBucket(xs[..k], x, key, buckets);
        buckets := buckets + [Bucket(key(x), [x])];
      }
      k := k + 1;
    }
    assert xs[..k] == xs;
  }

  /** A key that occurs has a non-empty bucket, whose first item is the key's first occurrence. */
  lemma {:induction false} FirstOfKey<T>(xs: seq<T>, key: T -> string, u: string)
    requires HasKey(xs, key, u)
    ensures |Lists.Filter(xs, KeyIs(key, u))| > 0
    ensures exists k :: 0 <= k < |xs| && key(xs[k]) == u && Lists.Filter(xs, KeyIs(key, u))[0] == xs[k]
                        && forall j :: 0 <= j < k ==> key(xs[j]) != u
    decreases |xs|
  {
    if key(xs[0]) == u {
      assert KeyIs(key, u)(xs[0]);
    } else {
      var k :| 0 <= k < |xs| && key(xs[k]) == u;
      assert xs[1..][k - 1] == xs[k];
      FirstOfKey(xs[1..], key, u);
      var k' :| 0 <= k' < |xs[1..]| && key(xs[1..][k']) == u && Lists.Filter(xs[1..], KeyIs(key, u))[0] == xs[1..][k']
                && forall j :: 0 <= j < k' ==> key(xs[1..][j]) != u;
      assert xs[1..][k'] == xs[k' + 1];
      assert forall j :: 1 <= j < k' + 1 ==> key(xs[j]) != u by {
        forall j | 1 <= j < k' + 1 ensures key(xs[j]) != u {
          assert xs[1..][j - 1] == xs[j];
        }
      }
    }
  }
}

=== FILE: lists.dfy ===
/**
 * The array/list operations the code leans on everywhere: `find`/`findIndex`
 * (Python `next(...)`), `filter`, `some`.
 */
module Lists {
  import opened Wrappers

  /** Index of the first element satisfying `p` (`findIndex`, -1 as `None`). */
  function IndexWhere<T>(xs: seq<T>, p: T -> bool): (r: Option<nat>)
    ensures r.None? <==> forall i :: 0 <= i < |xs| ==> !p(xs[i])
    ensures r.Some? ==> r.value < |xs| && p(xs[r.value]) && forall j :: 0 <= j < r.value ==> !p(xs[j])
  {
    if |xs| == 0 then None
    else if p(xs[0]) then Some(0)
    else match IndexWhere(xs[1..], p)
      case None => None
      case Some(k) => Some(k + 1)
  }

  /** The first element satisfying `p` (`find`; `undefined`/`None` as `None`). */
  function Find<T>(xs: seq<T>, p: T -> bool): (r: Option<T>)
    ensures r.None? <==> forall i :: 0 <= i < |xs| ==> !p(xs[i])
    ensures r.Some? ==> exists k :: 0 <= k < |xs| && xs[k] == r.value && p(xs[k])
                                    && forall j :: 0 <= j < k ==> !p(xs[j])
  {
    match IndexWhere(xs, p)
    case None => None
    case Some(k) => Some(xs[k])
  }

  /** `xs.filter(p)`: the elements satisfying `p`, in order. */
  function Filter<T>(xs: seq<T>, p: T -> bool): (r: seq<T>)
    ensures |r| <= |xs|
    ensures forall i :: 0 <= i < |r| ==> p(r[i])
  {
    if |xs| == 0 then []
    else
      var rest := Filter(xs[1..], p);
      if p(xs[0]) then [xs[0]] + rest else rest
  }

  /** An element is kept exactly when it is in the list and passes the test. */
  lemma {:induction false} FilterMember<T>(xs: seq<T>, p: T -> bool, x: T)
    ensures x in Filter(xs, p) <==> x in xs && p(x)
    decreases |xs|
  {
    if |xs| > 0 {
      FilterMember(xs[1..], p, x);
      assert xs == [xs[0]] + xs[1..];
    }
  }

  lemma {:induction false} FilterAppend<T>(a: seq<T>, b: seq<T>, p: T -> bool)
    ensures Filter(a + b, p) == Filter(a, p) + Filter(b, p)
    decreases |a|
  {
    if |a| > 0 {
      assert (a + b)[1..] == a[1..] + b;
      FilterAppend(a[1..], b, p);
    } else {
      assert a + b == b;
    }
  }

  /**
   * `filter` keeps the order of the list: the result is the list read at
   * increasing positions, and those positions are exactly the ones whose
   * element passes the test.
   */
  lemma {:induction false} FilterKeepsOrder<T>(xs: seq<T>, p: T -> bool) returns (idx: seq<nat>)
    ensures PositionsOf(xs, p, Filter(xs, p), idx)
    ensures |idx| == |Filter(xs, p)|
    ensures forall i :: 0 <= i < |idx| ==> idx[i] < |xs| && Filter(xs, p)[i] == xs[idx[i]]
    ensures forall i, j :: 0 <= i < j < |idx| ==> idx[i] < idx[j]
    ensures forall k :: 0 <= k < |xs| ==> (k in idx <==> p(xs[k]))
    decreases |xs|
  {
    if |xs| == 0 {
      idx := [];
    } else {
      var tail := Filter(xs[1..], p);
      var rest := FilterKeepsOrder(xs[1..], p);
      var shifted := ShiftPositions(xs, p, tail, rest);
      if p(xs[0]) {
        assert Filter(xs, p) == [xs[0]] + tail;
        idx := [0] + shifted;
        PrependPosition(xs, p, tail, shifted);
      } else {
        assert Filter(xs, p) == tail;
        idx := shifted;
      }
    }
  }

  /**
   * `idx` lists, in increasing order, exactly the positions of `xs` whose
   * element passes `p`, and `r` is `xs` read at those positions.
   */
  ghost predicate PositionsOf<T>(xs: seq<T>, p: T -> bool, r: seq<T>, idx: seq<nat>) {
    && |idx| == |r|
    && (forall i :: 0 <= i < |idx| ==> idx[i] < |xs| && r[i] == xs[idx[i]])
    && (forall i, j :: 0 <= i < j < |idx| ==> idx[i] < idx[j])
    && (forall k :: 0 <= k < |xs| ==> (k in idx <==> p(xs[k])))
  }

  /** Every position moved up by one. */
  function Incremented(s: seq<nat>): (r: seq<nat>)
    ensures |r| == |s| && forall i :: 0 <= i < |s| ==> r[i] == s[i] + 1
  {
    if s == [] then [] else [s[0] + 1] + Incremented(s[1..])
  }

  /** The positions of a filter of `xs[1..]`, moved up by one to be positions in `xs`. */
  lemma ShiftPositions<T>(xs: seq<T>, p: T -> bool, tail: seq<T>, rest: seq<nat>) returns (shifted: seq<nat>)
    requires |xs| > 0 && PositionsOf(xs[1..], p, tail, rest)
    ensures |shifted| == |tail| && (forall i :: 0 <= i < |shifted| ==> shifted[i] >= 1)
    ensures forall i :: 0 <= i < |shifted| ==> shifted[i] < |xs| && tail[i] == xs[shifted[i]]
    ensures forall i, j :: 0 <= i < j < |shifted| ==> shifted[i] < shifted[j]
    ensures forall k :: 1 <= k < |xs| ==> (k in shifted <==> p(xs[k]))
    ensures 0 !in shifted
  {
    shifted := Incremented(rest);
    ShiftedMembers(xs, p, rest, shifted);
  }

  lemma ShiftedMembers<T>(xs: seq<T>, p: T -> bool, rest: seq<nat>, shifted: seq<nat>)
    requires |xs| > 0 && |shifted| == |rest|
    requires forall i :: 0 <= i < |rest| ==> shifted[i] == rest[i] + 1
    requires forall k :: 0 <= k < |xs| - 1 ==> (k in rest <==> p(xs[1..][k]))
    ensures forall k :: 1 <= k < |xs| ==> (k in shifted <==> p(xs[k]))
    ensures 0 !in shifted
  {
    forall k | 1 <= k < |xs|
      ensures k in shifted <==> p(xs[k])
    {
      assert xs[1..][k - 1] == xs[k];
      if k in shifted {
        var i :| 0 <= i < |shifted| && shifted[i] == k;
        assert rest[i] in rest;
      }
      if k - 1 in rest {
        var i :| 0 <= i < |rest| && rest[i] == k - 1;
        assert shifted[i] in shifted;
      }
    }
  }

  /** A passing head adds position 0 in front of the shifted positions. */
  lemma PrependPosition<T>(xs: seq<T>, p: T -> bool, tail: seq<T>, shifted: seq<nat>)
    requires |xs| > 0 && p(xs[0]) && |shifted| == |tail|
    requires forall i :: 0 <= i < |shifted| ==> 1 <= shifted[i] < |xs| && tail[i] == xs[shifted[i]]
    requires forall i, j :: 0 <= i < j < |shifted| ==> shifted[i] < shifted[j]
    requires forall k :: 1 <= k < |xs| ==> (k in shifted <==> p(xs[k]))
    ensures PositionsOf(xs, p, [xs[0]] + tail, [0] + shifted)
  {
    var idx := [0] + shifted;
    var r := [xs[0]] + tail;
    forall i | 0 <= i < |idx|
      ensures idx[i] < |xs| && r[i] == xs[idx[i]]
    {
      if i > 0 {
        assert idx[i] == shifted[i - 1] && r[i] == tail[i - 1];
      }
    }
    forall i, j | 0 <= i < j < |idx|
      ensures idx[i] < idx[j]
    {
      if i > 0 {
        assert idx[i] == shifted[i - 1];
      }
      assert idx[j] == shifted[j - 1];
    }
    PrependedMembers(xs, p, shifted);
  }

  lemma PrependedMembers<T>(xs: seq<T>, p: T -> bool, shifted: seq<nat>)
    requires |xs| > 0 && p(xs[0])
    requires forall k :: 1 <= k < |xs| ==> (k in shifted <==> p(xs[k]))
    ensures forall k :: 0 <= k < |xs| ==> (k in [0] + shifted <==> p(xs[k]))
  {
    forall k | 0 <= k < |xs|
      ensures k in [0] + shifted <==> p(xs[k])
    {
      assert k in [0] + shifted <==> k == 0 || k in shifted;
    }
  }

  /** Filtering with a test every element passes changes nothing. */
  lemma {:induction false} FilterAll<T>(xs: seq<T>, p: T -> bool)
    requires forall i :: 0 <= i < |xs| ==> p(xs[i])
    ensures Filter(xs, p) == xs
    decreases |xs|
  {
    if |xs| > 0 {
      FilterAll(xs[1..], p);
    }
  }

  /** Filtering with a test no element passes leaves nothing. */
  lemma {:induction false} FilterNone<T>(xs: seq<T>, p: T -> bool)
    requires forall i :: 0 <= i < |xs| ==> !p(xs[i])
    ensures Filter(xs, p) == []
    decreases |xs|
  {
    if |xs| > 0 {
      FilterNone(xs[1..], p);
    }
  }

  /** Filtering twice is filtering once with both tests. */
  lemma {:induction false} FilterFilter<T>(xs: seq<T>, p: T -> bool, q: T -> bool, pq: T -> bool)
    requires forall x :: pq(x) == (p(x) && q(x))
    ensures Filter(Filter(xs, p), q) == Filter(xs, pq)
    decreases |xs|
  {
    if |xs| > 0 {
      FilterFilter(xs[1..], p, q, pq);
    }
  }

  /** Where `splice(start, 1)` acts: a negative start counts from the end. */
  function SpliceStart(len: nat, start: int): (k: nat)
    ensures k <= len
    ensures 0 <= start <= len ==> k == start
    ensures start > len ==> k == len
    ensures start < 0 && len + start >= 0 ==> k == len + start
    ensures len + start < 0 ==> k == 0
  {
    if start < 0 then (if len + start < 0 then 0 else len + start)
    else if start > len then len
    else start
  }

  /** `xs.splice(start, 1)`: the list without the element at the normalised start, if there is one. */
  function RemoveAt<T>(xs: seq<T>, start: int): (r: seq<T>)
    ensures SpliceStart(|xs|, start) < |xs| ==> |r| == |xs| - 1
    ensures SpliceStart(|xs|, start) == |xs| ==> r == xs
    ensures forall i :: 0 <= i < |r| && i < SpliceStart(|xs|, start) ==> r[i] == xs[i]
    ensures forall i :: SpliceStart(|xs|, start) <= i < |r| ==> r[i] == xs[i + 1]
    ensures forall x :: x in r ==> x in xs
  {
    var k := SpliceStart(|xs|, start);
    if k < |xs| then xs[..k] + xs[k + 1..] else xs
  }

  /** `xs.some(p)`. */
  predicate Any<T>(xs: seq<T>, p: T -> bool) {
    exists i :: 0 <= i < |xs| && p(xs[i])
  }

  /** `Math.min(a, b)`. */
  function Min(a: int, b: int): (r: int)
    ensures r <= a && r <= b && (r == a || r == b)
  {
    if a <= b then a else b
  }
}

=== FILE: media_service.dfy ===
/**
 * frontend/src/app/core/services/media.service.ts: how the client decides
 * whether a media URL is a video, external or broken, and which URL it shows
 * instead of a broken or empty one. Every rule is a substring test over a
 * fixed, ordered list.
 */
module MediaService {
  import opened Wrappers
  import opened Text
  import Lists

  /** The `type` argument: which kind of picture the URL is for. */
  datatype Slot = User | Product | Post | Story

  /** `fallbackImages[type]`. */
  function FallbackImage(slot: Slot): string {
    match slot
    case User => "/assets/images/default-avatar.svg"
    case Product => "/assets/images/default-product.svg"
    case Post => "/assets/images/default-post.svg"
    case Story => "/assets/images/default-story.svg"
  }

  /**
   * What `getSafeImageUrl` hands to an image: a URL, or `backupFallbacks[type]`,
   * the inline base64 SVG placeholder of the slot.
   */
  datatype Image = Link(url: string) | InlinePlaceholder(slot: Slot)

  /**
   * The result of `fixBrokenUrl`: a URL, or the failure of the sample-video
   * branch, which reads `.url` of an entry of the empty sample-video list.
   */
  datatype Fix = Fixed(url: string) | NoSampleVideo

  /** `brokenUrlPatterns`, in the order they are tried. */
  function BrokenPatterns(): seq<string> {
    ["/uploads/stories/images/", "/uploads/stories/videos/", "sample-videos.com", "localhost:4200/assets/", "file://"]
  }

  /** The domains of `isExternalImageUrl`. */
  function ExternalDomains(): seq<string> {
    ["unsplash.com", "images.unsplash.com", "picsum.photos", "via.placeholder.com", "placehold.it", "placeholder.com"]
  }

  /** The extensions of `isVideoUrl`. */
  function VideoExtensions(): seq<string> {
    [".mp4", ".webm", ".ogg", ".mov", ".avi"]
  }

  /** `urlMappings` of `getReplacementMediaUrl`, in insertion order. */
  function UrlMappings(): seq<(string, string)> {
    [ ("summer-collection", "https://images.unsplash.com/photo-1445205170230-053b83016050?w=800"),
      ("behind-scenes", "https://images.unsplash.com/photo-1469334031218-e382a71b716b?w=800"),
      ("customer-spotlight", "https://images.unsplash.com/photo-1594633312681-425c7b97ccd1?w=800"),
      ("styling-tips", "https://images.unsplash.com/photo-1441986300917-64674bd600d8?w=800"),
      ("design", "https://images.unsplash.com/photo-1558769132-cb1aea458c5e?w=800") ]
  }

  function In(s: string): string -> bool {
    (p: string) => Contains(s, p)
  }

  function KeyIn(s: string): ((string, string)) -> bool {
    (m: (string, string)) => Contains(s, m.0)
  }

  /** `isExternalImageUrl`: the URL mentions one of the placeholder-image domains. */
  function IsExternalImageUrl(url: string): (r: bool)
    ensures r <==> exists k :: 0 <= k < |ExternalDomains()| && Contains(url, ExternalDomains()[k])
  {
    Lists.Any(ExternalDomains(), In(url))
  }

  /** `isBrokenUrl`: the URL mentions one of the known-broken patterns. */
  function IsBrokenUrl(url: string): (r: bool)
    ensures r <==> exists k :: 0 <= k < |BrokenPatterns()| && Contains(url, BrokenPatterns()[k])
  {
    Lists.Any(BrokenPatterns(), In(url))
  }

  /**
   * `isLikelyToFail`: an external image or a broken URL. Two of the six
   * domains contain others of the list, so four substring tests decide the
   * external half.
   */
  function IsLikelyToFail(url: string): (r: bool)
    ensures r <==> Contains(url, "unsplash.com") || Contains(url, "picsum.photos")
                   || Contains(url, "placehold.it") || Contains(url, "placeholder.com") || IsBrokenUrl(url)
  {
    ExternalDomainsOverlap(url);
    IsExternalImageUrl(url) || IsBrokenUrl(url)
  }

  lemma ExternalDomainsOverlap(url: string)
    ensures IsExternalImageUrl(url) <==> Contains(url, "unsplash.com") || Contains(url, "picsum.photos")
                                         || Contains(url, "placehold.it") || Contains(url, "placeholder.com")
  {
    var d := ExternalDomains();
    if Contains(url, "images.unsplash.com") {
      assert EndsWith("images.unsplash.com", "unsplash.com");
      EndsWithContains("images.unsplash.com", "unsplash.com");
      ContainsTransitive(url, "images.unsplash.com", "unsplash.com");
    }
    if Contains(url, "via.placeholder.com") {
      assert EndsWith("via.placeholder.com", "placeholder.com");
      EndsWithContains("via.placeholder.com", "placeholder.com");
      ContainsTransitive(url, "via.placeholder.com", "placeholder.com");
    }
    if Contains(url, "unsplash.com") { assert In(url)(d[0]); }
    if Contains(url, "picsum.photos") { assert In(url)(d[2]); }
    if Contains(url, "placehold.it") { assert In(url)(d[4]); }
    if Contains(url, "placeholder.com") { assert In(url)(d[5]); }
  }

  /**
   * `isVideoUrl`: false for an empty URL; otherwise true exactly when the
   * lower-cased URL contains one of the video extensions or the word 'video'.
   */
  function IsVideoUrl(url: string): (r: bool)
    ensures url == "" ==> !r
    ensures r <==> url != "" && (Contains(ToLower(url), "video")
                                 || exists k :: 0 <= k < |VideoExtensions()| && Contains(ToLower(url), VideoExtensions()[k]))
  {
    var lower := ToLower(url);
    assert Contains(lower, ".mp4") ==> In(lower)(VideoExtensions()[0]);
    url != "" && (Lists.Any(VideoExtensions(), In(lower)) || Contains(lower, "video") || Contains(lower, ".mp4"))
  }

  /** The extension test ignores case: a URL ending in `.MP4` is a video. */
  lemma UpperCaseExtensionIsVideo(url: string)
    requires EndsWith(url, ".MP4")
    ensures IsVideoUrl(url)
  {
    var lower := ToLower(url);
    var n := |url|;
    assert url[n - 4..] == ".MP4";
    assert url[n - 3] == 'M' && url[n - 2] == 'P';
    assert lower[n - 4..] == ".mp4";
    EndsWithContains(lower, ".mp4");
    assert Contains(lower, VideoExtensions()[0]);
  }

  /**
   * `getReplacementMediaUrl`: the Unsplash URL of the first mapping key the
   * lower-cased URL contains, in listed order; with none, the slot's
   * fallback image.
   */
  function GetReplacementMediaUrl(url: string, slot: Slot): (r: string)
    ensures (forall k :: 0 <= k < |UrlMappings()| ==> !Contains(ToLower(url), UrlMappings()[k].0))
            ==> r == FallbackImage(slot)
    ensures forall k :: 0 <= k < |UrlMappings()| && Contains(ToLower(url), UrlMappings()[k].0)
                        && (forall j :: 0 <= j < k ==> !Contains(ToLower(url), UrlMappings()[j].0))
                        ==> r == UrlMappings()[k].1
  {
    match Lists.IndexWhere(UrlMappings(), KeyIn(ToLower(url)))
    case Some(k) => UrlMappings()[k].1
    case None => FallbackImage(slot)
  }

  /**
   * `url.split('localhost:4200')[1]`: the text after the first
   * 'localhost:4200', up to the next occurrence if there is one.
   */
  function LocalAssetPath(url: string): (r: string)
    requires Contains(url, "localhost:4200")
    ensures IndexOf(url, "localhost:4200") >= 0
    ensures var rest := url[IndexOf(url, "localhost:4200") + |"localhost:4200"|..];
            StartsWith(rest, r) && (r == rest || OccursAt(rest, "localhost:4200", |r|))
  {
    SecondPiece(url, "localhost:4200")
  }

  lemma AssetPatternHasHost(url: string)
    requires Contains(url, "localhost:4200/assets/")
    ensures Contains(url, "localhost:4200")
  {
    assert StartsWith("localhost:4200/assets/", "localhost:4200");
    StartsWithContains("localhost:4200/assets/", "localhost:4200");
    ContainsTransitive(url, "localhost:4200/assets/", "localhost:4200");
  }

  /**
   * `fixBrokenUrl`: the patterns are tried in list order and the first one
   * the URL contains decides; a URL with none of them comes back unchanged.
   */
  function FixBrokenUrl(url: string, slot: Slot): (r: Fix)
    ensures !IsBrokenUrl(url) ==> r == Fixed(url)
  {
    match Lists.IndexWhere(BrokenPatterns(), In(url))
    case None => Fixed(url)
    case Some(k) =>
      if k <= 1 then Fixed(GetReplacementMediaUrl(url, slot))
      else if k == 2 then NoSampleVideo
      else if k == 3 then
        AssetPatternHasHost(url);
        Fixed(LocalAssetPath(url))
      else Fixed(FallbackImage(slot))
  }

  /** Story upload paths, under either folder, are replaced by content. */
  lemma FixStoryUpload(url: string, slot: Slot)
    requires Contains(url, "/uploads/stories/images/") || Contains(url, "/uploads/stories/videos/")
    ensures FixBrokenUrl(url, slot) == Fixed(GetReplacementMediaUrl(url, slot))
  {
    var k := Lists.IndexWhere(BrokenPatterns(), In(url));
    assert In(url)(BrokenPatterns()[0]) || In(url)(BrokenPatterns()[1]);
  }

  /** A sample-video URL not caught by the upload patterns has no replacement. */
  lemma FixSampleVideo(url: string, slot: Slot)
    requires !Contains(url, "/uploads/stories/images/") && !Contains(url, "/uploads/stories/videos/")
    requires Contains(url, "sample-videos.com")
    ensures FixBrokenUrl(url, slot) == NoSampleVideo
  {
    assert In(url)(BrokenPatterns()[2]);
  }

  /** A local asset URL caught by no earlier pattern becomes its path after the host. */
  lemma FixLocalAsset(url: string, slot: Slot)
    requires !Contains(url, "/uploads/stories/images/") && !Contains(url, "/uploads/stories/videos/")
    requires !Contains(url, "sample-videos.com") && Contains(url, "localhost:4200/assets/")
    ensures Contains(url, "localhost:4200") && FixBrokenUrl(url, slot) == Fixed(LocalAssetPath(url))
  {
    AssetPatternHasHost(url);
    assert In(url)(BrokenPatterns()[3]);
  }

  /** A `file://` URL caught by no earlier pattern becomes the slot's fallback image. */
  lemma FixFileUrl(url: string, slot: Slot)
    requires !Contains(url, "/uploads/stories/images/") && !Contains(url, "/uploads/stories/videos/")
    requires !Contains(url, "sample-videos.com") && !Contains(url, "localhost:4200/assets/")
    requires Contains(url, "file://")
    ensures FixBrokenUrl(url, slot) == Fixed(FallbackImage(slot))
  {
    assert In(url)(BrokenPatterns()[4]);
  }

  /**
   * `getSafeImageUrl`; `parses` says whether `new URL(url)` accepts the text.
   * `None` means the call throws (the sample-video branch).
   */
  function GetSafeImageUrl(url: Option<string>, slot: Slot, parses: string -> bool): (r: Option<Image>)
    ensures url.None? || Trim(url.value) == "" ==> r == Some(InlinePlaceholder(slot))
    ensures r.None? <==> url.Some? && Trim(url.value) != "" && FixBrokenUrl(url.value, slot) == NoSampleVideo
    ensures (url.Some? && Trim(url.value) != "" && FixBrokenUrl(url.value, slot).Fixed?
             && FixBrokenUrl(url.value, slot).url != url.value) ==> r == Some(Link(FixBrokenUrl(url.value, slot).url))
  {
    if url.None? || Trim(url.value) == "" then Some(InlinePlaceholder(slot))
    else
      var u := url.value;
      match FixBrokenUrl(u, slot)
      case NoSampleVideo => None
      case Fixed(f) =>
        if f != u then Some(Link(f))
        else if Contains(u, "localhost:4200/assets/") then
          AssetPatternHasHost(u);
          Some(Link(LocalAssetPath(u)))
        else if IsExternalImageUrl(u) then Some(Link(u))
        else if parses(u) then Some(Link(u))
        else if IsRelative(u) then Some(Link(u))
        else Some(InlinePlaceholder(slot))
  }

  /** `url.startsWith('/') || url.startsWith('./') || url.startsWith('../')`. */
  predicate IsRelative(url: string) {
    StartsWith(url, "/") || StartsWith(url, "./") || StartsWith(url, "../")
  }

  /**
   * A non-blank URL with no broken pattern is shown as it is exactly when it
   * is external, parses as a URL or is a relative path; otherwise the slot's
   * inline placeholder is shown.
   */
  lemma UnbrokenUrl(url: string, slot: Slot, parses: string -> bool)
    requires Trim(url) != "" && !IsBrokenUrl(url)
    ensures GetSafeImageUrl(Some(url), slot, parses).Some?
    ensures var r := GetSafeImageUrl(Some(url), slot, parses).value;
            (r == Link(url) <==> IsExternalImageUrl(url) || parses(url) || IsRelative(url))
            && (r != Link(url) ==> r == InlinePlaceholder(slot))
  {
    assert !In(url)(BrokenPatterns()[3]);
  }

  /** An external image URL without a broken pattern is shown as it is. */
  lemma ExternalUrlKept(url: string, slot: Slot, parses: string -> bool)
    requires IsExternalImageUrl(url) && !IsBrokenUrl(url)
    ensures GetSafeImageUrl(Some(url), slot, parses) == Some(Link(url))
  {
    var k :| 0 <= k < |ExternalDomains()| && In(url)(ExternalDomains()[k]);
    ContainsNotBlank(url, ExternalDomains()[k]);
    UnbrokenUrl(url, slot, parses);
  }

  /** A sample-video URL that no earlier pattern catches makes `getSafeImageUrl` throw. */
  lemma SampleVideoUrlThrows(url: string, slot: Slot, parses: string -> bool)
    requires Contains(url, "sample-videos.com")
    requires !Contains(url, "/uploads/stories/images/") && !Contains(url, "/uploads/stories/videos/")
    ensures GetSafeImageUrl(Some(url), slot, parses).None?
  {
    ContainsNotBlank(url, "sample-videos.com");
    FixSampleVideo(url, slot);
  }
}

=== FILE: minimal_server.dfy ===
/**
 * backend/minimal-server.js: the dependency-free admin demo server with a
 * role → permissions table, a table login and canned dashboards.
 */
module MinimalServer {
  import opened Wrappers
  import opened Text
  import opened AdminShared

  const PermissionRoles: set<string> := {
    "super_admin", "admin", "sales_manager", "sales_executive", "marketing_manager",
    "marketing_executive", "account_manager", "accountant", "support_manager", "support_agent" }

  /**
   * `getUserPermissions(role)`: the table entry of a known role, and just
   * 'dashboard.view' for any other role. Only super_admin gets 'all', and
   * every other role can at least view the dashboard.
   */
  function UserPermissions(role: string): (r: seq<string>)
    ensures |r| >= 1
    ensures "all" in r <==> role == "super_admin"
    ensures role != "super_admin" ==> "dashboard.view" in r || "dashboard.*" in r
    ensures role !in PermissionRoles ==> r == ["dashboard.view"]
  {
    if role == "super_admin" then ["all"]
    else if role == "admin" then ["dashboard.*", "users.*", "products.*", "orders.*", "settings.*"]
    else if role == "sales_manager" then ["dashboard.view", "dashboard.analytics", "orders.*", "users.view"]
    else if role == "sales_executive" then ["dashboard.view", "orders.view", "orders.edit"]
    else if role == "marketing_manager" then ["dashboard.view", "dashboard.analytics", "marketing.*", "products.view"]
    else if role == "marketing_executive" then ["dashboard.view", "marketing.campaigns", "marketing.content"]
    else if role == "account_manager" then ["dashboard.view", "dashboard.analytics", "finance.*", "orders.view"]
    else if role == "accountant" then ["dashboard.view", "finance.view", "finance.reports"]
    else if role == "support_manager" then ["dashboard.view", "support.*", "users.view"]
    else if role == "support_agent" then ["dashboard.view", "support.tickets", "support.chat"]
    else ["dashboard.view"]
  }

  /** Every demo account has a role of the table, so none falls back to the default. */
  lemma SeededRolesInTable(i: nat)
    requires i < |SeededAdmins()|
    ensures SeededAdmins()[i].role in PermissionRoles
    ensures UserPermissions(SeededAdmins()[i].role) != ["dashboard.view"]
  {
  }

  datatype UserInfo = UserInfo(id: string, email: string, fullName: string, role: string, department: string, employeeId: string)

  datatype Metric = Metric(name: string, value: real)

  datatype DepartmentData = Department(department: string, metrics: seq<Metric>) | DepartmentError(error: string)

  datatype Body =
    | Health(status: string, message: string, timestamp: int)
    | LoginOk(token: string, user: UserInfo, permissions: seq<string>, expiresIn: string)
    | Failure(message: string, code: Option<string>)
    | Stats
    | DepartmentInfo(data: DepartmentData)
    | NotFound
    | Empty

  /** A static file to serve from `public/`, or a JSON (or empty) reply. */
  datatype Reply = ServeFile(name: string) | Send(status: int, body: Body)

  /** The login route on a parsed body. */
  function Login(body: LoginBody, now: nat): (r: Reply)
    ensures r.Send?
    ensures body.Malformed? ==> r == Send(400, Failure("Invalid request body", None))
    ensures r.status == 200 <==> body.Fields? && (exists i :: 0 <= i < |SeededAdmins()|
                                                    && Some(SeededAdmins()[i].email) == body.email
                                                    && Some(SeededAdmins()[i].password) == body.password)
    ensures body.Fields? && r.status != 200 ==> r == Send(401, Failure("Invalid credentials", Some("INVALID_CREDENTIALS")))
    ensures r.status == 200 ==> (r.body.LoginOk? && r.body.expiresIn == "8h"
      && (exists u :: u in SeededAdmins() && r.body.token == LoginToken(u.id, now) && r.body.user.id == u.id
                      && r.body.permissions == UserPermissions(u.role) && Some(u.email) == body.email))
  {
    match body
    case Malformed => Send(400, Failure("Invalid request body", None))
    case Fields(email, password) =>
      match FindAdmin(SeededAdmins(), email, password)
      case None => Send(401, Failure("Invalid credentials", Some("INVALID_CREDENTIALS")))
      case Some(u) =>
        Send(200, LoginOk(LoginToken(u.id, now),
                          UserInfo(u.id, u.email, u.fullName, u.role, u.department, u.employeeId),
                          UserPermissions(u.role), "8h"))
  }

  /** `departmentData[department]`, for the four departments it lists. */
  function DepartmentOf(name: string): (r: Option<DepartmentData>)
    ensures r.Some? <==> name in {"sales", "marketing", "support", "accounting"}
    ensures r.Some? ==> r.value.Department?
  {
    if name == "sales" then Some(Department("Sales", [Metric("leads_today", 45.0), Metric("conversions", 12.0), Metric("revenue_today", 125000.0), Metric("target_achievement", 85.5)]))
    else if name == "marketing" then Some(Department("Marketing", [Metric("campaigns_active", 7.0), Metric("reach_today", 25000.0), Metric("engagement_rate", 4.2), Metric("cost_per_acquisition", 340.0)]))
    else if name == "support" then Some(Department("Support", [Metric("tickets_open", 23.0), Metric("tickets_resolved_today", 18.0), Metric("avg_resolution_time", 3.2), Metric("satisfaction_rate", 94.5)]))
    else if name == "accounting" then Some(Department("Accounting", [Metric("pending_invoices", 45.0), Metric("processed_today", 67.0), Metric("outstanding_amount", 450000.0), Metric("collection_rate", 92.5)]))
    else None
  }

  /**
   * One request. OPTIONS is 200 with no body; then the static pages; then the
   * API routes on the parsed pathname; anything else is 404 Not found.
   */
  function Route(verb: string, pathname: string, body: LoginBody, now: nat): (r: Reply)
    ensures verb == "OPTIONS" ==> r == Send(200, Empty)
    ensures verb != "OPTIONS" ==> (r.ServeFile? <==> StaticFile(pathname).File?)
    ensures verb != "OPTIONS" && StaticFile(pathname).NoFile? ==> r == ApiRoute(verb, pathname, body, now)
    ensures verb != "OPTIONS" && StaticFile(pathname).NoFile? && pathname == "/api/health" ==>
      r == Send(200, Health("OK", "DFashion Backend is running!", now))
    ensures verb == "POST" && StaticFile(pathname).NoFile? && pathname == "/api/admin/auth/login" ==> r == Login(body, now)
    ensures verb != "OPTIONS" && StaticFile(pathname).NoFile? && pathname == "/api/admin/dashboard/stats" ==> r == Send(200, Stats)
    ensures verb != "OPTIONS" && StaticFile(pathname).NoFile? && StartsWith(pathname, "/api/admin/departments/") ==>
      r == Send(200, DepartmentInfo(DepartmentOf(DepartmentSegment(pathname)).GetOr(DepartmentError("Department not found"))))
    ensures verb != "OPTIONS" && StaticFile(pathname).NoFile?
         && pathname !in {"/api/health", "/api/admin/dashboard/stats"}
         && !(pathname == "/api/admin/auth/login" && verb == "POST")
         && !StartsWith(pathname, "/api/admin/departments/")
         ==> r == Send(404, NotFound)
  {
    if verb == "OPTIONS" then Send(200, Empty)
    else match StaticFile(pathname)
      case File(name) => ServeFile(name)
      case NoFile => ApiRoute(verb, pathname, body, now)
  }

  /** The API routes, tried in order on a request that is no static page. */
  function ApiRoute(verb: string, pathname: string, body: LoginBody, now: nat): (r: Reply)
    ensures pathname == "/api/health" ==> r == Send(200, Health("OK", "DFashion Backend is running!", now))
    ensures verb == "POST" && pathname == "/api/admin/auth/login" ==> r == Login(body, now)
    ensures pathname == "/api/admin/dashboard/stats" ==> r == Send(200, Stats)
    ensures StartsWith(pathname, "/api/admin/departments/") ==>
      r == Send(200, DepartmentInfo(DepartmentOf(DepartmentSegment(pathname)).GetOr(DepartmentError("Department not found"))))
    ensures pathname !in {"/api/health", "/api/admin/dashboard/stats"}
         && !(pathname == "/api/admin/auth/login" && verb == "POST")
         && !StartsWith(pathname, "/api/admin/departments/")
         ==> r == Send(404, NotFound)
  {
    DepartmentsPathIsNoOtherRoute(pathname);
    if pathname == "/api/health" then Send(200, Health("OK", "DFashion Backend is running!", now))
    else if pathname == "/api/admin/auth/login" && verb == "POST" then Login(body, now)
    else if pathname == "/api/admin/dashboard/stats" then Send(200, Stats)
    else if StartsWith(pathname, "/api/admin/departments/") then
      Send(200, DepartmentInfo(DepartmentOf(DepartmentSegment(pathname)).GetOr(DepartmentError("Department not found"))))
    else Send(404, NotFound)
  }

  /**
   * The department page of an unknown department still answers 200 with
   * success true, carrying `{error: 'Department not found'}` as its data.
   */
  lemma UnknownDepartmentAnswersOk(verb: string, d: string, body: LoginBody, now: nat)
    requires verb != "OPTIONS" && '/' !in d
    requires d !in {"sales", "marketing", "support", "accounting"}
    ensures Route(verb, "/api/admin/departments/" + d + "/dashboard", body, now)
         == Send(200, DepartmentInfo(DepartmentError("Department not found")))
  {
    var path := "/api/admin/departments/" + d + "/dashboard";
    DepartmentSegmentOf(d, "/dashboard");
    assert path[2] == 'p' && path[5] == 'a' && path[11] == 'd' && path[12] == 'e';
  }
}

=== FILE: numbers.dfy ===
/** JavaScript number helpers on exact reals. */
module Numbers {
  /** `Math.round`: the nearest integer, halves rounded up. */
  function Round(x: real): (r: int)
    ensures r as real - 0.5 <= x < r as real + 0.5
  {
    (x + 0.5).Floor
  }

  /** Rounding never reverses the order of two numbers. */
  lemma RoundMonotone(x: real, y: real)
    requires x <= y
    ensures Round(x) <= Round(y)
  {
  }

  /** A whole number rounds to itself. */
  lemma RoundWhole(n: int)
    ensures Round(n as real) == n
  {
  }
}

=== FILE: paging.dfy ===
/**
 * The query-string paging arithmetic shared by the Express list routes
 * (backend/routes/stories.js and backend/routes/products.js).
 */
module Paging {
  import opened Wrappers

  /**
   * `parseInt(q) || d`: the parsed number unless parsing failed (NaN, here
   * None) or gave 0, both of which are falsy.
   */
  function OrDefault(q: Option<int>, d: int): (r: int)
    ensures q.Some? && q.value != 0 ==> r == q.value
    ensures q.None? || q.value == 0 ==> r == d
    ensures d != 0 ==> r != 0
  {
    if q.Some? && q.value != 0 then q.value else d
  }

  /** `(page - 1) * limit`: the number of documents before the page. */
  function Skip(page: int, limit: int): (r: int)
    ensures page >= 1 && limit >= 1 ==> r >= 0
    ensures page == 1 ==> r == 0
  {
    (page - 1) * limit
  }

  /**
   * `Math.ceil(total / limit)` for a non-zero limit. With a positive limit it
   * is the number of pages needed to hold `total` documents: the last page is
   * non-empty and holds at most `limit` of them.
   */
  function Pages(total: nat, limit: int): (r: int)
    requires limit != 0
    ensures limit > 0 ==> r >= 0 && (r - 1) * limit < total <= r * limit
    ensures limit < 0 ==> r <= 0
  {
    if limit > 0 then
      var q := total + limit - 1;
      DivBounds(q, limit);
      q / limit
    else -(total / (-limit))
  }

  lemma DivBounds(q: int, d: int)
    requires d > 0
    ensures (q / d) * d <= q < (q / d) * d + d
  {
  }

  /** With a positive limit, no smaller number of pages holds all documents. */
  lemma PagesIsLeast(total: nat, limit: int, n: int)
    requires limit > 0 && n * limit >= total && total > 0
    ensures Pages(total, limit) <= n
  {
    var r := Pages(total, limit);
    if r > n {
      MonotoneProduct(n, r - 1, limit);
      assert false;
    }
  }

  lemma MonotoneProduct(a: int, b: int, d: int)
    requires a <= b && d > 0
    ensures a * d <= b * d
  {
  }
}

=== FILE: payments_routes.dfy ===
/**
 * backend/routes/payments.js: initiating the payment of an order and
 * requesting a refund, over in-memory order and payment documents.
 *
 * The handlers compare document owners with `req.user.userId`, a field the
 * user document put on the request by `auth` may not carry; the model takes
 * that value as the parameter `callerId`, with None for `undefined`.
 */
module PaymentsRoutes {
  import opened Wrappers
  import opened AuthMiddleware

  datatype OrderDoc = OrderDoc(id: string, customer: string, totalAmount: real, paymentStatus: string, status: string)

  datatype RefundDoc = RefundDoc(amount: real, reason: Option<string>, status: string)

  datatype PaymentDoc = PaymentDoc(
    id: string, orderId: string, customer: Option<string>, amount: real,
    paymentMethod: string, status: string, gateway: Option<string>, refund: Option<RefundDoc>)

  datatype Reply =
    | Paid(paymentId: string, message: string, amount: Option<real>)
    | Fail(status: int, message: string)
    | Accepted(message: string)
    | Shown(payment: PaymentDoc)

  /** A body field is used only when present and non-empty. */
  predicate Given(q: Option<string>) {
    q.Some? && q.value != ""
  }

  const OnlineMethods: set<string> := {"card", "upi", "netbanking", "wallet"}

  /**
   * The reply of POST /initiate: the customer guard, then missing fields
   * (400, before any lookup), a missing order (404), another customer's order
   * (403), an already paid order (400), and an unknown method (400).
   */
  function InitiateReply(orders: map<string, OrderDoc>, caller: AccountUser, callerId: Option<string>,
                         orderId: Option<string>, paymentMethod: Option<string>, paymentId: string): (r: Reply)
    ensures RequireCustomer(caller).Deny? ==> r == Fail(403, "Access denied. Customer role required.")
    ensures RequireCustomer(caller).Next? && (!Given(orderId) || !Given(paymentMethod)) ==>
      r == Fail(400, "Order ID and payment method are required")
    ensures r.Paid? <==> (RequireCustomer(caller).Next? && Given(orderId) && Given(paymentMethod)
                          && orderId.value in orders && Some(orders[orderId.value].customer) == callerId
                          && orders[orderId.value].paymentStatus != "paid"
                          && (paymentMethod.value == "cod" || paymentMethod.value in OnlineMethods))
    ensures r.Paid? ==> r.paymentId == paymentId
    ensures r.Paid? && paymentMethod.value in OnlineMethods ==> r.amount == Some(orders[orderId.value].totalAmount)
  {
    if RequireCustomer(caller).Deny? then Fail(403, "Access denied. Customer role required.")
    else if !Given(orderId) || !Given(paymentMethod) then Fail(400, "Order ID and payment method are required")
    else if orderId.value !in orders then Fail(404, "Order not found")
    else if Some(orders[orderId.value].customer) != callerId then Fail(403, "Access denied")
    else if orders[orderId.value].paymentStatus == "paid" then Fail(400, "Order is already paid")
    else if paymentMethod.value == "cod" then Paid(paymentId, "Cash on Delivery order confirmed", None)
    else if paymentMethod.value in OnlineMethods then Paid(paymentId, "Payment successful", Some(orders[orderId.value].totalAmount))
    else Fail(400, "Invalid payment method")
  }

  /** The order after a successful payment. */
  function Settled(o: OrderDoc): (r: OrderDoc)
    ensures r.paymentStatus == "paid" && r.status == "confirmed"
    ensures r.id == o.id && r.customer == o.customer && r.totalAmount == o.totalAmount
  {
    o.(paymentStatus := "paid", status := "confirmed")
  }

  /** The payment document saved by a successful initiation. */
  function NewPayment(orderId: string, o: OrderDoc, callerId: Option<string>, paymentMethod: string, paymentId: string): (r: PaymentDoc)
    ensures r.amount == o.totalAmount && r.orderId == orderId && r.status == "completed"
    ensures r.gateway.Some? <==> paymentMethod != "cod"
    ensures r.refund.None? && r.customer == callerId
  {
    PaymentDoc(paymentId, orderId, callerId, o.totalAmount, paymentMethod, "completed",
               if paymentMethod == "cod" then None else Some("razorpay"), None)
  }

  /**
   * Without a `userId` on the request user the owner check never holds, so
   * no order can be paid.
   */
  lemma NoUserIdNeverPays(orders: map<string, OrderDoc>, caller: AccountUser,
                          orderId: Option<string>, paymentMethod: Option<string>, paymentId: string)
    ensures !InitiateReply(orders, caller, None, orderId, paymentMethod, paymentId).Paid?
  {
  }

  /**
   * The reply of POST /:paymentId/refund: 404, then 500 when the payment has
   * no customer (its `toString` throws), 403 for anyone but the customer, 400
   * unless the payment is completed, 400 when a refund already completed.
   */
  function RefundReply(payments: map<string, PaymentDoc>, callerId: Option<string>, paymentId: string): (r: Reply)
    ensures r.Accepted? <==> (paymentId in payments && payments[paymentId].customer.Some?
                              && payments[paymentId].customer == callerId && payments[paymentId].status == "completed"
                              && !(payments[paymentId].refund.Some? && payments[paymentId].refund.value.status == "completed"))
    ensures r.Accepted? ==> r.message == "Refund request submitted successfully"
    ensures paymentId !in payments ==> r == Fail(404, "Payment not found")
  {
    if paymentId !in payments then Fail(404, "Payment not found")
    else
      var p := payments[paymentId];
      if p.customer.None? then Fail(500, "Failed to process refund request")
      else if p.customer != callerId then Fail(403, "Access denied")
      else if p.status != "completed" then Fail(400, "Only completed payments can be refunded")
      else if p.refund.Some? && p.refund.value.status == "completed" then Fail(400, "Payment is already refunded")
      else Accepted("Refund request submitted successfully")
  }

  /** `amount || payment.amount`: the full amount when none (or 0) is asked for. */
  function RefundAmount(asked: Option<real>, full: real): (r: real)
    ensures asked.None? || asked.value == 0.0 ==> r == full
    ensures asked.Some? && asked.value != 0.0 ==> r == asked.value
  {
    if asked.Some? && asked.value != 0.0 then asked.value else full
  }

  const StaffRoles: seq<string> := ["admin", "sales_manager", "support_manager"]

  /**
   * The access test of GET /:paymentId. `users` holds the ids of the users
   * that exist: `populate` replaces the stored customer id by its user, or
   * by null when the payment has no customer field or its user was deleted.
   * The customer is compared first, so a null customer throws before the
   * three staff roles are looked at; None stands for that throw.
   */
  function CanView(p: PaymentDoc, users: set<string>, callerId: Option<string>, role: string): (r: Option<bool>)
    ensures r.None? <==> p.customer.None? || p.customer.value !in users
    ensures p.customer.Some? && p.customer.value in users && role in StaffRoles ==> r == Some(true)
    ensures p.customer.Some? && p.customer.value in users && role !in StaffRoles ==>
      (r == Some(true) <==> p.customer == callerId)
    ensures callerId.None? && role !in StaffRoles ==> r != Some(true)
  {
    if p.customer.None? || p.customer.value !in users then None
    else Some(p.customer == callerId || role in StaffRoles)
  }

  /**
   * The reply of GET /:paymentId: 404 for an unknown payment, 500 when the
   * access test throws, 403 without access, else the payment.
   */
  function ViewReply(payments: map<string, PaymentDoc>, users: set<string>, callerId: Option<string>, role: string,
                     paymentId: string): (r: Reply)
    ensures paymentId !in payments ==> r == Fail(404, "Payment not found")
    ensures paymentId in payments && payments[paymentId].customer.None? ==>
      r == Fail(500, "Failed to fetch payment details")
    ensures paymentId in payments && payments[paymentId].customer.Some? && payments[paymentId].customer.value !in users ==>
      r == Fail(500, "Failed to fetch payment details")
    ensures r.Shown? <==> paymentId in payments && CanView(payments[paymentId], users, callerId, role) == Some(true)
    ensures r.Shown? ==> r.payment == payments[paymentId]
    ensures paymentId in payments && CanView(payments[paymentId], users, callerId, role) == Some(false) ==>
      r == Fail(403, "Access denied")
  {
    if paymentId !in payments then Fail(404, "Payment not found")
    else
      match CanView(payments[paymentId], users, callerId, role)
      case None => Fail(500, "Failed to fetch payment details")
      case Some(access) => if access then Shown(payments[paymentId]) else Fail(403, "Access denied")
  }

  /**
   * Staff cannot read a payment with no customer field: the details handler
   * answers 500, and so does the refund handler.
   */
  lemma StaffRefusedOrphanPayment(payments: map<string, PaymentDoc>, users: set<string>, callerId: Option<string>,
                                  paymentId: string)
    requires paymentId in payments && payments[paymentId].customer.None?
    ensures ViewReply(payments, users, callerId, "admin", paymentId) == Fail(500, "Failed to fetch payment details")
    ensures RefundReply(payments, callerId, paymentId) == Fail(500, "Failed to process refund request")
  {
  }

  /**
   * A payment whose customer's user was deleted: the details handler, which
   * populates the customer, throws for staff too and answers 500, while the
   * refund handler compares the stored id and answers 403 to anyone else.
   */
  lemma DeletedCustomerPayment(payments: map<string, PaymentDoc>, users: set<string>, callerId: Option<string>,
                               paymentId: string)
    requires paymentId in payments && payments[paymentId].customer.Some?
    requires payments[paymentId].customer.value !in users && callerId != payments[paymentId].customer
    ensures ViewReply(payments, users, callerId, "admin", paymentId) == Fail(500, "Failed to fetch payment details")
    ensures RefundReply(payments, callerId, paymentId) == Fail(403, "Access denied")
  {
  }

  /** The order and payment collections, as the handlers load, change and save them. */
  class PaymentDesk {
    var orders: map<string, OrderDoc>
    var payments: map<string, PaymentDoc>

    constructor(os: map<string, OrderDoc>, ps: map<string, PaymentDoc>)
      ensures orders == os && payments == ps
    {
      orders := os;
      payments := ps;
    }

    /**
     * POST /initiate. On success the order is settled and the new payment,
     * completed and for the order's total, is saved; on any refusal nothing
     * is written.
     */
    method Initiate(caller: AccountUser, callerId: Option<string>, orderId: Option<string>,
                    paymentMethod: Option<string>, paymentId: string) returns (r: Reply)
      modifies this
      ensures r == InitiateReply(old(orders), caller, callerId, orderId, paymentMethod, paymentId)
      ensures !r.Paid? ==> orders == old(orders) && payments == old(payments)
      ensures r.Paid? ==>
        var o := old(orders)[orderId.value];
        orders == old(orders)[orderId.value := Settled(o)]
        && payments == old(payments)[paymentId := NewPayment(orderId.value, o, callerId, paymentMethod.value, paymentId)]
    {
      if RequireCustomer(caller).Deny? {
        return Fail(403, "Access denied. Customer role required.");
      }
      if !Given(orderId) || !Given(paymentMethod) {
        return Fail(400, "Order ID and payment method are required");
      }
      var oid := orderId.value;
      var m := paymentMethod.value;
      if oid !in orders {
        return Fail(404, "Order not found");
      }
      var order := orders[oid];
      if Some(order.customer) != callerId {
        return Fail(403, "Access denied");
      }
      if order.paymentStatus == "paid" {
        return Fail(400, "Order is already paid");
      }
      var payment := PaymentDoc(paymentId, oid, callerId, order.totalAmount, m, "pending", None, None);
      if m == "cod" {
        payment := payment.(status := "completed");
        order := order.(paymentStatus := "paid", status := "confirmed");
        orders := orders[oid := order];
        r := Paid(paymentId, "Cash on Delivery order confirmed", None);
      } else if m in OnlineMethods {
        payment := payment.(gateway := Some("razorpay"), status := "completed");
        order := order.(paymentStatus := "paid", status := "confirmed");
        orders := orders[oid := order];
        r := Paid(paymentId, "Payment successful", Some(payment.amount));
      } else {
        return Fail(400, "Invalid payment method");
      }
      assert payment == NewPayment(oid, old(orders)[oid], callerId, m, paymentId);
      payments := payments[paymentId := payment];
    }

    /** POST /:paymentId/refund: on acceptance a pending refund replaces any earlier request. */
    method RequestRefund(callerId: Option<string>, paymentId: string, reason: Option<string>, amount: Option<real>)
      returns (r: Reply)
      modifies this
      ensures r == RefundReply(old(payments), callerId, paymentId)
      ensures orders == old(orders)
      ensures !r.Accepted? ==> payments == old(payments)
      ensures r.Accepted? ==>
        var p := old(payments)[paymentId];
        payments == old(payments)[paymentId := p.(refund := Some(RefundDoc(RefundAmount(amount, p.amount), reason, "pending")))]
    {
      if paymentId !in payments {
        return Fail(404, "Payment not found");
      }
      var p := payments[paymentId];
      if p.customer.None? {
        return Fail(500, "Failed to process refund request");
      }
      if p.customer != callerId {
        return Fail(403, "Access denied");
      }
      if p.status != "completed" {
        return Fail(400, "Only completed payments can be refunded");
      }
      if p.refund.Some? && p.refund.value.status == "completed" {
        return Fail(400, "Payment is already refunded");
      }
      var refundAmount := if amount.Some? && amount.value != 0.0 then amount.value else p.amount;
      payments := payments[paymentId := p.(refund := Some(RefundDoc(refundAmount, reason, "pending")))];
      r := Accepted("Refund request submitted successfully");
    }
  }

  /** Once an order is paid, paying it again is refused. */
  lemma PaidOrderRefusedAgain(orders: map<string, OrderDoc>, caller: AccountUser, callerId: Option<string>,
                              orderId: Option<string>, paymentMethod: Option<string>, id1: string, id2: string)
    requires InitiateReply(orders, caller, callerId, orderId, paymentMethod, id1).Paid?
    ensures InitiateReply(orders[orderId.value := Settled(orders[orderId.value])], caller, callerId, orderId, paymentMethod, id2)
         == Fail(400, "Order is already paid")
  {
  }

  /** A refund request leaves the refund pending, so the same customer may ask again. */
  lemma RefundRequestRepeatable(payments: map<string, PaymentDoc>, callerId: Option<string>, paymentId: string,
                                reason: Option<string>, amount: Option<real>)
    requires RefundReply(payments, callerId, paymentId).Accepted?
    ensures var p := payments[paymentId];
      RefundReply(payments[paymentId := p.(refund := Some(RefundDoc(RefundAmount(amount, p.amount), reason, "pending")))],
                  callerId, paymentId).Accepted?
  {
  }
}

=== FILE: post_card.dfy ===
/**
 * frontend/src/app/features/home/components/post-card/post-card.component.ts:
 * the post card of the home feed. It keeps its own like, save and counter
 * state, shows the last two comments, and marks up hashtags in the caption.
 */
module PostCard {
  import opened Wrappers
  import opened Text

  /** `\w` of a JavaScript regular expression without the `u` flag. */
  predicate WordChar(c: char) {
    'a' <= c <= 'z' || 'A' <= c <= 'Z' || '0' <= c <= '9' || c == '_'
  }

  /** The length of the leading run of word characters. */
  function WordRun(s: string): (n: nat)
    ensures n <= |s|
    ensures forall i :: 0 <= i < n ==> WordChar(s[i])
    ensures n < |s| ==> !WordChar(s[n])
  {
    if s != [] && WordChar(s[0]) then 1 + WordRun(s[1..]) else 0
  }

  const Open := "<span class=\"hashtag\">"
  const Close := "</span>"

  /**
   * `caption.replace(/#(\w+)/g, '<span class="hashtag">#$1</span>')`: each
   * '#' followed by word characters, with the longest such run, is wrapped
   * in a hashtag span; scanning resumes after the wrapped tag.
   */
  function FormatCaption(caption: string): (r: string)
    ensures '#' !in caption ==> r == caption
    decreases |caption|
  {
    if caption == [] then []
    else if caption[0] == '#' && |caption| > 1 && WordChar(caption[1]) then
      var n := 1 + WordRun(caption[1..]);
      Open + caption[..n] + Close + FormatCaption(caption[n..])
    else [caption[0]] + FormatCaption(caption[1..])
  }

  /** A hashtag is wrapped whole: its word characters go into one span. */
  lemma HashtagWrapped(caption: string, w: string, rest: string)
    requires caption == ['#'] + w + rest
    requires w != [] && forall i :: 0 <= i < |w| ==> WordChar(w[i])
    requires rest == [] || !WordChar(rest[0])
    ensures FormatCaption(caption) == Open + (['#'] + w) + Close + FormatCaption(rest)
  {
    assert caption[0] == '#' && caption[1] == w[0];
    assert caption[1..] == w + rest;
    WordRunOfWord(w, rest);
    assert caption[..1 + |w|] == ['#'] + w;
    assert caption[1 + |w|..] == rest;
  }

  lemma {:induction false} WordRunOfWord(w: string, rest: string)
    requires forall i :: 0 <= i < |w| ==> WordChar(w[i])
    requires rest == [] || !WordChar(rest[0])
    ensures WordRun(w + rest) == |w|
    decreases |w|
  {
    if w == [] {
      assert w + rest == rest;
    } else {
      assert (w + rest)[1..] == w[1..] + rest;
      WordRunOfWord(w[1..], rest);
    }
  }

  /** Deletes every span marker the formatter can insert. */
  function StripMarkup(s: string): string
    decreases |s|
  {
    if s == [] then []
    else if StartsWith(s, Open) then StripMarkup(s[|Open|..])
    else if StartsWith(s, Close) then StripMarkup(s[|Close|..])
    else [s[0]] + StripMarkup(s[1..])
  }

  lemma StripOpen(x: string)
    ensures StripMarkup(Open + x) == StripMarkup(x)
  {
    assert (Open + x)[..|Open|] == Open;
    assert (Open + x)[|Open|..] == x;
  }

  lemma StripClose(x: string)
    ensures StripMarkup(Close + x) == StripMarkup(x)
  {
    assert (Close + x)[..|Close|] == Close;
    assert (Close + x)[|Close|..] == x;
    assert Open[1] == 's' && Close[1] == '/';
    assert (Close + x)[1] == '/';
  }

  lemma HeadMismatch(s: string, p: string)
    requires s != [] && p != [] && s[0] != p[0]
    ensures !StartsWith(s, p)
  {
    if |p| <= |s| {
      assert s[..|p|][0] != p[0];
    }
  }

  lemma {:induction false} StripPlain(t: string, x: string)
    requires '<' !in t
    ensures StripMarkup(t + x) == t + StripMarkup(x)
    decreases |t|
  {
    if t != [] {
      var s := t + x;
      assert s[0] == t[0] && Open[0] == '<' && Close[0] == '<';
      HeadMismatch(s, Open);
      HeadMismatch(s, Close);
      assert s[1..] == t[1..] + x;
      StripPlain(t[1..], x);
    } else {
      assert t + x == x;
    }
  }

  lemma NoMarkerIn(s: string, i: nat, j: nat)
    requires '<' !in s && i <= j <= |s|
    ensures '<' !in s[i..j]
  {
    forall k | 0 <= k < j - i ensures s[i..j][k] != '<' { assert s[i..j][k] == s[i + k]; }
  }

  /** A wrapped tag strips back to its own text. */
  lemma StripTag(tag: string, rest: string)
    requires '<' !in tag
    ensures StripMarkup(Open + tag + Close + rest) == tag + StripMarkup(rest)
  {
    assert Open + tag + Close + rest == Open + (tag + (Close + rest));
    StripOpen(tag + (Close + rest));
    StripPlain(tag, Close + rest);
    StripClose(rest);
  }

  /** Removing the markup gives the caption back: all text outside the tags is unchanged. */
  lemma {:induction false} StripFormatted(caption: string)
    requires '<' !in caption
    ensures StripMarkup(FormatCaption(caption)) == caption
    decreases |caption|
  {
    if caption == [] {
    } else if caption[0] == '#' && |caption| > 1 && WordChar(caption[1]) {
      var n := 1 + WordRun(caption[1..]);
      NoMarkerIn(caption, 0, n);
      NoMarkerIn(caption, n, |caption|);
      StripTag(caption[..n], FormatCaption(caption[n..]));
      StripFormatted(caption[n..]);
      assert caption[..n] + caption[n..] == caption;
    } else {
      NoMarkerIn(caption, 1, |caption|);
      StripPlain([caption[0]], FormatCaption(caption[1..]));
      StripFormatted(caption[1..]);
      assert [caption[0]] + caption[1..] == caption;
    }
  }

  /** `comments.slice(-2)`: the last two comments, or all of them when there are fewer. */
  function RecentComments<T>(comments: seq<T>): (r: seq<T>)
    ensures |comments| >= 2 ==> |r| == 2
    ensures |comments| < 2 ==> r == comments
    ensures r == comments[|comments| - |r|..]
  {
    if |comments| >= 2 then comments[|comments| - 2..] else comments
  }

  /** The like flag and counter after a tap on the heart. */
  function LikeStep(isLiked: bool, likesCount: int): (r: (bool, int))
    ensures r.0 == !isLiked
    ensures r.1 == likesCount + 1 || r.1 == likesCount - 1
    ensures r.1 > likesCount <==> r.0
  {
    (!isLiked, if !isLiked then likesCount + 1 else likesCount - 1)
  }

  /** Two taps restore both the flag and the counter. */
  lemma LikeTwiceRestores(isLiked: bool, likesCount: int)
    ensures LikeStep(LikeStep(isLiked, likesCount).0, LikeStep(isLiked, likesCount).1) == (isLiked, likesCount)
  {
  }

  class Card {
    const postId: string
    var isLiked: bool
    var isSaved: bool
    var likesCount: int
    var newComment: string

    /** The card after `ngOnInit`: the counter starts at the post's like count. */
    constructor(postId: string, analyticsLikes: int)
      ensures this.postId == postId && likesCount == analyticsLikes
      ensures !isLiked && !isSaved && newComment == ""
    {
      this.postId := postId;
      isLiked := false;
      isSaved := false;
      likesCount := analyticsLikes;
      newComment := "";
    }

    /** `toggleLike`: flips the flag, moves the counter, and emits the post id. */
    method ToggleLike() returns (emitted: string)
      modifies this
      ensures (isLiked, likesCount) == LikeStep(old(isLiked), old(likesCount))
      ensures emitted == postId
      ensures isSaved == old(isSaved) && newComment == old(newComment)
    {
      isLiked := !isLiked;
      likesCount := likesCount + if isLiked then 1 else -1;
      emitted := postId;
    }

    /** `toggleSave`. */
    method ToggleSave()
      modifies this
      ensures isSaved == !old(isSaved)
      ensures isLiked == old(isLiked) && likesCount == old(likesCount) && newComment == old(newComment)
    {
      isSaved := !isSaved;
    }

    /** `addComment`: emits the trimmed draft and clears it, only when it is not blank. */
    method AddComment() returns (emitted: Option<(string, string)>)
      modifies this
      ensures Trim(old(newComment)) == "" ==> emitted.None? && newComment == old(newComment)
      ensures Trim(old(newComment)) != "" ==> emitted == Some((postId, Trim(old(newComment)))) && newComment == ""
      ensures isLiked == old(isLiked) && isSaved == old(isSaved) && likesCount == old(likesCount)
    {
      if Trim(newComment) != "" {
        emitted := Some((postId, Trim(newComment)));
        newComment := "";
      } else {
        emitted := None;
      }
    }
  }
}

=== FILE: post_detail.dfy ===
/**
 * frontend/src/app/features/posts/post-detail.component.ts: the page of one
 * post. The like, save and comment rules are the feed's, applied to the one
 * post the page holds, and only once it has loaded.
 */
module PostDetail {
  import opened Wrappers
  import opened Text
  import SocialFeed

  /** The loaded post; `authorId` is `post.user._id`, absent when the post has no user. */
  datatype DetailPost = DetailPost(
    id: string, authorId: Option<string>, likes: seq<SocialFeed.Mark>, saves: seq<SocialFeed.Mark>,
    comments: seq<SocialFeed.Comment>, isLiked: bool, isSaved: bool, productIds: seq<string>)

  /** `post?.user?._id === currentUser?._id`. */
  function IsOwnPost(post: DetailPost): (r: bool)
    ensures r <==> post.authorId.Some? && post.authorId.value == SocialFeed.CurrentUserId
  {
    post.authorId == Some(SocialFeed.CurrentUserId)
  }

  class PostPage {
    var post: Option<DetailPost>
    var newComment: string
    var isOwnPost: bool

    constructor()
      ensures post.None? && newComment == "" && !isOwnPost
    {
      post := None;
      newComment := "";
      isOwnPost := false;
    }

    /** `loadPost` on a successful reply: the post, unliked and unsaved, and whether it is the user's own. */
    method LoadPost(loaded: DetailPost)
      modifies this
      ensures post == Some(loaded.(isLiked := false, isSaved := false))
      ensures isOwnPost <==> loaded.authorId == Some(SocialFeed.CurrentUserId)
      ensures newComment == old(newComment)
    {
      post := Some(loaded.(isLiked := false, isSaved := false));
      isOwnPost := IsOwnPost(loaded);
    }

    /** `toggleLike`: nothing without a post; otherwise the feed's toggle on this post. */
    method ToggleLike(now: int)
      modifies this
      ensures old(post).None? ==> post == old(post)
      ensures old(post).Some? ==>
        post == Some(old(post).value.(isLiked := !old(post).value.isLiked,
                                      likes := SocialFeed.Toggled(old(post).value.likes, !old(post).value.isLiked,
                                                                  SocialFeed.CurrentUserId, now)))
      ensures newComment == old(newComment) && isOwnPost == old(isOwnPost)
    {
      if post.None? {
        return;
      }
      var p := post.value;
      post := Some(p.(isLiked := !p.isLiked, likes := SocialFeed.Toggled(p.likes, !p.isLiked, SocialFeed.CurrentUserId, now)));
    }

    /** `toggleSave`: the same for the saves. */
    method ToggleSave(now: int)
      modifies this
      ensures old(post).None? ==> post == old(post)
      ensures old(post).Some? ==>
        post == Some(old(post).value.(isSaved := !old(post).value.isSaved,
                                      saves := SocialFeed.Toggled(old(post).value.saves, !old(post).value.isSaved,
                                                                  SocialFeed.CurrentUserId, now)))
      ensures newComment == old(newComment) && isOwnPost == old(isOwnPost)
    {
      if post.None? {
        return;
      }
      var p := post.value;
      post := Some(p.(isSaved := !p.isSaved, saves := SocialFeed.Toggled(p.saves, !p.isSaved, SocialFeed.CurrentUserId, now)));
    }

    /** `addComment`: nothing without a post or with a blank draft; otherwise the trimmed comment is appended and the draft cleared. */
    method AddComment(now: nat)
      modifies this
      ensures old(post).None? || Trim(old(newComment)) == "" ==> post == old(post) && newComment == old(newComment)
      ensures old(post).Some? && Trim(old(newComment)) != "" ==>
        post == Some(old(post).value.(comments := old(post).value.comments
                     + [SocialFeed.Comment(NatToString(now), SocialFeed.CurrentUserId, Trim(old(newComment)), now)]))
        && newComment == ""
      ensures isOwnPost == old(isOwnPost)
    {
      if post.None? || Trim(newComment) == "" {
        return;
      }
      var c := SocialFeed.Comment(NatToString(now), SocialFeed.CurrentUserId, Trim(newComment), now);
      post := Some(post.value.(comments := post.value.comments + [c]));
      newComment := "";
    }

    /** `buyNow`: checks out the first tagged product, and does nothing when there is none. */
    method BuyNow() returns (checkout: Option<string>)
      ensures checkout.Some? <==> post.Some? && |post.value.productIds| > 0
      ensures checkout.Some? ==> checkout.value == post.value.productIds[0]
    {
      if post.Some? && |post.value.productIds| > 0 {
        checkout := Some(post.value.productIds[0]);
      } else {
        checkout := None;
      }
    }
  }
}

=== FILE: product_detail.dfy ===
/**
 * frontend/src/app/features/product/product-detail/product-detail.component.ts:
 * the product page. The quantity stays within 1..10, the cart buttons need
 * the required size and colour, the wishlist heart flips whatever the
 * server answers, and the rating is drawn as five stars.
 */
module ProductDetail {
  import opened Wrappers

  const MaxQuantity := 10

  datatype Product = Product(id: string, images: seq<string>, sizes: seq<string>, colors: seq<string>, ratingAverage: real)

  /** What `cartService.addToCart` is called with. */
  datatype CartRequest = CartRequest(productId: string, quantity: int, size: string, color: string)

  datatype Star = Full | Half | Empty

  /** Star `i` (counted from 1) of a rating: full up to the rating, half within half a star of it. */
  function StarFor(i: int, rating: real): (s: Star)
    ensures s == Full <==> i as real <= rating
    ensures s == Half <==> rating < i as real && i as real - 0.5 <= rating
  {
    if i as real <= rating then Full
    else if i as real - 0.5 <= rating then Half
    else Empty
  }

  /** Full stars come first, and at most one star is half. */
  lemma StarsOrdered(i: int, j: int, rating: real)
    requires i < j
    ensures StarFor(j, rating) == Full ==> StarFor(i, rating) == Full
    ensures StarFor(j, rating) == Half ==> StarFor(i, rating) == Full
    ensures StarFor(i, rating) == Empty ==> StarFor(j, rating) == Empty
  {
  }

  class DetailPage {
    var product: Option<Product>
    var isLoading: bool
    var error: Option<string>
    var selectedImage: Option<string>
    var selectedSize: string
    var selectedColor: string
    var quantity: int
    var isInWishlist: bool

    predicate Valid()
      reads this
    {
      1 <= quantity <= MaxQuantity
    }

    constructor()
      ensures Valid()
      ensures product.None? && isLoading && error.None? && selectedImage.None?
      ensures selectedSize == "" && selectedColor == "" && quantity == 1 && !isInWishlist
    {
      product := None;
      isLoading := true;
      error := None;
      selectedImage := None;
      selectedSize := "";
      selectedColor := "";
      quantity := 1;
      isInWishlist := false;
    }

    /**
     * `loadProduct` once the request settles: a product selects its first
     * image (none when it has no image) and reads its wishlist state; a
     * failure only sets the error message.
     */
    method LoadProduct(reply: Option<Product>, inWishlist: bool)
      modifies this
      ensures !isLoading
      ensures reply.Some? ==> product == reply && error.None? && isInWishlist == inWishlist
      ensures reply.Some? ==> selectedImage == (if reply.value.images == [] then None else Some(reply.value.images[0]))
      ensures reply.None? ==> (product == old(product) && error == Some("Product not found or failed to load")
                               && selectedImage == old(selectedImage) && isInWishlist == old(isInWishlist))
      ensures selectedSize == old(selectedSize) && selectedColor == old(selectedColor) && quantity == old(quantity)
    {
      error := None;
      match reply {
        case Some(p) =>
          product := reply;
          selectedImage := if p.images == [] then None else Some(p.images[0]);
          isInWishlist := inWishlist;
        case None =>
          error := Some("Product not found or failed to load");
      }
      isLoading := false;
    }

    method SelectSize(size: string)
      modifies this
      ensures selectedSize == size
      ensures product == old(product) && selectedColor == old(selectedColor) && quantity == old(quantity)
      ensures isInWishlist == old(isInWishlist) && selectedImage == old(selectedImage)
    {
      selectedSize := size;
    }

    method SelectColor(color: string)
      modifies this
      ensures selectedColor == color
      ensures product == old(product) && selectedSize == old(selectedSize) && quantity == old(quantity)
      ensures isInWishlist == old(isInWishlist) && selectedImage == old(selectedImage)
    {
      selectedColor := color;
    }

    /** `increaseQuantity`: one more, but never above ten. */
    method IncreaseQuantity()
      requires Valid()
      modifies this
      ensures Valid()
      ensures quantity == if old(quantity) < MaxQuantity then old(quantity) + 1 else old(quantity)
      ensures product == old(product) && selectedSize == old(selectedSize) && selectedColor == old(selectedColor)
      ensures isInWishlist == old(isInWishlist)
    {
      if quantity < MaxQuantity {
        quantity := quantity + 1;
      }
    }

    /** `decreaseQuantity`: one fewer, but never below one. */
    method DecreaseQuantity()
      requires Valid()
      modifies this
      ensures Valid()
      ensures quantity == if old(quantity) > 1 then old(quantity) - 1 else old(quantity)
      ensures product == old(product) && selectedSize == old(selectedSize) && selectedColor == old(selectedColor)
      ensures isInWishlist == old(isInWishlist)
    {
      if quantity > 1 {
        quantity := quantity - 1;
      }
    }

    /** A product is shown, and a size and a colour are chosen where the product offers any. */
    function CanAddToCart(): (r: bool)
      reads this
      ensures r <==> product.Some? && (|product.value.sizes| > 0 ==> selectedSize != "")
                                   && (|product.value.colors| > 0 ==> selectedColor != "")
    {
      product.Some?
      && !(|product.value.sizes| > 0 && selectedSize == "")
      && !(|product.value.colors| > 0 && selectedColor == "")
    }

    /** `addToCart`: the request it sends, or nothing when the page cannot add yet. */
    method AddToCart() returns (request: Option<CartRequest>)
      ensures request.None? <==> !CanAddToCart()
      ensures request.Some? ==> (product.Some?
                                 && request.value == CartRequest(product.value.id, quantity, selectedSize, selectedColor)
                                 && (product.value.sizes != [] ==> request.value.size != "")
                                 && (product.value.colors != [] ==> request.value.color != ""))
    {
      if product.None? || !CanAddToCart() {
        return None;
      }
      request := Some(CartRequest(product.value.id, quantity, selectedSize, selectedColor));
    }

    /** `buyNow`: the same request, and checkout only after a successful answer. */
    method BuyNow(succeeded: bool) returns (request: Option<CartRequest>, toCheckout: bool)
      ensures request.None? <==> !CanAddToCart()
      ensures request.Some? ==> product.Some? && request.value == CartRequest(product.value.id, quantity, selectedSize, selectedColor)
      ensures toCheckout <==> request.Some? && succeeded
    {
      if product.None? || !CanAddToCart() {
        return None, false;
      }
      request := Some(CartRequest(product.value.id, quantity, selectedSize, selectedColor));
      toCheckout := succeeded;
    }

    /**
     * `toggleWishlist`: with a product the heart flips on success and on
     * failure alike; a failure also toggles the offline wishlist.
     */
    method ToggleWishlist(serverAnswered: bool) returns (offlineToggle: bool)
      modifies this
      ensures isInWishlist == (if product.Some? then !old(isInWishlist) else old(isInWishlist))
      ensures offlineToggle <==> product.Some? && !serverAnswered
      ensures product == old(product) && quantity == old(quantity)
      ensures selectedSize == old(selectedSize) && selectedColor == old(selectedColor)
    {
      offlineToggle := false;
      if product.None? {
        return;
      }
      if !serverAnswered {
        offlineToggle := true;
      }
      isInWishlist := !isInWishlist;
    }

    /** `product?.rating.average || 0`. */
    function Rating(): real
      reads this
    {
      if product.Some? then product.value.ratingAverage else 0.0
    }

    /** `getStars`: five stars, star `i + 1` drawn by `StarFor`. */
    method GetStars() returns (stars: seq<Star>)
      ensures |stars| == 5
      ensures forall i :: 0 <= i < 5 ==> stars[i] == StarFor(i + 1, Rating())
    {
      var rating := Rating();
      stars := [];
      var i := 1;
      while i <= 5
        invariant 1 <= i <= 6
        invariant |stars| == i - 1
        invariant forall k :: 0 <= k < i - 1 ==> stars[k] == StarFor(k + 1, rating)
      {
        if i as real <= rating {
          stars := stars + [Full];
        } else if i as real - 0.5 <= rating {
          stars := stars + [Half];
        } else {
          stars := stars + [Empty];
        }
        i := i + 1;
      }
    }
  }
}

=== FILE: products_routes.dfy ===
/**
 * backend/routes/products.js: the listing query built from the query string,
 * the owner checks of update and delete, and adding a review with the
 * rating recomputed.
 */
module ProductsRoutes {
  import opened Wrappers
  import Paging
  import opened AuthMiddleware

  // ---------------------------------------------------------------------------
  // GET / : paging, filter and sort

  /** Page, limit and skip, with the defaults 1 and 12. */
  function ListPage(page: Option<int>, limit: Option<int>): (r: (int, int, int))
    ensures r.0 == Paging.OrDefault(page, 1) && r.1 == Paging.OrDefault(limit, 12)
    ensures r.1 != 0 && r.2 == Paging.Skip(r.0, r.1)
    ensures page.None? && limit.None? ==> r == (1, 12, 0)
  {
    var p := Paging.OrDefault(page, 1);
    var l := Paging.OrDefault(limit, 12);
    (p, l, Paging.Skip(p, l))
  }

  /** The `pagination` block of the reply. */
  datatype Pagination = Pagination(current: int, pages: int, total: nat)

  function PaginationOf(page: Option<int>, limit: Option<int>, total: nat): (r: Pagination)
    ensures r.current == ListPage(page, limit).0 && r.total == total
    ensures ListPage(page, limit).1 > 0 ==>
      var l := ListPage(page, limit).1;
      (r.pages - 1) * l < total <= r.pages * l
  {
    var (p, l, _) := ListPage(page, limit);
    Pagination(p, Paging.Pages(total, l), total)
  }

  /** A query-string value is used only when it is present and non-empty. */
  predicate Given(q: Option<string>) {
    q.Some? && q.value != ""
  }

  /** The `price` condition: absent, or bounds each taken from a given parameter. */
  datatype PriceFilter = AnyPrice | PriceRange(gte: Option<string>, lte: Option<string>)

  function PriceFilterOf(minPrice: Option<string>, maxPrice: Option<string>): (r: PriceFilter)
    ensures r.AnyPrice? <==> !Given(minPrice) && !Given(maxPrice)
    ensures r.PriceRange? ==> (r.gte.Some? <==> Given(minPrice)) && (r.gte.Some? ==> r.gte == minPrice)
    ensures r.PriceRange? ==> (r.lte.Some? <==> Given(maxPrice)) && (r.lte.Some? ==> r.lte == maxPrice)
  {
    if Given(minPrice) || Given(maxPrice) then
      PriceRange(if Given(minPrice) then minPrice else None, if Given(maxPrice) then maxPrice else None)
    else AnyPrice
  }

  /**
   * The query object: `isActive: true` always, and each other condition only
   * for a given parameter (the brand and search texts are used as
   * case-insensitive patterns by the database).
   */
  datatype Query = Query(
    category: Option<string>, subcategory: Option<string>, brand: Option<string>,
    price: PriceFilter, search: Option<string>)

  function Keep(q: Option<string>): (r: Option<string>)
    ensures r.Some? <==> Given(q)
    ensures r.Some? ==> r == q
  {
    if Given(q) then q else None
  }

  function QueryOf(category: Option<string>, subcategory: Option<string>, brand: Option<string>,
                   minPrice: Option<string>, maxPrice: Option<string>, search: Option<string>): (r: Query)
    ensures r.category == Keep(category) && r.subcategory == Keep(subcategory)
    ensures r.brand == Keep(brand) && r.search == Keep(search)
    ensures r.price == PriceFilterOf(minPrice, maxPrice)
  {
    Query(Keep(category), Keep(subcategory), Keep(brand), PriceFilterOf(minPrice, maxPrice), Keep(search))
  }

  /** `{[sortBy]: sortOrder === 'desc' ? -1 : 1}` with the defaults createdAt and desc. */
  function SortOf(sortBy: Option<string>, sortOrder: Option<string>): (r: (string, int))
    ensures r.0 == sortBy.GetOr("createdAt")
    ensures r.1 == -1 <==> sortOrder.GetOr("desc") == "desc"
    ensures r.1 == 1 || r.1 == -1
  {
    (sortBy.GetOr("createdAt"), if sortOrder.GetOr("desc") == "desc" then -1 else 1)
  }

  // ---------------------------------------------------------------------------
  // Documents and owner checks

  datatype Review = Review(userId: string, rating: int, comment: Option<string>)

  datatype ProductDoc = ProductDoc(id: string, vendorId: string, reviews: seq<Review>, average: real, count: int)

  datatype Reply = Ok(message: string) | Fail(status: int, message: string) | Invalid(errors: seq<string>)

  /** A guard's refusal as a reply. */
  function Refusal(v: Verdict): Reply
    requires v.Deny?
  {
    Fail(v.status, v.message)
  }

  /**
   * PUT /:id behind `auth, isVendor, isApprovedVendor`: the guards, then 404
   * for a missing product, 403 for anyone but the owning vendor.
   */
  function UpdateReply(u: AccountUser, product: Option<ProductDoc>): (r: Reply)
    ensures r.Ok? <==> IsVendor(u).Next? && IsApprovedVendor(u).Next? && product.Some? && product.value.vendorId == u.id
    ensures IsVendor(u).Next? && IsApprovedVendor(u).Next? && product.None? ==> r == Fail(404, "Product not found")
    ensures r.Fail? ==> r.status in {403, 404}
  {
    if IsVendor(u).Deny? then Refusal(IsVendor(u))
    else if IsApprovedVendor(u).Deny? then Refusal(IsApprovedVendor(u))
    else if product.None? then Fail(404, "Product not found")
    else if product.value.vendorId != u.id then Fail(403, "Not authorized to update this product")
    else Ok("Product updated successfully")
  }

  /** DELETE /:id behind `auth, isVendor` only. */
  function DeleteReply(u: AccountUser, product: Option<ProductDoc>): (r: Reply)
    ensures r.Ok? <==> IsVendor(u).Next? && product.Some? && product.value.vendorId == u.id
    ensures IsVendor(u).Next? && product.None? ==> r == Fail(404, "Product not found")
    ensures r.Fail? ==> r.status in {403, 404}
  {
    if IsVendor(u).Deny? then Refusal(IsVendor(u))
    else if product.None? then Fail(404, "Product not found")
    else if product.value.vendorId != u.id then Fail(403, "Not authorized to delete this product")
    else Ok("Product deleted successfully")
  }

  /**
   * The delete route lacks the approval guard: a vendor not yet approved
   * cannot update its own product but can delete it.
   */
  lemma UnapprovedVendorDeletes(u: AccountUser, p: ProductDoc)
    requires u.role == "vendor" && u.vendorApproved != Some(true) && p.vendorId == u.id
    ensures UpdateReply(u, Some(p)) == Fail(403, "Vendor account not approved yet.")
    ensures DeleteReply(u, Some(p)) == Ok("Product deleted successfully")
  {
  }

  // ---------------------------------------------------------------------------
  // POST /:id/review

  function SumRatings(reviews: seq<Review>): int {
    if reviews == [] then 0 else SumRatings(reviews[..|reviews| - 1]) + reviews[|reviews| - 1].rating
  }

  predicate RatingsInRange(reviews: seq<Review>) {
    forall i :: 0 <= i < |reviews| ==> 1 <= reviews[i].rating <= 5
  }

  lemma {:induction false} SumRatingsBounds(reviews: seq<Review>)
    requires RatingsInRange(reviews)
    ensures |reviews| <= SumRatings(reviews) <= 5 * |reviews|
    decreases |reviews|
  {
    if reviews != [] {
      SumRatingsBounds(reviews[..|reviews| - 1]);
    }
  }

  /**
   * The product after a review is pushed: the review is last, the count is
   * the number of reviews and the average is their mean rating.
   */
  function Reviewed(p: ProductDoc, review: Review): (r: ProductDoc)
    ensures r.reviews == p.reviews + [review]
    ensures r.count == |r.reviews|
    ensures r.average * (|r.reviews| as real) == SumRatings(r.reviews) as real
    ensures r.id == p.id && r.vendorId == p.vendorId
  {
    var reviews := p.reviews + [review];
    assert reviews[..|reviews| - 1] == p.reviews;
    p.(reviews := reviews, average := SumRatings(reviews) as real / |reviews| as real, count := |reviews|)
  }

  /** With every rating in 1..5 the recomputed average lies in 1..5. */
  lemma ReviewedAverageInRange(p: ProductDoc, review: Review)
    requires RatingsInRange(p.reviews) && 1 <= review.rating <= 5
    ensures 1.0 <= Reviewed(p, review).average <= 5.0
  {
    var r := Reviewed(p, review);
    assert RatingsInRange(r.reviews) by {
      forall i | 0 <= i < |r.reviews| ensures 1 <= r.reviews[i].rating <= 5 {
        if i < |p.reviews| { assert r.reviews[i] == p.reviews[i]; }
      }
    }
    SumRatingsBounds(r.reviews);
    var n := |r.reviews| as real;
    var sum := SumRatings(r.reviews) as real;
    assert n <= sum <= 5.0 * n;
    QuotientBounds(r.average, n, sum);
  }

  /** A positive count times a mean between the bounds of their sum. */
  lemma QuotientBounds(a: real, n: real, sum: real)
    requires n > 0.0 && a * n == sum && n <= sum <= 5.0 * n
    ensures 1.0 <= a <= 5.0
  {
    assert (a - 1.0) * n >= 0.0;
    assert (5.0 - a) * n >= 0.0;
  }

  predicate HasReviewBy(p: ProductDoc, user: string) {
    exists i :: 0 <= i < |p.reviews| && p.reviews[i].userId == user
  }

  /**
   * `isInt({min: 1, max: 5})` on the rating field. The field is None when it
   * is missing or not a number, and otherwise the number it holds (a numeric
   * string is read as the number it spells); only a whole number from 1 to 5
   * passes, so 3.5, a missing field and a word are all refused.
   */
  predicate WholeRating(rating: Option<real>) {
    rating.Some? && rating.value == rating.value.Floor as real && 1 <= rating.value.Floor <= 5
  }

  /** The validation errors of the review body: a whole rating in 1..5, a comment of at most 500 characters. */
  function ReviewErrors(rating: Option<real>, comment: Option<string>): (r: seq<string>)
    ensures r == [] <==> WholeRating(rating) && (comment.None? || |comment.value| <= 500)
    ensures "Rating must be between 1 and 5" in r <==> !WholeRating(rating)
    ensures "Comment too long" in r <==> comment.Some? && |comment.value| > 500
    ensures rating.None? ==> r != []
  {
    (if WholeRating(rating) then [] else ["Rating must be between 1 and 5"])
    + (if comment.None? || |comment.value| <= 500 then [] else ["Comment too long"])
  }

  /** The product collection, as the review handler loads, changes and saves it. */
  class ProductShelf {
    var products: map<string, ProductDoc>

    constructor(docs: map<string, ProductDoc>)
      ensures products == docs
    {
      products := docs;
    }

    /**
     * Validation errors first, then 404, then 400 for a second review by the
     * same user; otherwise the review is added and the rating recomputed.
     * Only the reviewed product changes, and only on success.
     */
    method AddReview(id: string, user: string, rating: Option<real>, comment: Option<string>) returns (r: Reply)
      modifies this
      ensures ReviewErrors(rating, comment) != [] ==> r == Invalid(ReviewErrors(rating, comment)) && products == old(products)
      ensures ReviewErrors(rating, comment) == [] && id !in old(products) ==>
        r == Fail(404, "Product not found") && products == old(products)
      ensures ReviewErrors(rating, comment) == [] && id in old(products) && HasReviewBy(old(products)[id], user) ==>
        r == Fail(400, "You have already reviewed this product") && products == old(products)
      ensures ReviewErrors(rating, comment) == [] && id in old(products) && !HasReviewBy(old(products)[id], user) ==>
        r == Ok("Review added successfully")
        && products == old(products)[id := Reviewed(old(products)[id], Review(user, rating.value.Floor, comment))]
    {
      var errors := ReviewErrors(rating, comment);
      if errors != [] {
        return Invalid(errors);
      }
      if id !in products {
        return Fail(404, "Product not found");
      }
      var p := products[id];
      var k := 0;
      while k < |p.reviews|
        invariant 0 <= k <= |p.reviews|
        invariant forall i :: 0 <= i < k ==> p.reviews[i].userId != user
      {
        if p.reviews[k].userId == user {
          return Fail(400, "You have already reviewed this product");
        }
        k := k + 1;
      }
      products := products[id := Reviewed(p, Review(user, rating.value.Floor, comment))];
      r := Ok("Review added successfully");
    }
  }
}

=== FILE: python_server.dfy ===
/**
 * backend/python-server.py: a single-threaded HTTP handler over four
 * module-level lists. The GET views are pure joins over the lists; the only
 * mutation is the like handler, which appends to one post's `likes`.
 */
module PythonServer {
  import opened Wrappers
  import opened Text
  import opened Catalog
  import Lists

  /** `{**tag, "product": product}`. */
  datatype TaggedProduct = TaggedProduct(tag: ProductTag, product: Product)

  /** `{**post, "user": ..., "products": ..., "likesCount": ..., "commentsCount": ...}`. */
  datatype PostView = PostView(post: Post, user: Option<User>, products: seq<TaggedProduct>, likesCount: nat, commentsCount: nat)

  datatype StoryGroup = StoryGroup(user: User, stories: seq<Story>)

  datatype Body =
    | Health(status: string, message: string, timestamp: int)
    | PostsPage(posts: seq<PostView>, current: int, pages: int, total: int)
    | StoryGroups(storyGroups: seq<StoryGroup>)
    | ProductList(products: seq<ProductWithVendor>)
    | UserList(users: seq<User>)
    | LikeResult(likesCount: nat, isLiked: bool)
    | Error(error: string)
    | Empty

  datatype Response = Response(status: int, body: Body)

  /**
   * The request methods the handler class defines (`do_OPTIONS`, `do_GET`,
   * `do_POST`), HEAD, whose `do_HEAD` it inherits from
   * `SimpleHTTPRequestHandler`, and every other method (PUT, DELETE, ...),
   * which has no handler.
   */
  datatype Verb = OPTIONS | GET | POST | HEAD | Other

  /**
   * What the working directory holds at a request path, as the inherited
   * static-file handler finds it; the file system is a parameter of the model.
   */
  datatype StaticEntry = StaticFile | StaticDirectory | StaticMissing

  /** The path part of a request target: everything before the first `?` or `#`. */
  function UrlPath(target: string): (r: string)
    ensures |r| <= |target| && r == target[..|r|]
    ensures forall i :: 0 <= i < |r| ==> r[i] != '?' && r[i] != '#'
    ensures |r| < |target| ==> target[|r|] == '?' || target[|r|] == '#'
  {
    if target == [] || target[0] == '?' || target[0] == '#' then []
    else [target[0]] + UrlPath(target[1..])
  }

  /**
   * The inherited `do_HEAD`, which sends the headers `send_head` would send
   * and no body: a directory named without a final `/` is redirected (301);
   * a directory is listed or its index served (200); a file is served (200)
   * unless its path ends in `/`; anything missing is 404.
   */
  function HeadResponse(target: string, entry: StaticEntry): (r: Response)
    ensures r.body == Empty
    ensures r.status == 200 <==>
      (entry == StaticDirectory && EndsWith(UrlPath(target), "/"))
      || (entry == StaticFile && !EndsWith(UrlPath(target), "/"))
    ensures r.status == 301 <==> entry == StaticDirectory && !EndsWith(UrlPath(target), "/")
    ensures r.status == 404 <==> entry == StaticMissing || (entry == StaticFile && EndsWith(UrlPath(target), "/"))
  {
    match entry
    case StaticDirectory => if EndsWith(UrlPath(target), "/") then Response(200, Empty) else Response(301, Empty)
    case StaticFile => if EndsWith(UrlPath(target), "/") then Response(404, Empty) else Response(200, Empty)
    case StaticMissing => Response(404, Empty)
  }

  const NotFound := Response(404, Error("Not found"))

  /**
   * `http.server` answers a method without a `do_` handler with 501; the
   * HTML error page it sends is not modelled.
   */
  const Unsupported := Response(501, Empty)
  const PostNotFound := Response(404, Error("Post not found"))

  // ---------------------------------------------------------------------------
  // Views

  /** A tag whose product exists in the store. */
  function HasProduct(products: seq<Product>): ProductTag -> bool {
    (t: ProductTag) => FindProduct(products, t.productId).Some?
  }

  function TagsOf(ts: seq<TaggedProduct>): seq<ProductTag> {
    seq(|ts|, i requires 0 <= i < |ts| => ts[i].tag)
  }

  /**
   * The tagged products of a post: a tag whose product is missing is dropped,
   * every other tag is kept in order together with its product.
   */
  function KnownTags(products: seq<Product>, tags: seq<ProductTag>): (r: seq<TaggedProduct>)
    ensures forall i :: 0 <= i < |r| ==> FindProduct(products, r[i].tag.productId) == Some(r[i].product)
    ensures TagsOf(r) == Lists.Filter(tags, HasProduct(products))
  {
    if |tags| == 0 then []
    else
      var rest := KnownTags(products, tags[1..]);
      match FindProduct(products, tags[0].productId)
      case None =>
        assert !HasProduct(products)(tags[0]);
        rest
      case Some(p) =>
        assert HasProduct(products)(tags[0]);
        KnownTagsCons(products, tags[0], p, rest);
        [TaggedProduct(tags[0], p)] + rest
  }

  /** Putting a tag with its found product in front keeps every product the found one. */
  lemma KnownTagsCons(products: seq<Product>, t: ProductTag, p: Product, rest: seq<TaggedProduct>)
    requires FindProduct(products, t.productId) == Some(p)
    requires forall i :: 0 <= i < |rest| ==> FindProduct(products, rest[i].tag.productId) == Some(rest[i].product)
    ensures forall i :: 0 <= i < |rest| + 1 ==>
      FindProduct(products, ([TaggedProduct(t, p)] + rest)[i].tag.productId) == Some(([TaggedProduct(t, p)] + rest)[i].product)
    ensures TagsOf([TaggedProduct(t, p)] + rest) == [t] + TagsOf(rest)
  {
    var r := [TaggedProduct(t, p)] + rest;
    assert r[1..] == rest;
  }

  /**
   * One post of the posts view: the post, its author (None when no user has
   * that id), its known tagged products, and its like and comment counts.
   */
  function ViewOf(users: seq<User>, products: seq<Product>, post: Post): (r: PostView)
    ensures r.post == post && r.likesCount == |post.likes| && r.commentsCount == |post.comments|
    ensures r.user.None? <==> forall j :: 0 <= j < |users| ==> users[j].id != post.userId
    ensures r.user.Some? ==> r.user.value in users && r.user.value.id == post.userId
    ensures r.user.Some? ==> exists k :: 0 <= k < |users| && users[k] == r.user.value
                                         && forall j :: 0 <= j < k ==> users[j].id != post.userId
    ensures r.products == KnownTags(products, post.productTags)
    ensures TagsOf(r.products) == Lists.Filter(post.productTags, HasProduct(products))
  {
    PostView(post, FindUser(users, post.userId), KnownTags(products, post.productTags), |post.likes|, |post.comments|)
  }

  /**
   * The posts view: one entry per post in store order, with the author (None
   * when no user has that id), the known tagged products, and the two counts.
   */
  function PostsView(users: seq<User>, products: seq<Product>, posts: seq<Post>): (r: seq<PostView>)
    ensures |r| == |posts|
    ensures forall i :: 0 <= i < |r| ==> r[i] == ViewOf(users, products, posts[i])
    ensures forall i :: 0 <= i < |r| ==> r[i].post == posts[i]
    ensures forall i :: 0 <= i < |r| ==> r[i].likesCount == |posts[i].likes| && r[i].commentsCount == |posts[i].comments|
    ensures forall i :: 0 <= i < |r| ==>
      (r[i].user.None? <==> forall j :: 0 <= j < |users| ==> users[j].id != posts[i].userId)
    ensures forall i :: 0 <= i < |r| && r[i].user.Some? ==> r[i].user.value in users && r[i].user.value.id == posts[i].userId
    ensures forall i :: 0 <= i < |r| ==> TagsOf(r[i].products) == Lists.Filter(posts[i].productTags, HasProduct(products))
  {
    seq(|posts|, i requires 0 <= i < |posts| => ViewOf(users, products, posts[i]))
  }

  /** A story that is still live and whose author exists. */
  function Listed(users: seq<User>, now: int): Story -> bool {
    (s: Story) => s.expiresAt > now && FindUser(users, s.userId).Some?
  }

  function StoriesOf(gs: seq<StoryGroup>): seq<Story> {
    if |gs| == 0 then [] else gs[0].stories + StoriesOf(gs[1..])
  }

  /**
   * The stories view: stories with `expiresAt` strictly after `now` and a known
   * author, one single-story group each (no merging by user), in store order.
   */
  function StoryGroupsView(users: seq<User>, stories: seq<Story>, now: int): (r: seq<StoryGroup>)
    ensures forall i :: 0 <= i < |r| ==> |r[i].stories| == 1
    ensures forall i :: 0 <= i < |r| ==>
      r[i].stories[0].expiresAt > now && r[i].user.id == r[i].stories[0].userId && r[i].user in users
    ensures StoriesOf(r) == Lists.Filter(stories, Listed(users, now))
  {
    if |stories| == 0 then []
    else
      var s := stories[0];
      var rest := StoryGroupsView(users, stories[1..], now);
      if s.expiresAt > now then
        match FindUser(users, s.userId)
        case None => rest
        case Some(u) => [StoryGroup(u, [s])] + rest
      else rest
  }

  /** The trending view: the first three of the stable views-descending order, with vendors. */
  function TrendingView(users: seq<User>, products: seq<Product>): (r: seq<ProductWithVendor>)
    ensures |r| == Lists.Min(3, |products|)
    ensures forall i :: 0 <= i < |r| ==> r[i].product in products
    ensures forall i, j :: 0 <= i < j < |r| ==> r[i].product.views >= r[j].product.views
    ensures forall k :: 0 <= k < |products| ==> products[k].views <= r[0].product.views
    ensures forall k :: 0 <= k < |products| && (forall i :: 0 <= i < |r| ==> r[i].product != products[k]) ==>
      products[k].views <= r[|r| - 1].product.views
  {
    var t := TopThree(SortByViews(products));
    TrendingCorrect(products);
    var r := WithVendors(users, t);
    TrendingLeftOut(users, products);
    r
  }

  /** A product the trending view leaves out has at most the views of the last one shown. */
  lemma TrendingLeftOut(users: seq<User>, products: seq<Product>)
    ensures var r := WithVendors(users, TopThree(SortByViews(products)));
      forall k :: 0 <= k < |products| && (forall i :: 0 <= i < |r| ==> r[i].product != products[k]) ==>
        products[k].views <= r[|r| - 1].product.views
  {
    var t := TopThree(SortByViews(products));
    TrendingCorrect(products);
    var r := WithVendors(users, t);
    forall k | 0 <= k < |products| && (forall i :: 0 <= i < |r| ==> r[i].product != products[k])
      ensures products[k].views <= r[|r| - 1].product.views
    {
      assert products[k] !in t by {
        forall i | 0 <= i < |t| ensures t[i] != products[k] {
          assert r[i].product == t[i];
        }
      }
    }
  }

  // ---------------------------------------------------------------------------
  // Dispatch

  const GetRoutes: set<string> :=
    {"/api/health", "/api/posts", "/api/stories", "/api/products", "/api/products/trending", "/api/users"}

  /**
   * `do_GET`: the raw request path (query string included) is compared for
   * equality with six fixed routes; anything else is 404 Not found.
   */
  function GetResponse(users: seq<User>, products: seq<Product>, posts: seq<Post>, stories: seq<Story>, path: string, now: int): (r: Response)
    ensures r.status == 200 <==> path in GetRoutes
    ensures r.status != 200 ==> r == NotFound
    ensures path == "/api/health" ==> r.body == Health("OK", "DFashion Python Backend is running!", now)
    ensures path == "/api/posts" ==> r.body == PostsPage(PostsView(users, products, posts), 1, 1, |posts|)
    ensures path == "/api/stories" ==> r.body == StoryGroups(StoryGroupsView(users, stories, now))
    ensures path == "/api/products" ==> r.body == ProductList(WithVendors(users, products))
    ensures path == "/api/products/trending" ==> r.body == ProductList(TrendingView(users, products))
    ensures path == "/api/users" ==> r.body == UserList(users)
  {
    if path == "/api/health" then Response(200, Health("OK", "DFashion Python Backend is running!", now))
    else if path == "/api/posts" then Response(200, PostsPage(PostsView(users, products, posts), 1, 1, |posts|))
    else if path == "/api/stories" then Response(200, StoryGroups(StoryGroupsView(users, stories, now)))
    else if path == "/api/products" then Response(200, ProductList(WithVendors(users, products)))
    else if path == "/api/products/trending" then Response(200, ProductList(TrendingView(users, products)))
    else if path == "/api/users" then Response(200, UserList(users))
    else NotFound
  }

  /** `do_POST` hands a path to the like handler iff this holds. */
  predicate IsLikePath(path: string) {
    Contains(path, "/api/posts/") && EndsWith(path, "/like")
  }

  lemma PostsPrefixSlashes()
    ensures Count("/api/posts/", '/') == 3
  {
    assert "/api/posts/" == "/" + ("api" + ("/" + ("posts" + "/")));
    CountAppend("/", "api" + ("/" + ("posts" + "/")), '/');
    CountAppend("api", "/" + ("posts" + "/"), '/');
    CountAppend("/", "posts" + "/", '/');
    CountAppend("posts", "/", '/');
    CountAbsent("api", '/');
    CountAbsent("posts", '/');
  }

  /** A path containing "/api/posts/" has at least three slashes, so segment 3 exists. */
  lemma LikePathHasSegment3(path: string)
    requires Contains(path, "/api/posts/")
    ensures |Split(path, "/")| >= 4
  {
    CountContains(path, "/api/posts/", '/');
    PostsPrefixSlashes();
    SplitPieces(path, '/');
  }

  /** `self.path.split('/')[3]`. */
  function LikeSegment(path: string): string
    requires Contains(path, "/api/posts/")
  {
    LikePathHasSegment3(path);
    Split(path, "/")[3]
  }

  lemma PostsPrefixWords()
    ensures "/api/posts/" == "/" + "api" + "/" + "posts" + "/"
    ensures "/like" == "/" + "like"
  {
  }

  /** The posts prefix contributes three fixed pieces to the split. */
  lemma PostsWordsSplit(rest: string)
    ensures Split("/" + "api" + "/" + "posts" + "/" + rest, "/") == ["", "api", "posts"] + Split(rest, "/")
  {
    var t2 := "posts" + "/" + rest;
    var t1 := "api" + "/" + t2;
    assert "/" + "api" + "/" + "posts" + "/" + rest == "" + "/" + t1;
    SplitAppend("", '/', t1);
    SplitAppend("api", '/', t2);
    SplitAppend("posts", '/', rest);
  }

  /** A path that starts with "/api/posts/" and ends with "/like" is a like path. */
  lemma PostsLikePath(path: string, k: nat)
    requires OccursAt(path, "/api/posts/", k)
    requires |path| >= 5 && path[|path| - 5..] == "/like"
    ensures IsLikePath(path)
  {
  }

  /** For the path the client sends, `/api/posts/<id>/like`, segment 3 is the id. */
  lemma LikeSegmentOfPostPath(id: string)
    requires '/' !in id
    ensures IsLikePath("/api/posts/" + id + "/like")
    ensures LikeSegment("/api/posts/" + id + "/like") == id
  {
    var rest := id + "/like";
    var path := "/api/posts/" + rest;
    assert path == "/api/posts/" + id + "/like";
    assert path[..11] == "/api/posts/";
    assert path[|path| - 5..] == "/like";
    PostsLikePath(path, 0);
    PostsPrefixWords();
    PostsWordsSplit(rest);
    assert rest == id + "/" + "like";
    SplitAppend(id, '/', "like");
  }

  /** A leading segment adds one piece before the posts prefix's three. */
  lemma PrefixedWordsSplit(prefix: string, rest: string)
    requires '/' !in prefix
    ensures Split("/" + prefix + "/" + "api" + "/" + "posts" + "/" + rest, "/")
         == ["", prefix, "api", "posts"] + Split(rest, "/")
  {
    var t3 := "posts" + ['/'] + rest;
    var t2 := "api" + ['/'] + t3;
    var t1 := prefix + ['/'] + t2;
    assert "/" + prefix + "/" + "api" + "/" + "posts" + "/" + rest == "" + ['/'] + t1;
    calc {
      Split("" + ['/'] + t1, "/");
      { SplitAppend("", '/', t1); }
      [""] + Split(t1, "/");
      { SplitAppend(prefix, '/', t2); }
      [""] + ([prefix] + Split(t2, "/"));
      { SplitAppend("api", '/', t3); }
      [""] + ([prefix] + (["api"] + Split(t3, "/")));
      { SplitAppend("posts", '/', rest); }
      [""] + ([prefix] + (["api"] + (["posts"] + Split(rest, "/"))));
      ["", prefix, "api", "posts"] + Split(rest, "/");
    }
  }

  lemma PrefixedIsLikePath(prefix: string, id: string)
    ensures IsLikePath("/" + prefix + "/api/posts/" + id + "/like")
  {
    var path := "/" + prefix + "/api/posts/" + id + "/like";
    var k := |prefix| + 1;
    assert path[k..k + 11] == "/api/posts/";
    assert path[|path| - 5..] == "/like";
    PostsLikePath(path, k);
  }

  /**
   * The route test is a substring test, so a path with a segment before
   * "/api/posts/" is still a like request, but then segment 3 is the word
   * "posts", not the id (`/v1/api/posts/post1/like` looks up post "posts").
   */
  lemma PrefixedLikePathSegment(prefix: string, id: string)
    requires '/' !in prefix && '/' !in id
    ensures IsLikePath("/" + prefix + "/api/posts/" + id + "/like")
    ensures LikeSegment("/" + prefix + "/api/posts/" + id + "/like") == "posts"
  {
    PrefixedIsLikePath(prefix, id);
    var rest := id + "/like";
    PostsPrefixWords();
    assert "/" + prefix + "/api/posts/" + id + "/like"
        == "/" + prefix + "/" + "api" + "/" + "posts" + "/" + rest;
    PrefixedWordsSplit(prefix, rest);
  }

  /** The like handler's response, from the posts as they were before the like. */
  function LikeResponse(posts: seq<Post>, id: string): (r: Response)
    ensures r.status == 200 <==> PostIndex(posts, id).Some?
    ensures r.status == 200 ==> r.body.LikeResult? && r.body.isLiked
    ensures r.status == 200 ==> r.body.likesCount == |posts[PostIndex(posts, id).value].likes| + 1
    ensures r.status != 200 ==> r == PostNotFound
  {
    match PostIndex(posts, id)
    case None => PostNotFound
    case Some(k) => Response(200, LikeResult(|posts[k].likes| + 1, true))
  }

  /** A like is visible in the posts view: that post's likesCount rises by one. */
  lemma LikeRaisesViewCount(users: seq<User>, products: seq<Product>, posts: seq<Post>, id: string, now: int, k: nat)
    requires k < |posts| && posts[k].id == id
    requires forall j :: 0 <= j < k ==> posts[j].id != id
    ensures PostsView(users, products, Liked(posts, id, now))[k].likesCount == PostsView(users, products, posts)[k].likesCount + 1
    ensures LikeResponse(posts, id).body.likesCount == PostsView(users, products, Liked(posts, id, now))[k].likesCount
  {
    LikedAppendsOne(posts, id, now, k);
    assert PostIndex(posts, id) == Some(k);
  }

  /** The store: the four module-level lists of the server. */
  class Store {
    var users: seq<User>
    var products: seq<Product>
    var posts: seq<Post>
    var stories: seq<Story>

    /** The lists the module defines at import time, `now` being the start time. */
    constructor (now: int)
      ensures users == SeedUsers() && products == SeedProducts()
      ensures posts == SeedPosts(now) && stories == SeedStories(now)
    {
      users := SeedUsers();
      products := SeedProducts();
      posts := SeedPosts(now);
      stories := SeedStories(now);
    }

    /**
     * `handle_like_post` for a post id: appends `{userId: "1", likedAt: now}`
     * to the first post with that id and reports the new length, or answers
     * 404 and changes nothing.
     */
    method LikePost(id: string, now: int) returns (r: Response)
      modifies this
      ensures users == old(users) && products == old(products) && stories == old(stories)
      ensures posts == Liked(old(posts), id, now)
      ensures r == LikeResponse(old(posts), id)
      ensures r.status == 200 ==> exists k :: 0 <= k < |posts| && posts[k].id == id && r.body.likesCount == |posts[k].likes|
    {
      var k := PostIndex(posts, id);
      match k {
        case None =>
          r := PostNotFound;
        case Some(i) =>
          var post := posts[i];
          posts := posts[i := post.(likes := post.likes + [Like("1", now)])];
          r := Response(200, LikeResult(|posts[i].likes|, true));
      }
    }

    /**
     * One request. OPTIONS answers 200 with no body; GET is `GetResponse`;
     * POST goes to the like handler iff `IsLikePath`, with the id taken from
     * segment 3, and is 404 Not found otherwise; HEAD is the inherited
     * static-file handler over `entry`, what the working directory holds at
     * the path; any other method gets 501.
     */
    method Handle(verb: Verb, path: string, entry: StaticEntry, now: int) returns (r: Response)
      modifies this
      ensures users == old(users) && products == old(products) && stories == old(stories)
      ensures verb == OPTIONS ==> r == Response(200, Empty) && posts == old(posts)
      ensures verb == GET ==> r == GetResponse(old(users), old(products), old(posts), old(stories), path, now) && posts == old(posts)
      ensures verb == POST && !IsLikePath(path) ==> r == NotFound && posts == old(posts)
      ensures verb == POST && IsLikePath(path) ==>
        posts == Liked(old(posts), LikeSegment(path), now) && r == LikeResponse(old(posts), LikeSegment(path))
      ensures verb == HEAD ==> r == HeadResponse(path, entry) && posts == old(posts)
      ensures verb == Other ==> r == Unsupported && posts == old(posts)
    {
      match verb {
        case OPTIONS =>
          r := Response(200, Empty);
        case GET =>
          r := GetResponse(users, products, posts, stories, path, now);
        case POST =>
          if IsLikePath(path) {
            r := LikePost(LikeSegment(path), now);
          } else {
            r := NotFound;
          }
        case HEAD =>
          r := HeadResponse(path, entry);
        case Other =>
          r := Unsupported;
      }
    }
  }
}

=== FILE: quick_server.dfy ===
/**
 * backend/quick-server.js: the smallest admin demo server. It routes on the
 * raw request URL, keeps the demo credentials as an e-mail → password
 * object and derives the user's name and role from the e-mail address.
 */
module QuickServer {
  import opened Wrappers
  import opened Text
  import opened AdminShared
  import MinimalServer

  /** The `accounts` object of the login route. */
  function Accounts(): map<string, string> {
    map[ "superadmin@dfashion.com" := "admin123",
         "sales.manager@dfashion.com" := "sales123",
         "marketing.manager@dfashion.com" := "marketing123",
         "accounts.manager@dfashion.com" := "accounts123",
         "support.manager@dfashion.com" := "support123" ]
  }

  /** `accounts[email]`: `undefined` (None) for an absent or unknown e-mail. */
  function Lookup(email: Option<string>): (r: Option<string>)
    ensures r.Some? <==> email.Some? && email.value in Accounts()
  {
    if email.Some? && email.value in Accounts() then Some(Accounts()[email.value]) else None
  }

  /**
   * `email.split('@')[0].replace('.', ' ')`: the local part (the text up to
   * the first '@', or all of it), with its first dot made a space.
   */
  function FullName(email: string): (r: string)
    ensures var local := Split(email, "@")[0];
            StartsWith(email, local) && (local == email || email[|local|] == '@')
            && |r| == |local| && ('.' !in local ==> r == local)
  {
    FirstPiece(email, "@");
    ReplaceFirst(Split(email, "@")[0], '.', ' ')
  }

  /**
   * `email.includes('super') ? 'super_admin' : email.split('.')[0] + '_manager'`:
   * otherwise the text up to the first dot, or all of it, with "_manager".
   */
  function Role(email: string): (r: string)
    ensures Contains(email, "super") ==> r == "super_admin"
    ensures !Contains(email, "super") ==>
      var w := Split(email, ".")[0];
      r == w + "_manager" && StartsWith(email, w) && (w == email || email[|w|] == '.')
  {
    FirstPiece(email, ".");
    if Contains(email, "super") then "super_admin" else Split(email, ".")[0] + "_manager"
  }

  /** The name of `<w>.<m>@<domain>` is "w m". */
  lemma {:induction false} DottedName(email: string, w: string, m: string, domain: string)
    requires email == w + ['.'] + m + ['@'] + domain
    requires '.' !in w && '@' !in w && '@' !in m
    ensures FullName(email) == w + " " + m
  {
    var local := w + ['.'] + m;
    assert '@' !in local;
    assert email == local + ['@'] + domain;
    SplitAppend(local, '@', domain);
    assert Split(email, "@")[0] == local;
    ReplaceFirstAt(local, '.', ' ', |w|);
    assert local[..|w|] == w && local[|w| + 1..] == m;
  }

  /** Unless `<w>.<rest>` mentions "super", its role is "w_manager". */
  lemma {:induction false} DottedRole(email: string, w: string, rest: string)
    requires email == w + ['.'] + rest
    requires '.' !in w
    ensures !Contains(email, "super") ==> Role(email) == w + "_manager"
  {
    SplitAppend(w, '.', rest);
    assert Split(email, ".")[0] == w;
  }

  /**
   * For an address `<w>.<m>@<domain>` with plain words `w` and `m`, the name
   * is "w m" and, unless the address mentions "super", the role is "w_manager".
   */
  lemma {:induction false} DottedAddress(email: string, w: string, m: string, domain: string)
    requires email == w + ['.'] + m + ['@'] + domain
    requires '.' !in w && '@' !in w && '.' !in m && '@' !in m
    ensures FullName(email) == w + " " + m
    ensures !Contains(email, "super") ==> Role(email) == w + "_manager"
  {
    DottedName(email, w, m, domain);
    assert email == w + ['.'] + (m + ['@'] + domain);
    DottedRole(email, w, m + ['@'] + domain);
  }

  /** An address without the letter 'p' cannot mention "super". */
  lemma NoSuper(email: string)
    requires 'p' !in email
    ensures !Contains(email, "super")
  {
    forall i | 0 <= i <= |email| - 5
      ensures !OccursAt(email, "super", i)
    {
      assert email[i..i + 5][2] == email[i + 2];
    }
  }

  /** The accounts manager's name and role as derived from the address. */
  lemma AccountsManagerRole(email: string)
    requires email == "accounts.manager@dfashion.com"
    ensures Role(email) == "accounts_manager"
    ensures FullName(email) == "accounts manager"
  {
    AccountsAddress();
    NoSuper(email);
    DottedAddress(email, "accounts", "manager", "dfashion.com");
  }

  /**
   * That role is not the one the other admin servers give the account, and
   * the role table of backend/minimal-server.js grants it only the default.
   */
  lemma AccountsManagerRoleUnknown()
    ensures SeededAdmins()[3].email == "accounts.manager@dfashion.com"
    ensures SeededAdmins()[3].role != "accounts_manager"
    ensures "accounts_manager" !in MinimalServer.PermissionRoles
    ensures MinimalServer.UserPermissions("accounts_manager") == ["dashboard.view"]
  {
  }

  lemma AccountsAddress()
    ensures "accounts.manager@dfashion.com" == "accounts" + ['.'] + "manager" + ['@'] + "dfashion.com"
    ensures "accounts" + " " + "manager" == "accounts manager"
    ensures "accounts" + "_manager" == "accounts_manager"
  {
  }

  datatype Body =
    | Health(status: string, message: string, timestamp: int)
    | LoginOk(message: string, token: string, email: string, fullName: string, role: string)
    | Failure(message: string)
    | NotFound
    | Empty

  /**
   * What a request produces: a reply, or the end of the server process when
   * a handler throws past its own catch block.
   */
  datatype Reply = Reply(status: int, body: Body) | Crashed

  function Granted(email: string, now: nat): Reply {
    Reply(200, LoginOk("Login successful", "demo-token-" + NatToString(now), email, FullName(email), Role(email)))
  }

  /**
   * The login route as written: it accepts when `accounts[email] === password`,
   * which also holds when both sides are `undefined`. An unknown e-mail string
   * without a password then logs in. A body with neither field takes the same
   * branch: the 200 head is written, `email.split` throws, and the catch
   * block's second `writeHead` throws again inside the `'end'` listener, where
   * nothing catches it, so the process ends and no reply is sent.
   */
  function LoginAsWritten(body: LoginBody, now: nat): (r: Reply)
    ensures body.Malformed? ==> r == Reply(400, Failure("Invalid request"))
    ensures r.Crashed? <==> body.Fields? && body.email.None? && body.password.None?
    ensures r.Reply? && r.status == 200 <==> body.Fields? && body.email.Some? && Lookup(body.email) == body.password
    ensures r.Reply? && r.status == 200 ==> r == Granted(body.email.value, now)
    ensures body.Fields? && r.Reply? && r.status != 200 ==> r == Reply(401, Failure("Invalid credentials"))
  {
    match body
    case Malformed => Reply(400, Failure("Invalid request"))
    case Fields(email, password) =>
      if Lookup(email) == password then
        match email
        case None => Crashed
        case Some(e) => Granted(e, now)
      else Reply(401, Failure("Invalid credentials"))
  }

  /** The discrepancy: any unknown address logs in when the password is left out. */
  lemma UnknownAddressWithoutPassword(email: string, now: nat)
    requires email !in Accounts()
    ensures LoginAsWritten(Fields(Some(email), None), now) == Granted(email, now)
    ensures LoginIntended(Fields(Some(email), None), now) == Reply(401, Failure("Invalid credentials"))
  {
  }

  /** The second discrepancy: a body with neither field ends the server. */
  lemma EmptyBodyCrashes(now: nat)
    ensures LoginAsWritten(Fields(None, None), now) == Crashed
    ensures LoginIntended(Fields(None, None), now) == Reply(401, Failure("Invalid credentials"))
  {
  }

  /**
   * The login route as evidently intended: an e-mail that is a known account
   * and that account's password.
   */
  function LoginIntended(body: LoginBody, now: nat): (r: Reply)
    ensures body.Malformed? ==> r == Reply(400, Failure("Invalid request"))
    ensures r.Reply? && r.status == 200
        <==> body.Fields? && body.email.Some? && body.email.value in Accounts()
             && body.password == Some(Accounts()[body.email.value])
    ensures body.Fields? && !(r.Reply? && r.status == 200) ==> r == Reply(401, Failure("Invalid credentials"))
    ensures r.Reply? && r.status == 200 ==> r == Granted(body.email.value, now)
  {
    match body
    case Malformed => Reply(400, Failure("Invalid request"))
    case Fields(email, password) =>
      if Lookup(email).Some? && Lookup(email) == password then Granted(email.value, now)
      else Reply(401, Failure("Invalid credentials"))
  }

  /** On a known address the two logins agree. */
  lemma IntendedAgreesOnKnownAddresses(email: string, password: Option<string>, now: nat)
    requires email in Accounts()
    ensures LoginIntended(Fields(Some(email), password), now) == LoginAsWritten(Fields(Some(email), password), now)
  {
  }

  /**
   * The corrected login accepts exactly the credentials of the account
   * tables of the other two admin servers.
   */
  lemma IntendedAgreesWithAdminTable(email: Option<string>, password: Option<string>, now: nat)
    ensures LoginIntended(Fields(email, password), now) == Granted(email.GetOr(""), now)
        <==> FindAdmin(SeededAdmins(), email, password).Some?
  {
    if FindAdmin(SeededAdmins(), email, password).Some? {
      var i :| 0 <= i < |SeededAdmins()| && Some(SeededAdmins()[i].email) == email && Some(SeededAdmins()[i].password) == password;
      AdminInTable(i);
    }
    if LoginIntended(Fields(email, password), now) == Granted(email.GetOr(""), now) {
      var i := TableEntryIsAdmin(email.value);
      assert Some(SeededAdmins()[i].email) == email && Some(SeededAdmins()[i].password) == password;
    }
  }

  /** Every demo admin's e-mail is in this table, with the same password. */
  lemma AdminInTable(i: nat)
    requires i < |SeededAdmins()|
    ensures SeededAdmins()[i].email in Accounts() && Accounts()[SeededAdmins()[i].email] == SeededAdmins()[i].password
  {
  }

  /** Every e-mail of this table is a demo admin's, with the same password. */
  lemma TableEntryIsAdmin(e: string) returns (i: nat)
    requires e in Accounts()
    ensures i < |SeededAdmins()| && SeededAdmins()[i].email == e && SeededAdmins()[i].password == Accounts()[e]
  {
    var admins := SeededAdmins();
    assert e in Accounts().Keys;
    if e == admins[0].email {
      i := 0;
    } else if e == admins[1].email {
      i := 1;
    } else if e == admins[2].email {
      i := 2;
    } else if e == admins[3].email {
      i := 3;
    } else {
      assert e == admins[4].email;
      i := 4;
    }
  }

  /**
   * One request, routed on the raw URL: OPTIONS, then health for any verb,
   * then a POST login answered by `login`, and 404 for anything else.
   */
  function Dispatch(verb: string, url: string, login: Reply, now: nat): (r: Reply)
    ensures verb == "OPTIONS" ==> r == Reply(200, Empty)
    ensures verb != "OPTIONS" && url == "/api/health" ==> r == Reply(200, Health("OK", "DFashion Backend is running!", now))
    ensures verb != "OPTIONS" && url == "/api/admin/auth/login" && verb == "POST" ==> r == login
    ensures verb != "OPTIONS" && url != "/api/health" && !(url == "/api/admin/auth/login" && verb == "POST")
            ==> r == Reply(404, NotFound)
  {
    if verb == "OPTIONS" then Reply(200, Empty)
    else if url == "/api/health" then Reply(200, Health("OK", "DFashion Backend is running!", now))
    else if url == "/api/admin/auth/login" && verb == "POST" then login
    else Reply(404, NotFound)
  }

  /** The server as written: its login route is `LoginAsWritten`. */
  function Route(verb: string, url: string, body: LoginBody, now: nat): (r: Reply)
    ensures verb == "OPTIONS" ==> r == Reply(200, Empty)
    ensures verb != "OPTIONS" && url == "/api/health" ==> r == Reply(200, Health("OK", "DFashion Backend is running!", now))
    ensures verb == "POST" && url == "/api/admin/auth/login" ==> r == LoginAsWritten(body, now)
    ensures verb != "OPTIONS" && url != "/api/health" && !(url == "/api/admin/auth/login" && verb == "POST")
            ==> r == Reply(404, NotFound)
  {
    Dispatch(verb, url, LoginAsWritten(body, now), now)
  }

  /** The server with the corrected login route. */
  function RouteIntended(verb: string, url: string, body: LoginBody, now: nat): (r: Reply)
    ensures verb == "OPTIONS" ==> r == Reply(200, Empty)
    ensures verb != "OPTIONS" && url == "/api/health" ==> r == Reply(200, Health("OK", "DFashion Backend is running!", now))
    ensures verb == "POST" && url == "/api/admin/auth/login" ==> r == LoginIntended(body, now)
    ensures verb != "OPTIONS" && url != "/api/health" && !(url == "/api/admin/auth/login" && verb == "POST")
            ==> r == Reply(404, NotFound)
  {
    Dispatch(verb, url, LoginIntended(body, now), now)
  }

  /** A login request with an unknown address and no password: 200 as written, 401 as intended. */
  lemma RoutesDifferOnUnknownAddress(email: string, now: nat)
    requires email !in Accounts()
    ensures Route("POST", "/api/admin/auth/login", Fields(Some(email), None), now) == Granted(email, now)
    ensures RouteIntended("POST", "/api/admin/auth/login", Fields(Some(email), None), now)
         == Reply(401, Failure("Invalid credentials"))
  {
    UnknownAddressWithoutPassword(email, now);
  }

  /** A login request with an empty object: the server as written ends, the corrected one answers 401. */
  lemma RoutesDifferOnEmptyBody(now: nat)
    ensures Route("POST", "/api/admin/auth/login", Fields(None, None), now) == Crashed
    ensures RouteIntended("POST", "/api/admin/auth/login", Fields(None, None), now)
         == Reply(401, Failure("Invalid credentials"))
  {
    EmptyBodyCrashes(now);
  }
}

=== FILE: rating.dfy ===
/**
 * frontend/src/app/shared/components/rating/rating.component.ts: a row of
 * star icons for a rating value, which can be set by a click when the
 * widget is interactive.
 */
module Rating {
  import opened Wrappers
  import ProductDetail

  datatype StarColor = Warning | Medium

  /**
   * `getStarIcon(index)`: 'star' when the value reaches `index + 1`,
   * 'star-half' when it reaches `index + 0.5`, else 'star-outline' — the
   * same rule the product page draws its stars with.
   */
  function StarIcon(value: real, index: int): (s: ProductDetail.Star)
    ensures s == ProductDetail.Full <==> value >= (index + 1) as real
    ensures s == ProductDetail.Half <==> (index + 1) as real > value >= index as real + 0.5
    ensures s == ProductDetail.Empty <==> value < index as real + 0.5
  {
    ProductDetail.StarFor(index + 1, value)
  }

  /** `getStarColor(index)`: 'warning' when the value exceeds the index, else 'medium'. */
  function StarColorOf(value: real, index: int): (c: StarColor)
    ensures c == Warning <==> value > index as real
  {
    if value > index as real then Warning else Medium
  }

  /** Every full or half star is coloured 'warning'. */
  lemma LitStarsAreWarning(value: real, index: int)
    requires StarIcon(value, index) != ProductDetail.Empty
    ensures StarColorOf(value, index) == Warning
  {
  }

  /** Clicking star `index` when it is interactive makes it and all before it full. */
  lemma ClickedValueFillsStars(index: int, k: int)
    requires 0 <= k <= index
    ensures StarIcon((index + 1) as real, k) == ProductDetail.Full
    ensures StarIcon((index + 1) as real, index + 1) == ProductDetail.Empty
  {
  }

  class Widget {
    var value: real
    const maxStars: nat
    const interactive: bool

    constructor(value: real, maxStars: nat, interactive: bool)
      ensures this.value == value && this.maxStars == maxStars && this.interactive == interactive
    {
      this.value := value;
      this.maxStars := maxStars;
      this.interactive := interactive;
    }

    /** `stars`: the indices 0 .. maxStars - 1. */
    function Stars(): (r: seq<int>)
      reads this
      ensures |r| == maxStars
      ensures forall i :: 0 <= i < |r| ==> r[i] == i
    {
      seq(maxStars, i => i)
    }

    /** `onStarClick(index)`: sets and emits `index + 1` only when interactive. */
    method OnStarClick(index: int) returns (emitted: Option<int>)
      modifies this
      ensures interactive ==> value == (index + 1) as real && emitted == Some(index + 1)
      ensures !interactive ==> value == old(value) && emitted.None?
    {
      if interactive {
        value := (index + 1) as real;
        emitted := Some(index + 1);
      } else {
        emitted := None;
      }
    }
  }
}

=== FILE: shopping_actions.dfy ===
/**
 * frontend/src/app/shared/components/shopping-actions/shopping-actions.component.ts:
 * the buy, cart and wishlist buttons under a product. The discount badge
 * is a rounded percentage; each button requires a signed-in user and its
 * simulated action completes after a timer.
 */
module ShoppingActions {
  import opened Wrappers
  import Numbers

  /**
   * `discountPercentage`: with a non-zero original price above the price,
   * the saving as a percentage of the original price, rounded; else 0.
   */
  function DiscountPercentage(price: real, originalPrice: Option<real>): (r: int)
    ensures !(originalPrice.Some? && originalPrice.value != 0.0 && originalPrice.value > price) ==> r == 0
    ensures originalPrice.Some? && originalPrice.value != 0.0 && originalPrice.value > price ==>
              (var exact := (originalPrice.value - price) / originalPrice.value * 100.0;
               r as real - 0.5 <= exact < r as real + 0.5)
  {
    if originalPrice.Some? && originalPrice.value != 0.0 && originalPrice.value > price then
      Numbers.Round((originalPrice.value - price) / originalPrice.value * 100.0)
    else 0
  }

  /** For a price that is not negative, the badge lies between 0 and 100. */
  lemma DiscountInPercentRange(price: real, originalPrice: Option<real>)
    requires price >= 0.0
    ensures 0 <= DiscountPercentage(price, originalPrice) <= 100
  {
    if originalPrice.Some? && originalPrice.value != 0.0 && originalPrice.value > price {
      var o := originalPrice.value;
      var exact := (o - price) / o * 100.0;
      var q := (o - price) / o;
      assert q * o == o - price;
      assert 0.0 < q <= 1.0;
      assert exact == q * 100.0;
      Numbers.RoundMonotone(0.0, exact);
      Numbers.RoundMonotone(exact, 100.0);
      Numbers.RoundWhole(0);
      Numbers.RoundWhole(100);
    }
  }

  /** Where a button sends the user. */
  datatype Navigation = Stay | ToLogin | ToCheckout

  class Actions {
    var buyLoading: bool
    var cartLoading: bool
    var wishlistLoading: bool
    var isInCart: bool
    var isInWishlist: bool

    /** After `ngOnInit`: every flag is off. */
    constructor()
      ensures !buyLoading && !cartLoading && !wishlistLoading && !isInCart && !isInWishlist
    {
      buyLoading := false;
      cartLoading := false;
      wishlistLoading := false;
      isInCart := false;
      isInWishlist := false;
    }

    /** `onBuyNow`: a guest goes to the login page; a user starts the buy, which leads to checkout. */
    method OnBuyNow(authenticated: bool) returns (nav: Navigation, emitted: bool)
      modifies this
      ensures !authenticated ==> nav == ToLogin && !emitted && buyLoading == old(buyLoading)
      ensures authenticated ==> nav == Stay && emitted && buyLoading
      ensures cartLoading == old(cartLoading) && wishlistLoading == old(wishlistLoading)
      ensures isInCart == old(isInCart) && isInWishlist == old(isInWishlist)
    {
      if !authenticated {
        return ToLogin, false;
      }
      buyLoading := true;
      nav, emitted := Stay, true;
    }

    /** The buy timer: checkout, and the spinner stops. */
    method BuyTimerFired() returns (nav: Navigation)
      modifies this
      ensures nav == ToCheckout && !buyLoading
      ensures cartLoading == old(cartLoading) && wishlistLoading == old(wishlistLoading)
      ensures isInCart == old(isInCart) && isInWishlist == old(isInWishlist)
    {
      buyLoading := false;
      nav := ToCheckout;
    }

    /** `onAddToCart`: a guest goes to the login page with nothing changed. */
    method OnAddToCart(authenticated: bool) returns (nav: Navigation)
      modifies this
      ensures !authenticated ==> nav == ToLogin && cartLoading == old(cartLoading)
      ensures authenticated ==> nav == Stay && cartLoading
      ensures buyLoading == old(buyLoading) && wishlistLoading == old(wishlistLoading)
      ensures isInCart == old(isInCart) && isInWishlist == old(isInWishlist)
    {
      if !authenticated {
        return ToLogin;
      }
      cartLoading := true;
      nav := Stay;
    }

    /** The cart timer: the product goes into or out of the cart. */
    method CartTimerFired()
      modifies this
      ensures isInCart == !old(isInCart) && !cartLoading
      ensures buyLoading == old(buyLoading) && wishlistLoading == old(wishlistLoading)
      ensures isInWishlist == old(isInWishlist)
    {
      isInCart := !isInCart;
      cartLoading := false;
    }

    /** `onToggleWishlist`: a guest goes to the login page with nothing changed. */
    method OnToggleWishlist(authenticated: bool) returns (nav: Navigation)
      modifies this
      ensures !authenticated ==> nav == ToLogin && wishlistLoading == old(wishlistLoading)
      ensures authenticated ==> nav == Stay && wishlistLoading
      ensures buyLoading == old(buyLoading) && cartLoading == old(cartLoading)
      ensures isInCart == old(isInCart) && isInWishlist == old(isInWishlist)
    {
      if !authenticated {
        return ToLogin;
      }
      wishlistLoading := true;
      nav := Stay;
    }

    /** The wishlist timer: the product goes into or out of the wishlist. */
    method WishlistTimerFired()
      modifies this
      ensures isInWishlist == !old(isInWishlist) && !wishlistLoading
      ensures buyLoading == old(buyLoading) && cartLoading == old(cartLoading)
      ensures isInCart == old(isInCart)
    {
      isInWishlist := !isInWishlist;
      wishlistLoading := false;
    }
  }
}

=== FILE: sidebar.dfy ===
/**
 * frontend/src/app/admin/layout/sidebar.component.ts: the admin sidebar.
 * Menu groups with children can be folded open; the set of open group
 * labels is toggled by hand and widened to the group of the current route
 * after each navigation.
 */
module Sidebar {
  import opened Wrappers
  import opened Text
  import Lists

  /** A menu entry: its itemLabel, its route, and the routes of its children if it is a group. */
  datatype MenuItem = MenuItem(itemLabel: string, route: string, children: Option<seq<string>>)

  function MenuItems(): seq<MenuItem> {
    [ MenuItem("Dashboard", "/admin/dashboard", None),
      MenuItem("Users", "/admin/users", Some(["/admin/users", "/admin/users/new", "/admin/users/roles"])),
      MenuItem("Products", "/admin/products",
               Some(["/admin/products", "/admin/products/new", "/admin/products/categories", "/admin/products/inventory"])),
      MenuItem("Orders", "/admin/orders", None),
      MenuItem("Analytics", "/admin/analytics", None),
      MenuItem("Marketing", "/admin/marketing",
               Some(["/admin/marketing/campaigns", "/admin/marketing/coupons", "/admin/marketing/reviews"])),
      MenuItem("Settings", "/admin/settings", None) ]
  }

  function PrefixOf(currentRoute: string): string -> bool {
    (childRoute: string) => StartsWith(currentRoute, childRoute)
  }

  /** A group one of whose children's routes starts the current route. */
  predicate HasActiveChild(item: MenuItem, currentRoute: string) {
    item.children.Some? && Lists.Any(item.children.value, PrefixOf(currentRoute))
  }

  /** The labels auto-expansion opens for a route. */
  function ActiveGroups(items: seq<MenuItem>, currentRoute: string): (r: set<string>)
    ensures forall l :: l in r <==> exists i :: 0 <= i < |items| && items[i].itemLabel == l && HasActiveChild(items[i], currentRoute)
  {
    set i | 0 <= i < |items| && HasActiveChild(items[i], currentRoute) :: items[i].itemLabel
  }

  lemma ActiveGroupsSnoc(items: seq<MenuItem>, item: MenuItem, currentRoute: string)
    ensures ActiveGroups(items + [item], currentRoute)
         == ActiveGroups(items, currentRoute) + (if HasActiveChild(item, currentRoute) then {item.itemLabel} else {})
  {
    var xs := items + [item];
    forall l ensures l in ActiveGroups(xs, currentRoute) <==>
                     l in ActiveGroups(items, currentRoute) + (if HasActiveChild(item, currentRoute) then {item.itemLabel} else {})
    {
      if l in ActiveGroups(xs, currentRoute) {
        var i :| 0 <= i < |xs| && xs[i].itemLabel == l && HasActiveChild(xs[i], currentRoute);
        if i < |items| { assert items[i] == xs[i]; }
      }
      if l in ActiveGroups(items, currentRoute) {
        var i :| 0 <= i < |items| && items[i].itemLabel == l && HasActiveChild(items[i], currentRoute);
        assert xs[i] == items[i];
      }
      if HasActiveChild(item, currentRoute) && l == item.itemLabel {
        assert xs[|items|] == item;
      }
    }
  }

  /** A plain prefix test: '/admin/usersX' still opens the Users group. */
  lemma LoosePrefixOpensUsers(currentRoute: string)
    requires currentRoute == "/admin/usersX"
    ensures "Users" in ActiveGroups(MenuItems(), currentRoute)
  {
    var users := MenuItems()[1];
    assert users.children.value[0] == "/admin/users";
    assert currentRoute[..12] == "/admin/users";
    assert PrefixOf(currentRoute)(users.children.value[0]);
    assert HasActiveChild(users, currentRoute);
  }

  /** `toggleExpanded`'s set: the itemLabel goes out if it is in, else in. */
  function Toggled(expanded: set<string>, itemLabel: string): (r: set<string>)
    ensures itemLabel in r <==> itemLabel !in expanded
    ensures forall l :: l != itemLabel ==> (l in r <==> l in expanded)
  {
    if itemLabel in expanded then expanded - {itemLabel} else expanded + {itemLabel}
  }

  /** Toggling the same itemLabel twice leaves the set as it was. */
  lemma ToggleTwice(expanded: set<string>, itemLabel: string)
    ensures Toggled(Toggled(expanded, itemLabel), itemLabel) == expanded
  {
  }

  class Menu {
    var expandedItems: set<string>
    var currentRoute: string
    const menuItems: seq<MenuItem>

    constructor()
      ensures expandedItems == {} && currentRoute == "" && menuItems == MenuItems()
    {
      expandedItems := {};
      currentRoute := "";
      menuItems := MenuItems();
    }

    method ToggleExpanded(itemLabel: string)
      modifies this
      ensures expandedItems == Toggled(old(expandedItems), itemLabel)
      ensures currentRoute == old(currentRoute)
      ensures IsExpanded(itemLabel) == !old(IsExpanded(itemLabel))
      ensures forall other :: other != itemLabel ==> (IsExpanded(other) <==> old(IsExpanded(other)))
    {
      if itemLabel in expandedItems {
        expandedItems := expandedItems - {itemLabel};
      } else {
        expandedItems := expandedItems + {itemLabel};
      }
    }

    function IsExpanded(itemLabel: string): (r: bool)
      reads this
      ensures r <==> itemLabel in expandedItems
    {
      itemLabel in expandedItems
    }

    /**
     * `autoExpandForCurrentRoute`: opens every group with a child route
     * that starts the current route, and closes nothing.
     */
    method AutoExpandForCurrentRoute()
      modifies this
      ensures expandedItems == old(expandedItems) + ActiveGroups(menuItems, currentRoute)
      ensures old(expandedItems) <= expandedItems
      ensures forall l :: l in expandedItems - old(expandedItems) ==>
                exists i :: 0 <= i < |menuItems| && menuItems[i].itemLabel == l && menuItems[i].children.Some?
      ensures currentRoute == old(currentRoute)
    {
      var k := 0;
      while k < |menuItems|
        invariant 0 <= k <= |menuItems|
        invariant currentRoute == old(currentRoute)
        invariant expandedItems == old(expandedItems) + ActiveGroups(menuItems[..k], currentRoute)
      {
        var item := menuItems[k];
        ActiveGroupsSnoc(menuItems[..k], item, currentRoute);
        assert menuItems[..k + 1] == menuItems[..k] + [item];
        if item.children.Some? {
          if Lists.Any(item.children.value, PrefixOf(currentRoute)) {
            expandedItems := expandedItems + {item.itemLabel};
          }
        }
        k := k + 1;
      }
      assert menuItems[..k] == menuItems;
    }

    /** A `NavigationEnd`: the route is recorded and its group opened. */
    method Navigated(url: string)
      modifies this
      ensures currentRoute == url
      ensures expandedItems == old(expandedItems) + ActiveGroups(menuItems, url)
    {
      currentRoute := url;
      AutoExpandForCurrentRoute();
    }
  }
}

=== FILE: simple_server.dfy ===
/**
 * backend/simple-server.js: the Node twin of the Python server over the same
 * four lists. It routes on the parsed pathname by prefix, keeps missing tagged
 * products and story authors as `undefined`, and its trending handler sorts
 * the shared `products` array in place.
 */
module SimpleServer {
  import opened Wrappers
  import opened Text
  import opened Catalog
  import Lists
  import PythonServer

  /** `{...tag, product: products.find(...)}`: the product may be `undefined`. */
  datatype MaybeTaggedProduct = MaybeTaggedProduct(tag: ProductTag, product: Option<Product>)

  datatype PostView = PostView(post: Post, user: Option<User>, products: seq<MaybeTaggedProduct>, likesCount: nat, commentsCount: nat)

  /** `{user: users.find(...), stories: [story]}`: the user may be `undefined`. */
  datatype StoryGroup = StoryGroup(user: Option<User>, stories: seq<Story>)

  datatype Body =
    | Health(status: string, message: string, timestamp: int)
    | PostsPage(posts: seq<PostView>, current: int, pages: int, total: int)
    | StoryGroups(storyGroups: seq<StoryGroup>)
    | ProductList(products: seq<ProductWithVendor>)
    | UserList(users: seq<User>)
    | LikeResult(likesCount: nat, isLiked: bool)
    | Error(error: string)
    | Empty

  /** `NoReply`: the handler returns without writing, so the request hangs. */
  datatype Reply = NoReply | Reply(status: int, body: Body)

  const NotFound := Reply(404, Error("Not found"))

  // ---------------------------------------------------------------------------
  // Views

  function AllTags(products: seq<Product>, tags: seq<ProductTag>): (r: seq<MaybeTaggedProduct>)
    ensures |r| == |tags|
    ensures forall i :: 0 <= i < |r| ==> r[i].tag == tags[i]
    ensures forall i :: 0 <= i < |r| ==> (r[i].product.None? <==> !PythonServer.HasProduct(products)(tags[i]))
  {
    seq(|tags|, i requires 0 <= i < |tags| => MaybeTaggedProduct(tags[i], FindProduct(products, tags[i].productId)))
  }

  /**
   * One post of the posts view: the post, its author (`undefined` when no
   * user has that id), every tag with its product, and the two counts.
   */
  function ViewOf(users: seq<User>, products: seq<Product>, post: Post): (r: PostView)
    ensures r.post == post && r.likesCount == |post.likes| && r.commentsCount == |post.comments|
    ensures r.user.None? <==> forall j :: 0 <= j < |users| ==> users[j].id != post.userId
    ensures r.user.Some? ==> r.user.value in users && r.user.value.id == post.userId
    ensures r.user.Some? ==> exists k :: 0 <= k < |users| && users[k] == r.user.value
                                         && forall j :: 0 <= j < k ==> users[j].id != post.userId
    ensures |r.products| == |post.productTags|
    ensures r.products == AllTags(products, post.productTags)
  {
    PostView(post, FindUser(users, post.userId), AllTags(products, post.productTags), |post.likes|, |post.comments|)
  }

  function PostsView(users: seq<User>, products: seq<Product>, posts: seq<Post>): (r: seq<PostView>)
    ensures |r| == |posts|
    ensures forall i :: 0 <= i < |r| ==> r[i] == ViewOf(users, products, posts[i])
    ensures forall i :: 0 <= i < |r| ==> r[i].post == posts[i]
    ensures forall i :: 0 <= i < |r| ==> r[i].likesCount == |posts[i].likes| && r[i].commentsCount == |posts[i].comments|
    ensures forall i :: 0 <= i < |r| ==>
      (r[i].user.None? <==> forall j :: 0 <= j < |users| ==> users[j].id != posts[i].userId)
    ensures forall i :: 0 <= i < |r| ==> |r[i].products| == |posts[i].productTags|
    ensures forall i :: 0 <= i < |r| && r[i].user.Some? ==> r[i].user.value in users && r[i].user.value.id == posts[i].userId
  {
    seq(|posts|, i requires 0 <= i < |posts| => ViewOf(users, products, posts[i]))
  }

  /**
   * Where the two servers differ on tags: this one keeps every tag (with an
   * `undefined` product where it is missing), the Python one keeps exactly the
   * tags this one shows with a product, in the same order, and agrees on each
   * product it keeps.
   */
  lemma TagsKeptVersusDropped(products: seq<Product>, tags: seq<ProductTag>)
    ensures |AllTags(products, tags)| == |tags|
    ensures PythonServer.TagsOf(PythonServer.KnownTags(products, tags))
         == Lists.Filter(tags, PythonServer.HasProduct(products))
    ensures forall i :: 0 <= i < |PythonServer.KnownTags(products, tags)| ==>
      Some(PythonServer.KnownTags(products, tags)[i].product) == FindProduct(products, PythonServer.KnownTags(products, tags)[i].tag.productId)
    ensures (forall i :: 0 <= i < |tags| ==> PythonServer.HasProduct(products)(tags[i])) ==>
      |PythonServer.KnownTags(products, tags)| == |AllTags(products, tags)|
  {
    if forall i :: 0 <= i < |tags| ==> PythonServer.HasProduct(products)(tags[i]) {
      Lists.FilterAll(tags, PythonServer.HasProduct(products));
      assert |PythonServer.TagsOf(PythonServer.KnownTags(products, tags))| == |tags|;
    }
  }

  function Live(now: int): Story -> bool {
    (s: Story) => s.expiresAt > now
  }

  function StoriesOf(gs: seq<StoryGroup>): seq<Story> {
    if |gs| == 0 then [] else gs[0].stories + StoriesOf(gs[1..])
  }

  /**
   * The stories view: one single-story group per story with `expiresAt` after
   * `now`, in store order; the author is looked up but never required.
   */
  function StoryGroupsView(users: seq<User>, stories: seq<Story>, now: int): (r: seq<StoryGroup>)
    ensures forall i :: 0 <= i < |r| ==> |r[i].stories| == 1 && r[i].stories[0].expiresAt > now
    ensures forall i :: 0 <= i < |r| ==> r[i].user == FindUser(users, r[i].stories[0].userId)
    ensures StoriesOf(r) == Lists.Filter(stories, Live(now))
  {
    if |stories| == 0 then []
    else
      var rest := StoryGroupsView(users, stories[1..], now);
      if stories[0].expiresAt > now then [StoryGroup(FindUser(users, stories[0].userId), [stories[0]])] + rest
      else rest
  }

  /**
   * Where the two servers differ on stories: the Python view lists exactly the
   * stories of this one whose author exists.
   */
  lemma StoriesKeptVersusSkipped(users: seq<User>, stories: seq<Story>, now: int)
    ensures PythonServer.StoriesOf(PythonServer.StoryGroupsView(users, stories, now))
         == Lists.Filter(StoriesOf(StoryGroupsView(users, stories, now)), (s: Story) => FindUser(users, s.userId).Some?)
  {
    Lists.FilterFilter(stories, Live(now), (s: Story) => FindUser(users, s.userId).Some?, PythonServer.Listed(users, now));
  }

  // ---------------------------------------------------------------------------
  // Routing

  /** `POST /api/posts/<id>/like`: the only request that changes `posts`. */
  predicate IsLikeRequest(verb: string, pathname: string) {
    verb == "POST" && StartsWith(pathname, "/api/posts/") && EndsWith(pathname, "/like")
  }

  /** `GET /api/products/trending`: the only request that changes `products`. */
  predicate IsTrendingRequest(verb: string, pathname: string) {
    verb == "GET" && pathname == "/api/products/trending"
  }

  /** `pathname.split('/')[3]`. */
  function LikeId(pathname: string): string
    requires StartsWith(pathname, "/api/posts/")
  {
    StartsWithContains(pathname, "/api/posts/");
    PythonServer.LikeSegment(pathname)
  }

  /** One of the four prefixes that go to a handler. */
  predicate HasHandlerPrefix(pathname: string) {
    StartsWith(pathname, "/api/posts") || StartsWith(pathname, "/api/stories")
    || StartsWith(pathname, "/api/products") || StartsWith(pathname, "/api/users")
  }

  /** A request one of the four handlers answers. */
  predicate IsAnswered(verb: string, pathname: string) {
    (verb == "GET" && pathname in {"/api/posts", "/api/stories", "/api/products", "/api/products/trending", "/api/users"})
    || IsLikeRequest(verb, pathname)
  }

  /**
   * The reply to one request, from the lists as they are before it.
   * OPTIONS is 200 with no body; `/api/health` answers every method; a
   * pathname under one of the four prefixes that its handler does not know
   * gets no reply at all; anything else is 404 Not found.
   */
  function Respond(users: seq<User>, products: seq<Product>, posts: seq<Post>, stories: seq<Story>,
                   verb: string, pathname: string, now: int): (r: Reply)
    ensures verb == "OPTIONS" ==> r == Reply(200, Empty)
    ensures verb != "OPTIONS" && pathname == "/api/health" ==>
      r == Reply(200, Health("OK", "DFashion Backend is running!", now))
    ensures verb == "GET" && pathname == "/api/posts" ==>
      r == Reply(200, PostsPage(PostsView(users, products, posts), 1, 1, |posts|))
    ensures verb == "GET" && pathname == "/api/stories" ==>
      r == Reply(200, StoryGroups(StoryGroupsView(users, stories, now)))
    ensures verb == "GET" && pathname == "/api/users" ==> r == Reply(200, UserList(users))
    ensures verb != "OPTIONS" && pathname != "/api/health" ==>
      (r.NoReply? <==> HasHandlerPrefix(pathname) && !IsAnswered(verb, pathname))
    ensures verb != "OPTIONS" && pathname != "/api/health" && !HasHandlerPrefix(pathname) ==> r == NotFound
    ensures verb != "OPTIONS" && IsTrendingRequest(verb, pathname) ==>
      r == Reply(200, ProductList(WithVendors(users, TopThree(SortByViews(products)))))
  {
    if verb == "OPTIONS" then Reply(200, Empty)
    else if pathname == "/api/health" then Reply(200, Health("OK", "DFashion Backend is running!", now))
    else if StartsWith(pathname, "/api/posts") then HandlePosts(users, products, posts, verb, pathname)
    else if StartsWith(pathname, "/api/stories") then HandleStories(users, stories, verb, pathname, now)
    else if StartsWith(pathname, "/api/products") then HandleProducts(users, products, verb, pathname)
    else if StartsWith(pathname, "/api/users") then HandleUsers(users, verb, pathname)
    else NotFound
  }

  /** `handlePosts`: the posts page, or a like; no reply for anything else under the prefix. */
  function HandlePosts(users: seq<User>, products: seq<Product>, posts: seq<Post>,
                       verb: string, pathname: string): (r: Reply)
    requires StartsWith(pathname, "/api/posts")
    ensures r.NoReply? <==> !IsAnswered(verb, pathname)
    ensures verb == "GET" && pathname == "/api/posts" ==>
      r == Reply(200, PostsPage(PostsView(users, products, posts), 1, 1, |posts|))
  {
    if verb == "GET" && pathname == "/api/posts" then
      Reply(200, PostsPage(PostsView(users, products, posts), 1, 1, |posts|))
    else if IsLikeRequest(verb, pathname) then
      match PostIndex(posts, LikeId(pathname))
      case None => Reply(404, Error("Post not found"))
      case Some(k) => Reply(200, LikeResult(|posts[k].likes| + 1, true))
    else
      assert pathname[5] == "/api/posts"[5] && pathname[6] == "/api/posts"[6];
      NoReply
  }

  /** `handleStories`: the story groups; no reply for anything else under the prefix. */
  function HandleStories(users: seq<User>, stories: seq<Story>, verb: string, pathname: string, now: int): (r: Reply)
    requires StartsWith(pathname, "/api/stories")
    ensures r.NoReply? <==> !IsAnswered(verb, pathname)
    ensures verb == "GET" && pathname == "/api/stories" ==>
      r == Reply(200, StoryGroups(StoryGroupsView(users, stories, now)))
  {
    if verb == "GET" && pathname == "/api/stories" then Reply(200, StoryGroups(StoryGroupsView(users, stories, now)))
    else
      assert pathname[5] == "/api/stories"[5];
      NoReply
  }

  /** `handleProducts`: all products or the trending three; no reply for anything else under the prefix. */
  function HandleProducts(users: seq<User>, products: seq<Product>, verb: string, pathname: string): (r: Reply)
    requires StartsWith(pathname, "/api/products")
    ensures r.NoReply? <==> !IsAnswered(verb, pathname)
    ensures verb == "GET" && pathname == "/api/products" ==> r == Reply(200, ProductList(WithVendors(users, products)))
    ensures IsTrendingRequest(verb, pathname) ==>
      r == Reply(200, ProductList(WithVendors(users, TopThree(SortByViews(products)))))
  {
    if verb == "GET" && pathname == "/api/products" then Reply(200, ProductList(WithVendors(users, products)))
    else if IsTrendingRequest(verb, pathname) then Reply(200, ProductList(WithVendors(users, TopThree(SortByViews(products)))))
    else
      assert pathname[5] == "/api/products"[5] && pathname[6] == "/api/products"[6];
      NoReply
  }

  /** `handleUsers`: the user list; no reply for anything else under the prefix. */
  function HandleUsers(users: seq<User>, verb: string, pathname: string): (r: Reply)
    requires StartsWith(pathname, "/api/users")
    ensures r.NoReply? <==> !IsAnswered(verb, pathname)
    ensures verb == "GET" && pathname == "/api/users" ==> r == Reply(200, UserList(users))
  {
    if verb == "GET" && pathname == "/api/users" then Reply(200, UserList(users))
    else
      assert pathname[5] == "/api/users"[5];
      NoReply
  }

  /**
   * The like reply counts `likes.length + 1` before the push; that is the
   * length after it, i.e. what the posts view shows next.
   */
  lemma LikeReplyIsNewLength(users: seq<User>, products: seq<Product>, posts: seq<Post>, stories: seq<Story>, id: string, now: int, k: nat)
    requires '/' !in id
    requires k < |posts| && posts[k].id == id
    requires forall j :: 0 <= j < k ==> posts[j].id != id
    ensures Respond(users, products, posts, stories, "POST", "/api/posts/" + id + "/like", now)
         == Reply(200, LikeResult(PostsView(users, products, Liked(posts, id, now))[k].likesCount, true))
  {
    var path := "/api/posts/" + id + "/like";
    PythonServer.LikeSegmentOfPostPath(id);
    assert StartsWith(path, "/api/posts/") by { assert path[..11] == "/api/posts/"; }
    LikeRequestReply(users, products, posts, stories, path, now);
    LikedAppendsOne(posts, id, now, k);
    assert PostIndex(posts, id) == Some(k);
  }

  /** A like request reaches the like handler, which looks the post up by segment 3. */
  lemma LikeRequestReply(users: seq<User>, products: seq<Product>, posts: seq<Post>, stories: seq<Story>, pathname: string, now: int)
    requires IsLikeRequest("POST", pathname)
    ensures Respond(users, products, posts, stories, "POST", pathname, now)
         == match PostIndex(posts, LikeId(pathname))
            case None => Reply(404, Error("Post not found"))
            case Some(k) => Reply(200, LikeResult(|posts[k].likes| + 1, true))
  {
    assert pathname[..10] == pathname[..11][..10] == "/api/posts";
    assert pathname[5] == 'p';
  }

  /**
   * Both servers answer the trending request with the same three products;
   * only this one also leaves the store in that order.
   */
  lemma TrendingAgreesWithPython(users: seq<User>, products: seq<Product>, posts: seq<Post>, stories: seq<Story>, now: int)
    ensures Respond(users, products, posts, stories, "GET", "/api/products/trending", now)
         == Reply(200, ProductList(PythonServer.TrendingView(users, products)))
  {
  }

  /**
   * After a trending request the products view lists the store by views
   * descending, and a second trending request leaves that order as it is.
   */
  lemma ProductsAfterTrending(users: seq<User>, products: seq<Product>, posts: seq<Post>, stories: seq<Story>, now: int)
    ensures var r := Respond(users, SortByViews(products), posts, stories, "GET", "/api/products", now);
      r.Reply? && r.body.ProductList? && |r.body.products| == |products| &&
      forall i, j :: 0 <= i < j < |products| ==> r.body.products[i].product.views >= r.body.products[j].product.views
    ensures SortByViews(SortByViews(products)) == SortByViews(products)
  {
    SortByViewsSorted(products);
    SortedIsFixed(SortByViews(products));
    ProductsReply(users, SortByViews(products), posts, stories, now);
  }

  lemma ProductsReply(users: seq<User>, products: seq<Product>, posts: seq<Post>, stories: seq<Story>, now: int)
    ensures Respond(users, products, posts, stories, "GET", "/api/products", now)
         == Reply(200, ProductList(WithVendors(users, products)))
  {
    assert StartsWith("/api/products", "/api/products");
    assert !StartsWith("/api/products", "/api/posts") by { assert "/api/products"[6] != "/api/posts"[6]; }
    assert !StartsWith("/api/products", "/api/stories") by { assert "/api/products"[5] != "/api/stories"[5]; }
  }

  /** Sorting a list that is already in trending order changes nothing. */
  lemma {:induction false} SortedIsFixed(ps: seq<Product>)
    requires ByViewsDesc(ps)
    ensures SortByViews(ps) == ps
    decreases |ps|
  {
    if |ps| > 0 {
      SortedIsFixed(ps[1..]);
    }
  }

  /** The store: the module-level arrays of the server. */
  class Store {
    var users: seq<User>
    var products: seq<Product>
    var posts: seq<Post>
    var stories: seq<Story>

    constructor (now: int)
      ensures users == SeedUsers() && products == SeedProducts()
      ensures posts == SeedPosts(now) && stories == SeedStories(now)
    {
      users := SeedUsers();
      products := SeedProducts();
      posts := SeedPosts(now);
      stories := SeedStories(now);
    }

    /**
     * One request on the parsed pathname. The reply is `Respond` on the lists
     * as they were; a like appends one record to the post it finds, and the
     * trending request reorders `products` itself (a stable sort by views,
     * descending).
     */
    method Handle(verb: string, pathname: string, now: int) returns (r: Reply)
      modifies this
      ensures users == old(users) && stories == old(stories)
      ensures r == Respond(old(users), old(products), old(posts), old(stories), verb, pathname, now)
      ensures posts == if verb != "OPTIONS" && IsLikeRequest(verb, pathname)
                       then Liked(old(posts), LikeId(pathname), now) else old(posts)
      ensures products == if verb != "OPTIONS" && IsTrendingRequest(verb, pathname)
                          then SortByViews(old(products)) else old(products)
    {
      r := Respond(users, products, posts, stories, verb, pathname, now);
      if verb != "OPTIONS" && IsLikeRequest(verb, pathname) {
        assert pathname != "/api/health" && StartsWith(pathname, "/api/posts") by {
          assert pathname[..10] == pathname[..11][..10];
        }
        var id := LikeId(pathname);
        match PostIndex(posts, id) {
          case None =>
          case Some(k) =>
            var post := posts[k];
            posts := posts[k := post.(likes := post.likes + [Like("1", now)])];
        }
      } else if verb != "OPTIONS" && IsTrendingRequest(verb, pathname) {
        products := SortByViews(products);
      }
    }
  }
}

=== FILE: social_feed.dfy ===
/**
 * frontend/src/app/features/posts/social-feed.component.ts: the feed page.
 * Like, save and comment change a post in place, the story strip groups
 * stories by author, and "load more" pages through the posts ten at a time.
 */
module SocialFeed {
  import opened Wrappers
  import opened Text
  import Lists
  import Grouping

  /** A like or a save: who, and when. */
  datatype Mark = Mark(user: string, at: int)

  datatype Comment = Comment(id: string, userId: string, text: string, at: int)

  datatype Post = Post(id: string, likes: seq<Mark>, saves: seq<Mark>, comments: seq<Comment>,
                       isLiked: bool, isSaved: bool)

  datatype StoryUser = StoryUser(id: string, username: string)

  datatype FeedStory = FeedStory(id: string, user: StoryUser)

  /** One entry of the story strip. */
  datatype StoryGroup = StoryGroup(user: StoryUser, viewed: bool, stories: seq<FeedStory>)

  /** The reply to the "load more" request. */
  datatype MoreReply = RequestFailed | Answered(success: bool, posts: seq<Post>)

  /** The user `loadCurrentUser` installs. */
  const CurrentUserId := "current-user"

  function NotBy(user: string): Mark -> bool {
    (m: Mark) => m.user != user
  }

  /** The marks after a toggle: one more by `user` when turning on, none by `user` when turning off. */
  function Toggled(marks: seq<Mark>, on: bool, user: string, now: int): (r: seq<Mark>)
    ensures on ==> r == marks + [Mark(user, now)]
    ensures !on ==> forall i :: 0 <= i < |r| ==> r[i].user != user
    ensures !on ==> forall m :: m in r <==> m in marks && m.user != user
  {
    if on then marks + [Mark(user, now)]
    else
      forall m ensures m in Lists.Filter(marks, NotBy(user)) <==> m in marks && m.user != user {
        Lists.FilterMember(marks, NotBy(user), m);
      }
      Lists.Filter(marks, NotBy(user))
  }

  /** Turning a mark on and off again leaves no mark by the user and keeps everyone else's in order. */
  lemma ToggleOnOff(marks: seq<Mark>, user: string, now: int, later: int)
    ensures Toggled(Toggled(marks, true, user, now), false, user, later) == Lists.Filter(marks, NotBy(user))
    ensures (forall i :: 0 <= i < |marks| ==> marks[i].user != user) ==>
      Toggled(Toggled(marks, true, user, now), false, user, later) == marks
  {
    Lists.FilterAppend(marks, [Mark(user, now)], NotBy(user));
    assert Lists.Filter([Mark(user, now)], NotBy(user)) == [];
    if forall i :: 0 <= i < |marks| ==> marks[i].user != user {
      Lists.FilterAll(marks, NotBy(user));
    }
  }

  /** `Math.floor(posts.length / 10) + 1`: the page after the ones already shown. */
  function NextPage(shown: nat): (r: nat)
    ensures (r - 1) * 10 <= shown < r * 10
  {
    shown / 10 + 1
  }

  function StoryUserId(): FeedStory -> string {
    (s: FeedStory) => s.user.id
  }

  /**
   * The `reduce` of `loadStories`: one group per author id in first-seen
   * order; the group takes the user object of that author's first story,
   * starts unviewed, and holds the author's stories in order.
   */
  method GroupStories(stories: seq<FeedStory>) returns (groups: seq<StoryGroup>)
    ensures |groups| == |Grouping.KeysInOrder(stories, StoryUserId())|
    ensures forall i :: 0 <= i < |groups| ==>
      groups[i].user.id == Grouping.KeysInOrder(stories, StoryUserId())[i] && !groups[i].viewed
    ensures forall i :: 0 <= i < |groups| ==>
      groups[i].stories == Lists.Filter(stories, Grouping.KeyIs(StoryUserId(), groups[i].user.id))
    ensures forall i :: 0 <= i < |groups| ==>
      exists k :: 0 <= k < |stories| && groups[i].user == stories[k].user
                  && forall j :: 0 <= j < k ==> stories[j].user.id != groups[i].user.id
  {
    var buckets := Grouping.GroupBy(stories, StoryUserId());
    forall i | 0 <= i < |buckets|
      ensures |buckets[i].items| > 0
      ensures exists k :: 0 <= k < |stories| && stories[k].user.id == buckets[i].key
                          && buckets[i].items[0] == stories[k]
                          && forall j :: 0 <= j < k ==> stories[j].user.id != buckets[i].key
    {
      assert buckets[i].key in Grouping.KeysInOrder(stories, StoryUserId());
      Grouping.FirstOfKey(stories, StoryUserId(), buckets[i].key);
    }
    groups := seq(|buckets|, i requires 0 <= i < |buckets| => StoryGroup(buckets[i].items[0].user, false, buckets[i].items));
  }

  class Feed {
    var posts: seq<Post>
    /** `commentTexts`: the comment draft of each post id. */
    var commentTexts: map<string, string>
    var loading: bool
    var hasMorePosts: bool
    var storyGroups: seq<StoryGroup>

    constructor()
      ensures posts == [] && commentTexts == map[] && !loading && hasMorePosts && storyGroups == []
    {
      posts := [];
      commentTexts := map[];
      loading := false;
      hasMorePosts := true;
      storyGroups := [];
    }

    /** `toggleLike`: flips `isLiked`; a like is appended, an unlike removes all of the user's likes. */
    method ToggleLike(i: nat, now: int)
      requires i < |posts|
      modifies this
      ensures |posts| == |old(posts)| && forall j :: 0 <= j < |posts| && j != i ==> posts[j] == old(posts[j])
      ensures posts[i] == old(posts[i]).(isLiked := !old(posts[i].isLiked),
                                          likes := Toggled(old(posts[i].likes), !old(posts[i].isLiked), CurrentUserId, now))
      ensures commentTexts == old(commentTexts) && loading == old(loading) && hasMorePosts == old(hasMorePosts)
      ensures storyGroups == old(storyGroups)
    {
      var p := posts[i];
      var on := !p.isLiked;
      posts := posts[i := p.(isLiked := on, likes := Toggled(p.likes, on, CurrentUserId, now))];
    }

    /** `toggleSave`: the same for `isSaved` and the saves. */
    method ToggleSave(i: nat, now: int)
      requires i < |posts|
      modifies this
      ensures |posts| == |old(posts)| && forall j :: 0 <= j < |posts| && j != i ==> posts[j] == old(posts[j])
      ensures posts[i] == old(posts[i]).(isSaved := !old(posts[i].isSaved),
                                          saves := Toggled(old(posts[i].saves), !old(posts[i].isSaved), CurrentUserId, now))
      ensures commentTexts == old(commentTexts) && loading == old(loading) && hasMorePosts == old(hasMorePosts)
      ensures storyGroups == old(storyGroups)
    {
      var p := posts[i];
      var on := !p.isSaved;
      posts := posts[i := p.(isSaved := on, saves := Toggled(p.saves, on, CurrentUserId, now))];
    }

    /**
     * `addComment`: a missing or blank draft is ignored; otherwise one
     * comment with the trimmed text is appended and the draft cleared.
     */
    method AddComment(i: nat, now: nat)
      requires i < |posts|
      modifies this
      ensures var id := old(posts[i].id);
              id !in old(commentTexts) || Trim(old(commentTexts)[id]) == "" ==>
                posts == old(posts) && commentTexts == old(commentTexts)
      ensures var id := old(posts[i].id);
              id in old(commentTexts) && Trim(old(commentTexts)[id]) != "" ==>
                posts == old(posts)[i := old(posts[i]).(comments := old(posts[i].comments)
                                         + [Comment(NatToString(now), CurrentUserId, Trim(old(commentTexts)[id]), now)])]
                && commentTexts == old(commentTexts)[id := ""]
      ensures loading == old(loading) && hasMorePosts == old(hasMorePosts) && storyGroups == old(storyGroups)
    {
      var p := posts[i];
      if p.id !in commentTexts || Trim(commentTexts[p.id]) == "" {
        return;
      }
      var c := Comment(NatToString(now), CurrentUserId, Trim(commentTexts[p.id]), now);
      posts := posts[i := p.(comments := p.comments + [c])];
      commentTexts := commentTexts[p.id := ""];
    }

    /** `loadStories` on a successful reply. */
    method LoadStories(stories: seq<FeedStory>)
      modifies this
      ensures |storyGroups| == |Grouping.KeysInOrder(stories, StoryUserId())|
      ensures forall i :: 0 <= i < |storyGroups| ==>
        storyGroups[i].stories == Lists.Filter(stories, Grouping.KeyIs(StoryUserId(), storyGroups[i].user.id))
      ensures posts == old(posts) && commentTexts == old(commentTexts)
      ensures loading == old(loading) && hasMorePosts == old(hasMorePosts)
    {
      storyGroups := GroupStories(stories);
    }

    /**
     * The request half of `loadMorePosts`: nothing while loading or when
     * no more posts are expected; otherwise loading starts and the page
     * after the shown posts is asked for.
     */
    method RequestMorePosts() returns (page: Option<nat>)
      modifies this
      ensures old(loading) || !old(hasMorePosts) ==> page.None? && loading == old(loading)
      ensures !old(loading) && old(hasMorePosts) ==> page == Some(NextPage(|posts|)) && loading
      ensures posts == old(posts) && hasMorePosts == old(hasMorePosts)
      ensures commentTexts == old(commentTexts) && storyGroups == old(storyGroups)
    {
      if loading || !hasMorePosts {
        return None;
      }
      loading := true;
      page := Some(NextPage(|posts|));
    }

    /**
     * The reply half: a successful non-empty page is appended, reset to
     * unliked and unsaved, and more are expected only after a full page of
     * ten; an empty or unsuccessful page ends the paging; a failed request
     * only stops loading.
     */
    method ReceiveMorePosts(reply: MoreReply)
      modifies this
      ensures !loading
      ensures reply.Answered? && reply.success && |reply.posts| > 0 ==>
        |posts| == |old(posts)| + |reply.posts| && posts[..|old(posts)|] == old(posts)
        && (forall j :: 0 <= j < |reply.posts| ==>
              posts[|old(posts)| + j] == reply.posts[j].(isLiked := false, isSaved := false))
        && (hasMorePosts <==> |reply.posts| == 10)
      ensures reply.Answered? && !(reply.success && |reply.posts| > 0) ==> posts == old(posts) && !hasMorePosts
      ensures reply.RequestFailed? ==> posts == old(posts) && hasMorePosts == old(hasMorePosts)
      ensures commentTexts == old(commentTexts) && storyGroups == old(storyGroups)
    {
      if reply.Answered? && reply.success && |reply.posts| > 0 {
        var added := seq(|reply.posts|, j requires 0 <= j < |reply.posts| => reply.posts[j].(isLiked := false, isSaved := false));
        posts := posts + added;
        hasMorePosts := |reply.posts| == 10;
      } else if reply.Answered? {
        hasMorePosts := false;
      }
      loading := false;
    }
  }
}

=== FILE: standalone_server.dfy ===
/**
 * backend/standalone-server.js: the admin demo server whose accounts carry
 * their own permission lists, with department dashboards that answer 404 for
 * an unknown department and a self-describing 404.
 */
module StandaloneServer {
  import opened Wrappers
  import opened Text
  import opened AdminShared
  import Lists
  import MinimalServer

  /** The `permissions` array stored with each demo account, in account order. */
  function SeededPermissions(): seq<seq<string>> {
    [ ["all"],
      ["dashboard.view", "orders.*", "users.view"],
      ["dashboard.view", "marketing.*", "products.view"],
      ["dashboard.view", "finance.*", "orders.view"],
      ["dashboard.view", "support.*", "users.view"] ]
  }

  datatype Account = Account(admin: AdminUser, permissions: seq<string>)

  function Accounts(): (r: seq<Account>)
    ensures |r| == |SeededAdmins()|
    ensures forall i :: 0 <= i < |r| ==> r[i].admin == SeededAdmins()[i] && r[i].permissions == SeededPermissions()[i]
  {
    seq(5, i requires 0 <= i < 5 => Account(SeededAdmins()[i], SeededPermissions()[i]))
  }

  /**
   * Every permission an account stores is one the role table of
   * backend/minimal-server.js grants to its role: this server is never more
   * generous than the other one.
   */
  lemma PermissionsWithinRoleTable(i: nat)
    requires i < |Accounts()|
    ensures forall p :: p in Accounts()[i].permissions ==> p in MinimalServer.UserPermissions(Accounts()[i].admin.role)
  {
  }

  /**
   * The three managers with a dashboard role lose 'dashboard.analytics' here,
   * which the role table of the other server grants them.
   */
  lemma ManagersLackAnalytics(i: nat)
    requires 1 <= i <= 3
    ensures "dashboard.analytics" !in Accounts()[i].permissions
    ensures "dashboard.analytics" in MinimalServer.UserPermissions(Accounts()[i].admin.role)
  {
  }

  /** The user object of a successful login: the account without its password. */
  datatype SessionUser = SessionUser(
    id: string, email: string, fullName: string, role: string,
    department: string, employeeId: string, permissions: seq<string>)

  datatype Metric = Metric(name: string, value: real)

  datatype Body =
    | Health(status: string, message: string, timestamp: int, version: string, features: seq<string>)
    | LoginOk(message: string, token: string, user: SessionUser, expiresIn: string)
    | Failure(message: string, code: Option<string>)
    | Stats
    | DepartmentOk(department: string, metrics: seq<Metric>)
    | Analytics(period: string)
    | EndpointNotFound(message: string, availableEndpoints: seq<string>)
    | Empty

  datatype Reply = ServeFile(name: string) | Send(status: int, body: Body)

  function SessionOf(a: Account): (u: SessionUser)
    ensures u.id == a.admin.id && u.email == a.admin.email && u.role == a.admin.role
    ensures u.permissions == a.permissions
  {
    SessionUser(a.admin.id, a.admin.email, a.admin.fullName, a.admin.role,
                a.admin.department, a.admin.employeeId, a.permissions)
  }

  function Matches(email: Option<string>, password: Option<string>): Account -> bool {
    (a: Account) => Some(a.admin.email) == email && Some(a.admin.password) == password
  }

  /**
   * The login route. It accepts exactly the credentials the other admin
   * server accepts, and for the same account; the reply carries that
   * account's own permission list.
   */
  function Login(body: LoginBody, now: nat): (r: Reply)
    ensures r.Send?
    ensures body.Malformed? ==> r == Send(400, Failure("Invalid request body", None))
    ensures body.Fields? ==> (r.status == 200 <==> FindAdmin(SeededAdmins(), body.email, body.password).Some?)
    ensures body.Fields? && r.status == 200 ==>
      var u := FindAdmin(SeededAdmins(), body.email, body.password).value;
      r.body.LoginOk? && r.body.token == LoginToken(u.id, now) && r.body.user.id == u.id
      && r.body.user.email == u.email && r.body.user.role == u.role
      && r.body.user.permissions in SeededPermissions() && r.body.expiresIn == "8h"
      && (exists i :: 0 <= i < |Accounts()| && Accounts()[i].admin == u && r.body.user.permissions == Accounts()[i].permissions)
      && (forall i :: 0 <= i < |Accounts()| && Accounts()[i].admin == u ==> r.body.user.permissions == Accounts()[i].permissions)
    ensures body.Fields? && r.status != 200 ==>
      r == Send(401, Failure("Invalid credentials. Please check your email and password.", Some("INVALID_CREDENTIALS")))
  {
    match body
    case Malformed => Send(400, Failure("Invalid request body", None))
    case Fields(email, password) =>
      var found := Lists.Find(Accounts(), Matches(email, password));
      FindAccountIsFindAdmin(email, password);
      match found
      case None =>
        Send(401, Failure("Invalid credentials. Please check your email and password.", Some("INVALID_CREDENTIALS")))
      case Some(a) =>
        Send(200, LoginOk("Login successful", LoginToken(a.admin.id, now), SessionOf(a), "8h"))
  }

  /** Searching the accounts finds the account of the admin the shared match finds. */
  lemma FindAccountIsFindAdmin(email: Option<string>, password: Option<string>)
    ensures Lists.Find(Accounts(), Matches(email, password)).Some?
        <==> FindAdmin(SeededAdmins(), email, password).Some?
    ensures Lists.Find(Accounts(), Matches(email, password)).Some? ==>
      Lists.Find(Accounts(), Matches(email, password)).value.admin == FindAdmin(SeededAdmins(), email, password).value
      && Lists.Find(Accounts(), Matches(email, password)).value.permissions in SeededPermissions()
      && Lists.Find(Accounts(), Matches(email, password)).value in Accounts()
    ensures Lists.Find(Accounts(), Matches(email, password)).Some? ==>
      forall i :: 0 <= i < |Accounts()| && Accounts()[i].admin == FindAdmin(SeededAdmins(), email, password).value
        ==> Accounts()[i] == Lists.Find(Accounts(), Matches(email, password)).value
  {
    var accounts := Accounts();
    var admins := SeededAdmins();
    var found := Lists.Find(accounts, Matches(email, password));
    var admin := FindAdmin(admins, email, password);
    forall i | 0 <= i < |accounts|
      ensures Matches(email, password)(accounts[i]) == (Some(admins[i].email) == email && Some(admins[i].password) == password)
    {
      assert accounts[i].admin == admins[i];
    }
    if found.Some? {
      var k :| 0 <= k < |accounts| && accounts[k] == found.value && Matches(email, password)(accounts[k]);
      assert admin.Some?;
      var j :| 0 <= j < |admins| && admins[j] == admin.value;
      SeededEmailsDistinct(j, k);
      assert found.value.admin == admin.value;
      assert found.value.permissions == SeededPermissions()[k];
      forall i | 0 <= i < |accounts| && accounts[i].admin == admin.value
        ensures accounts[i] == found.value
      {
        SeededEmailsDistinct(i, k);
      }
    }
  }

  lemma SeededEmailsDistinct(i: nat, j: nat)
    requires i < |SeededAdmins()| && j < |SeededAdmins()|
    requires SeededAdmins()[i].email == SeededAdmins()[j].email
    ensures i == j
  {
  }

  /** `department.charAt(0).toUpperCase() + department.slice(1)`, for ASCII letters. */
  function Capitalize(d: string): (r: string)
    ensures |r| == |d|
    ensures |d| > 0 ==> r[1..] == d[1..] && ('a' <= d[0] <= 'z' ==> r[0] as int == d[0] as int - 32)
  {
    if d == [] then []
    else [if 'a' <= d[0] <= 'z' then (d[0] as int - 32) as char else d[0]] + d[1..]
  }

  /** `mockData.dashboard.departments[department]`, its scalar figures. */
  function DepartmentMetrics(name: string): (r: Option<seq<Metric>>)
    ensures r.Some? <==> name in {"sales", "marketing", "support", "accounting"}
    ensures r.Some? ==> |r.value| >= 1 && r.value[0].name == "team_size"
  {
    if name == "sales" then Some([Metric("team_size", 8.0), Metric("active_leads", 156.0), Metric("conversions_today", 12.0), Metric("target_achievement", 85.5)])
    else if name == "marketing" then Some([Metric("team_size", 5.0), Metric("campaigns_active", 7.0), Metric("reach_today", 25000.0), Metric("engagement_rate", 4.2)])
    else if name == "support" then Some([Metric("team_size", 6.0), Metric("tickets_open", 23.0), Metric("tickets_resolved_today", 18.0), Metric("avg_resolution_time", 3.2), Metric("satisfaction_rate", 94.5)])
    else if name == "accounting" then Some([Metric("team_size", 3.0), Metric("pending_invoices", 45.0), Metric("processed_today", 67.0), Metric("outstanding_amount", 450000.0), Metric("collection_rate", 92.5)])
    else None
  }

  /** The departments both admin servers know, under the same display names. */
  lemma DepartmentNamesAgree(d: string)
    requires d in {"sales", "marketing", "support", "accounting"}
    ensures DepartmentMetrics(d).Some? && MinimalServer.DepartmentOf(d).Some?
    ensures MinimalServer.DepartmentOf(d).value.department == Capitalize(d)
  {
  }

  /**
   * The dashboard of one department: 200 with its capitalised name and
   * figures when it is one of the four, a 404 failure otherwise.
   */
  function DepartmentReply(d: string): (r: Reply)
    ensures r.Send?
    ensures r.status == 200 <==> d in {"sales", "marketing", "support", "accounting"}
    ensures r.status == 200 ==> r.body == DepartmentOk(Capitalize(d), DepartmentMetrics(d).value)
    ensures r.status != 200 ==> r == Send(404, Failure("Department not found", None))
  {
    match DepartmentMetrics(d)
    case Some(m) => Send(200, DepartmentOk(Capitalize(d), m))
    case None => Send(404, Failure("Department not found", None))
  }

  function AvailableEndpoints(): seq<string> {
    [ "GET /api/health",
      "POST /api/admin/auth/login",
      "GET /api/admin/dashboard/stats",
      "GET /api/admin/departments/{department}/dashboard",
      "GET /api/admin/analytics" ]
  }

  /**
   * A request that is neither OPTIONS nor a static page: health, login
   * (POST only), stats, department dashboards, analytics, and otherwise a
   * 404 listing the available endpoints.
   */
  function ApiRoute(verb: string, pathname: string, body: LoginBody, now: nat): (r: Reply)
    ensures r.Send?
    ensures pathname == "/api/health" ==> r.status == 200 && r.body.Health? && r.body.status == "OK" && r.body.timestamp == now
    ensures pathname == "/api/admin/auth/login" && verb == "POST" ==> r == Login(body, now)
    ensures pathname == "/api/admin/dashboard/stats" ==> r == Send(200, Stats)
    ensures pathname == "/api/admin/analytics" ==> r == Send(200, Analytics("7d"))
    ensures StartsWith(pathname, "/api/admin/departments/") ==> r == DepartmentReply(DepartmentSegment(pathname))
    ensures pathname !in {"/api/health", "/api/admin/dashboard/stats", "/api/admin/analytics"}
         && !(pathname == "/api/admin/auth/login" && verb == "POST")
         && !StartsWith(pathname, "/api/admin/departments/")
         ==> r == Send(404, EndpointNotFound("Endpoint not found", AvailableEndpoints()))
  {
    DepartmentsPathIsNoOtherRoute(pathname);
    if pathname == "/api/health" then
      Send(200, Health("OK", "DFashion Admin Backend is running!", now, "1.0.0",
                       ["Admin Dashboard", "Role-Based Access", "Department Management"]))
    else if pathname == "/api/admin/auth/login" && verb == "POST" then Login(body, now)
    else if pathname == "/api/admin/dashboard/stats" then Send(200, Stats)
    else if StartsWith(pathname, "/api/admin/departments/") then
      DepartmentReply(DepartmentSegment(pathname))
    else if pathname == "/api/admin/analytics" then Send(200, Analytics("7d"))
    else Send(404, EndpointNotFound("Endpoint not found", AvailableEndpoints()))
  }

  /**
   * One request: OPTIONS answers 200 with nothing, a static page is served
   * as a file, and every other request goes to the API routes.
   */
  function Route(verb: string, pathname: string, body: LoginBody, now: nat): (r: Reply)
    ensures verb == "OPTIONS" ==> r == Send(200, Empty)
    ensures verb != "OPTIONS" ==> (r.ServeFile? <==> StaticFile(pathname).File?)
    ensures verb != "OPTIONS" && StaticFile(pathname).NoFile? ==> r == ApiRoute(verb, pathname, body, now)
  {
    if verb == "OPTIONS" then Send(200, Empty)
    else match StaticFile(pathname)
      case File(name) => ServeFile(name)
      case NoFile => ApiRoute(verb, pathname, body, now)
  }

  /**
   * Where the two admin servers part: the dashboard of an unknown department
   * is a 404 failure here and a 200 success carrying an error in the other.
   */
  lemma UnknownDepartmentDiffers(verb: string, d: string, body: LoginBody, now: nat)
    requires verb != "OPTIONS" && '/' !in d
    requires d !in {"sales", "marketing", "support", "accounting"}
    ensures Route(verb, "/api/admin/departments/" + d + "/dashboard", body, now)
         == Send(404, Failure("Department not found", None))
    ensures MinimalServer.Route(verb, "/api/admin/departments/" + d + "/dashboard", body, now).status == 200
  {
    var path := "/api/admin/departments/" + d + "/dashboard";
    DepartmentSegmentOf(d, "/dashboard");
    assert path[2] == 'p' && path[5] == 'a' && path[11] == 'd' && path[12] == 'e';
    MinimalServer.UnknownDepartmentAnswersOk(verb, d, body, now);
  }
}

=== FILE: stories_grid.dfy ===
/**
 * frontend/src/app/features/stories/stories-grid.component.ts: the grid of
 * story groups. Each card previews the group's first story, flags groups
 * that hold a video, and labels the first story's age.
 */
module StoriesGrid {
  import opened Wrappers
  import Lists

  datatype MediaKind = Image | Video
  datatype Media = Media(kind: MediaKind, url: string, thumbnail: Option<string>)
  datatype GridStory = GridStory(id: string, media: Media, createdAt: int)
  datatype StoryGroup = StoryGroup(userId: string, stories: seq<GridStory>)

  const DefaultStoryImage := "assets/images/default-story.svg"

  /** `thumbnail || 'assets/images/default-story.svg'`: an absent or empty thumbnail falls back. */
  function ThumbnailOr(thumbnail: Option<string>): (r: string)
    ensures thumbnail.Some? && thumbnail.value != "" ==> r == thumbnail.value
    ensures thumbnail.None? || thumbnail.value == "" ==> r == DefaultStoryImage
    ensures r != ""
  {
    if thumbnail.Some? && thumbnail.value != "" then thumbnail.value else DefaultStoryImage
  }

  /** `getStoryThumbnail`: a video shows its thumbnail or the default picture, an image itself. */
  function StoryThumbnail(story: GridStory): (r: string)
    ensures story.media.kind == Image ==> r == story.media.url
    ensures story.media.kind == Video ==> r == ThumbnailOr(story.media.thumbnail)
  {
    if story.media.kind == Video then ThumbnailOr(story.media.thumbnail) else story.media.url
  }

  /**
   * `getPreviewImage`: the same choice made on `stories[0]`; a group without
   * stories makes the lookup throw (None).
   */
  function PreviewImage(group: StoryGroup): (r: Option<string>)
    ensures r.None? <==> group.stories == []
  {
    if group.stories == [] then None
    else
      var latest := group.stories[0];
      Some(if latest.media.kind == Video then ThumbnailOr(latest.media.thumbnail) else latest.media.url)
  }

  /** The preview of a group is the thumbnail of its first story. */
  lemma PreviewIsFirstThumbnail(group: StoryGroup)
    requires group.stories != []
    ensures PreviewImage(group) == Some(StoryThumbnail(group.stories[0]))
  {
  }

  function IsVideo(): GridStory -> bool {
    (s: GridStory) => s.media.kind == Video
  }

  /** `hasVideo`: some story of the group is a video. */
  function HasVideo(group: StoryGroup): (r: bool)
    ensures r <==> exists i :: 0 <= i < |group.stories| && group.stories[i].media.kind == Video
  {
    Lists.Any(group.stories, IsVideo())
  }

  /** A group whose first story is a video is flagged as holding a video. */
  lemma VideoInFirstStoryShowsInFlag(group: StoryGroup)
    requires group.stories != [] && group.stories[0].media.kind == Video
    ensures HasVideo(group)
  {
    assert IsVideo()(group.stories[0]);
  }
}

=== FILE: stories_routes.dfy ===
/**
 * backend/routes/stories.js: listing active stories grouped by author, and
 * the view, like, share and delete operations on one story document.
 */
module StoriesRoutes {
  import opened Wrappers
  import Lists
  import Paging
  import Grouping

  datatype StoryDoc = StoryDoc(
    id: string, userId: string, isActive: bool, expiresAt: int,
    viewers: seq<string>, likes: seq<string>, shares: seq<string>,
    views: int, likeCount: int, shareCount: int, allowSharing: bool)

  /** `parseInt(req.query.page) || 1` and `parseInt(req.query.limit) || 20`. */
  function ListPage(page: Option<int>, limit: Option<int>): (r: (int, int, int))
    ensures r.0 == Paging.OrDefault(page, 1) && r.1 == Paging.OrDefault(limit, 20)
    ensures r.2 == Paging.Skip(r.0, r.1)
    ensures page.None? && limit.None? ==> r == (1, 20, 0)
  {
    var p := Paging.OrDefault(page, 1);
    var l := Paging.OrDefault(limit, 20);
    (p, l, Paging.Skip(p, l))
  }

  /** The listing query: active stories that expire strictly after now. */
  function ActiveAt(now: int): StoryDoc -> bool {
    (s: StoryDoc) => s.isActive && s.expiresAt > now
  }

  /**
   * The stories the listing query selects, in store order (the `createdAt`
   * sort and the skip/limit window are applied by the database).
   */
  function ActiveStories(stories: seq<StoryDoc>, now: int): (r: seq<StoryDoc>)
    ensures forall i :: 0 <= i < |r| ==> r[i].isActive && r[i].expiresAt > now
    ensures forall s :: s in r <==> s in stories && s.isActive && s.expiresAt > now
  {
    assert forall s :: s in Lists.Filter(stories, ActiveAt(now)) <==> s in stories && ActiveAt(now)(s) by {
      forall s ensures s in Lists.Filter(stories, ActiveAt(now)) <==> s in stories && ActiveAt(now)(s) {
        Lists.FilterMember(stories, ActiveAt(now), s);
      }
    }
    Lists.Filter(stories, ActiveAt(now))
  }

  function AuthorOf(): StoryDoc -> string {
    (s: StoryDoc) => s.userId
  }

  /**
   * The `forEach` that fills `groupedStories`, then `Object.values`: one group
   * per author in first-seen order, each holding exactly that author's
   * stories in their listed order.
   */
  method GroupByUser(stories: seq<StoryDoc>) returns (groups: seq<Grouping.Bucket<StoryDoc>>)
    ensures |groups| == |Grouping.KeysInOrder(stories, AuthorOf())|
    ensures forall i :: 0 <= i < |groups| ==> groups[i].key == Grouping.KeysInOrder(stories, AuthorOf())[i]
    ensures forall i :: 0 <= i < |groups| ==>
      groups[i].items == Lists.Filter(stories, Grouping.KeyIs(AuthorOf(), groups[i].key))
  {
    groups := Grouping.GroupBy(stories, AuthorOf());
  }

  // ---------------------------------------------------------------------------
  // One story document

  /** A view by `user`: recorded, and counted, only the first time. */
  function Viewed(s: StoryDoc, user: string): (r: StoryDoc)
    ensures user in r.viewers
    ensures user in s.viewers ==> r == s
    ensures user !in s.viewers ==> r == s.(viewers := s.viewers + [user], views := s.views + 1)
  {
    if user in s.viewers then s else s.(viewers := s.viewers + [user], views := s.views + 1)
  }

  /** Repeat views change nothing. */
  lemma ViewIdempotent(s: StoryDoc, user: string)
    ensures Viewed(Viewed(s, user), user) == Viewed(s, user)
  {
  }

  /**
   * The like toggle: the user's first like is spliced out and the counter
   * lowered, or a like is appended and the counter raised.
   */
  function LikeToggled(s: StoryDoc, user: string): (r: StoryDoc)
    ensures user in s.likes ==> |r.likes| == |s.likes| - 1 && r.likeCount == s.likeCount - 1
    ensures forall k :: 0 <= k < |s.likes| && s.likes[k] == user && user !in s.likes[..k] ==>
      r == s.(likes := s.likes[..k] + s.likes[k + 1..], likeCount := s.likeCount - 1)
    ensures user !in s.likes ==> r == s.(likes := s.likes + [user], likeCount := s.likeCount + 1)
    ensures r.viewers == s.viewers && r.shares == s.shares && r.views == s.views
  {
    match Lists.IndexWhere(s.likes, (l: string) => l == user)
    case Some(k) => s.(likes := s.likes[..k] + s.likes[k + 1..], likeCount := s.likeCount - 1)
    case None => s.(likes := s.likes + [user], likeCount := s.likeCount + 1)
  }

  /** Liking a story one had not liked and then unliking it restores the document. */
  lemma LikeTwiceRestores(s: StoryDoc, user: string)
    requires user !in s.likes
    ensures LikeToggled(LikeToggled(s, user), user) == s
  {
    var s1 := LikeToggled(s, user);
    var k := |s.likes|;
    assert s1.likes == s.likes + [user];
    assert s1.likes[k] == user;
    forall j | 0 <= j < k ensures s1.likes[j] != user {
      assert s1.likes[j] == s.likes[j];
    }
    assert Lists.IndexWhere(s1.likes, (l: string) => l == user) == Some(k);
    assert s1.likes[..k] == s.likes;
    assert s1.likes[k + 1..] == [];
  }

  datatype Reply = NotFound | Forbidden(message: string) | Done(message: string) | LikeDone(message: string, likesCount: int)

  function ShareReply(s: StoryDoc): (r: Reply)
    ensures r.Forbidden? <==> !s.allowSharing
  {
    if !s.allowSharing then Forbidden("Sharing not allowed for this story") else Done("Story shared successfully")
  }

  /** The story collection, as the handlers load, change and save documents. */
  class StoryBoard {
    var stories: map<string, StoryDoc>

    constructor(docs: map<string, StoryDoc>)
      ensures stories == docs
    {
      stories := docs;
    }

    /** POST /:id/view. */
    method View(id: string, user: string) returns (r: Reply)
      modifies this
      ensures id !in old(stories) ==> r == NotFound && stories == old(stories)
      ensures id in old(stories) ==> r == Done("Story viewed") && stories == old(stories)[id := Viewed(old(stories)[id], user)]
    {
      if id !in stories {
        return NotFound;
      }
      var s := stories[id];
      if user !in s.viewers {
        stories := stories[id := s.(viewers := s.viewers + [user], views := s.views + 1)];
      }
      r := Done("Story viewed");
    }

    /** POST /:id/like; the reply counts the likes after the toggle. */
    method Like(id: string, user: string) returns (r: Reply)
      modifies this
      ensures id !in old(stories) ==> r == NotFound && stories == old(stories)
      ensures id in old(stories) ==>
        stories == old(stories)[id := LikeToggled(old(stories)[id], user)]
        && r == LikeDone(if user in old(stories)[id].likes then "Story unliked" else "Story liked",
                         |stories[id].likes|)
    {
      if id !in stories {
        return NotFound;
      }
      var s := stories[id];
      var likeIndex := Lists.IndexWhere(s.likes, (l: string) => l == user);
      if likeIndex.Some? {
        s := s.(likes := s.likes[..likeIndex.value] + s.likes[likeIndex.value + 1..], likeCount := s.likeCount - 1);
      } else {
        s := s.(likes := s.likes + [user], likeCount := s.likeCount + 1);
      }
      stories := stories[id := s];
      r := LikeDone(if likeIndex.Some? then "Story unliked" else "Story liked", |s.likes|);
    }

    /** POST /:id/share: refused when the story does not allow sharing. */
    method Share(id: string, user: string) returns (r: Reply)
      modifies this
      ensures id !in old(stories) ==> r == NotFound && stories == old(stories)
      ensures id in old(stories) ==> r == ShareReply(old(stories)[id])
      ensures id in old(stories) && !old(stories)[id].allowSharing ==> stories == old(stories)
      ensures id in old(stories) && old(stories)[id].allowSharing ==>
        var s := old(stories)[id];
        stories == old(stories)[id := s.(shares := s.shares + [user], shareCount := s.shareCount + 1)]
    {
      if id !in stories {
        return NotFound;
      }
      var s := stories[id];
      if !s.allowSharing {
        return Forbidden("Sharing not allowed for this story");
      }
      stories := stories[id := s.(shares := s.shares + [user], shareCount := s.shareCount + 1)];
      r := Done("Story shared successfully");
    }

    /** DELETE /:id: only the author may delete. */
    method Delete(id: string, user: string) returns (r: Reply)
      modifies this
      ensures id !in old(stories) ==> r == NotFound && stories == old(stories)
      ensures id in old(stories) && old(stories)[id].userId != user ==>
        r == Forbidden("Not authorized to delete this story") && stories == old(stories)
      ensures id in old(stories) && old(stories)[id].userId == user ==>
        r == Done("Story deleted successfully") && stories == old(stories) - {id}
    {
      if id !in stories {
        return NotFound;
      }
      if stories[id].userId != user {
        return Forbidden("Not authorized to delete this story");
      }
      stories := stories - {id};
      r := Done("Story deleted successfully");
    }
  }
}

=== FILE: stories_viewer.dfy ===
/**
 * frontend/src/app/features/stories/stories-viewer.component.ts: the
 * full-screen story player. The current index moves with next, previous
 * and jump, a timer is set for each shown story, and the progress bars
 * and thumbnails are drawn from the index alone.
 */
module StoriesViewer {
  import opened Wrappers
  import Lists

  datatype MediaKind = Image | Video

  /** `story.media`; the duration is in whole seconds. */
  datatype Media = Media(kind: MediaKind, url: string, duration: int, thumbnail: Option<string>)

  datatype ViewerStory = ViewerStory(id: string, isActive: bool, media: Media, createdAt: int)

  /** `getStoryDuration`: the video's own length, or 15 seconds for an image. */
  function StoryDuration(story: ViewerStory): (r: int)
    ensures story.media.kind == Image ==> r == 15
    ensures story.media.kind == Video ==> r == story.media.duration
  {
    if story.media.kind == Video then story.media.duration else 15
  }

  /** The delay of `startStoryTimer` in milliseconds. */
  function TimerDelay(story: ViewerStory): (r: int)
    ensures story.media.kind == Image ==> r == 15000
  {
    if story.media.kind == Video then story.media.duration * 1000 else 15000
  }

  /** The timer runs exactly as long as the story's announced duration. */
  lemma TimerMatchesDuration(story: ViewerStory)
    ensures TimerDelay(story) == StoryDuration(story) * 1000
  {
  }

  /** `getStoryThumbnail`: a video's thumbnail when it has a non-empty one, else the media URL. */
  function StoryThumbnail(story: ViewerStory): (r: string)
    ensures story.media.kind == Image ==> r == story.media.url
    ensures r != story.media.url ==> story.media.thumbnail == Some(r) && r != ""
  {
    if story.media.kind == Video && story.media.thumbnail.Some? && story.media.thumbnail.value != "" then
      story.media.thumbnail.value
    else story.media.url
  }

  /** `getProgressWidth`: full bars for the stories already seen, empty ones from the current story on. */
  function ProgressWidth(index: int, current: int): (r: int)
    ensures r == 100 <==> index < current
    ensures r == 0 <==> index >= current
  {
    if index < current then 100
    else if index > current then 0
    else 0
  }

  /** `getThumbnailProgress` draws the thumbnails with the same rule as the bars. */
  function ThumbnailProgress(index: int, current: int): (r: int)
    ensures r == ProgressWidth(index, current)
  {
    if index < current then 100
    else if index > current then 0
    else if index == current then 0
    else 0
  }

  function IsActive(): ViewerStory -> bool {
    (s: ViewerStory) => s.isActive
  }

  class Viewer {
    var stories: seq<ViewerStory>
    var currentIndex: int
    /** `currentStory`; `None` when the index points outside the list. */
    var currentStory: Option<ViewerStory>
    /** The delay of the last story timer set. */
    var timer: Option<int>
    /** Whether `closeStories` has been asked to leave the viewer. */
    var closed: bool

    /** The index points into the list and `currentStory` is the story there. */
    predicate Valid()
      reads this
    {
      0 <= currentIndex < |stories| && currentStory == Some(stories[currentIndex])
    }

    /** The viewer opened at `requested`, the `index` query parameter (0 by default). */
    constructor(requested: int)
      ensures stories == [] && currentIndex == requested && currentStory.None? && timer.None? && !closed
    {
      stories := [];
      currentIndex := requested;
      currentStory := None;
      timer := None;
      closed := false;
    }

    /**
     * `startStoryTimer`: the old timer is cleared and the current story's is
     * set. With no current story the component clears the timer and then
     * throws on `currentStory.media`. `Load` reaches that state when the
     * requested index is negative, and so do the moves between stories from
     * a negative index, since no story sits at a negative index;
     * the model stops after clearing, and the throw itself is not modelled.
     */
    method StartStoryTimer()
      modifies this
      ensures timer == (if currentStory.Some? then Some(TimerDelay(currentStory.value)) else None)
      ensures stories == old(stories) && currentIndex == old(currentIndex)
      ensures currentStory == old(currentStory) && closed == old(closed)
    {
      if currentStory.Some? {
        timer := Some(TimerDelay(currentStory.value));
      } else {
        timer := None;
      }
    }

    /**
     * `loadStories` after a successful reply: only active stories are kept;
     * with at least one, the index becomes min(requested, length - 1) and
     * that story is shown.
     */
    method Load(fetched: seq<ViewerStory>)
      modifies this
      ensures stories == Lists.Filter(fetched, IsActive())
      ensures stories == [] ==> currentIndex == old(currentIndex) && currentStory == old(currentStory)
      ensures stories != [] ==> currentIndex == Lists.Min(old(currentIndex), |stories| - 1)
      ensures stories != [] && old(currentIndex) >= 0 ==> Valid()
      ensures closed == old(closed)
    {
      stories := Lists.Filter(fetched, IsActive());
      if |stories| > 0 {
        var start := Lists.Min(currentIndex, |stories| - 1);
        currentIndex := start;
        currentStory := if start >= 0 then Some(stories[start]) else None;
        StartStoryTimer();
      }
    }

    /** `nextStory`: forward while there is a later story, otherwise close without moving. */
    method NextStory()
      modifies this
      ensures old(currentIndex) < |stories| - 1 ==> currentIndex == old(currentIndex) + 1 && closed == old(closed)
      ensures old(currentIndex) >= |stories| - 1 ==>
        currentIndex == old(currentIndex) && currentStory == old(currentStory) && closed
      ensures old(Valid()) ==> Valid()
      ensures stories == old(stories)
    {
      if currentIndex < |stories| - 1 {
        currentIndex := currentIndex + 1;
        currentStory := if currentIndex >= 0 then Some(stories[currentIndex]) else None;
        StartStoryTimer();
      } else {
        closed := true;
      }
    }

    /** `previousStory`: back one story only above the first. */
    method PreviousStory()
      modifies this
      ensures old(currentIndex) > 0 ==> currentIndex == old(currentIndex) - 1
      ensures old(currentIndex) <= 0 ==> currentIndex == old(currentIndex) && currentStory == old(currentStory)
      ensures old(Valid()) ==> Valid()
      ensures stories == old(stories) && closed == old(closed)
    {
      if currentIndex > 0 {
        currentIndex := currentIndex - 1;
        currentStory := if currentIndex < |stories| then Some(stories[currentIndex]) else None;
        StartStoryTimer();
      }
    }

    /** `jumpToStoryIndex`: moves only to an in-range index other than the current one. */
    method JumpToStoryIndex(index: int)
      modifies this
      ensures 0 <= index < |stories| && index != old(currentIndex) ==>
        currentIndex == index && currentStory == Some(stories[index]) && timer == Some(TimerDelay(stories[index]))
      ensures !(0 <= index < |stories| && index != old(currentIndex)) ==>
        currentIndex == old(currentIndex) && currentStory == old(currentStory) && timer == old(timer)
      ensures old(Valid()) ==> Valid()
      ensures stories == old(stories) && closed == old(closed)
    {
      if 0 <= index < |stories| && index != currentIndex {
        currentIndex := index;
        currentStory := Some(stories[index]);
        StartStoryTimer();
      }
    }

    /** `jumpToStory`: moves to the first story with that id, if any. */
    method JumpToStory(storyId: string)
      modifies this
      ensures (forall i :: 0 <= i < |stories| ==> stories[i].id != storyId) ==>
        currentIndex == old(currentIndex) && currentStory == old(currentStory)
      ensures (exists i :: 0 <= i < |stories| && stories[i].id == storyId) ==>
        Valid() && currentStory.value.id == storyId
        && forall j :: 0 <= j < currentIndex ==> stories[j].id != storyId
      ensures stories == old(stories) && closed == old(closed)
    {
      var k := Lists.IndexWhere(stories, (s: ViewerStory) => s.id == storyId);
      if k.Some? {
        currentIndex := k.value;
        currentStory := Some(stories[k.value]);
        StartStoryTimer();
      }
    }
  }
}

=== FILE: story_viewer.dfy ===
/**
 * frontend/src/app/features/story/story-viewer/story-viewer.component.ts:
 * the per-user story player. Loaded stories get usable media first, the
 * index moves with next and previous, and image stories run a progress
 * counter from 0 while videos drive their own.
 */
module StoryViewer {
  import opened Wrappers
  import opened Text
  import Lists
  import MediaService

  datatype MediaKind = Image | Video

  /** `story.media`; its URLs are server text or the inline story placeholder. */
  datatype StoryMedia = StoryMedia(kind: MediaKind, url: MediaService.Image, thumbnail: Option<MediaService.Image>, duration: int)

  datatype ViewStory = ViewStory(id: string, media: Option<StoryMedia>, createdAt: int)

  /** `isBrokenMediaUrl`. */
  function IsBrokenMediaUrl(url: string): (r: bool)
    ensures r <==> Contains(url, "/uploads/") || Contains(url, "sample-videos.com") || Contains(url, "localhost")
  {
    Contains(url, "/uploads/") || Contains(url, "sample-videos.com") || Contains(url, "localhost")
  }

  lemma UploadMarkers()
    ensures Contains("/uploads/stories/images/", "/uploads/") && Contains("/uploads/stories/videos/", "/uploads/")
    ensures Contains("localhost:4200/assets/", "localhost")
  {
    assert StartsWith("/uploads/stories/images/", "/uploads/");
    StartsWithContains("/uploads/stories/images/", "/uploads/");
    assert StartsWith("/uploads/stories/videos/", "/uploads/");
    StartsWithContains("/uploads/stories/videos/", "/uploads/");
    assert StartsWith("localhost:4200/assets/", "localhost");
    StartsWithContains("localhost:4200/assets/", "localhost");
  }

  /**
   * The viewer's broken test is coarser than the media service's: every
   * pattern of the service except `file://` is caught by one of its three
   * markers.
   */
  lemma BrokenMarkersCoverServicePatterns(url: string)
    requires MediaService.IsBrokenUrl(url) && !Contains(url, "file://")
    ensures IsBrokenMediaUrl(url)
  {
    var p := MediaService.BrokenPatterns();
    var k :| 0 <= k < |p| && MediaService.In(url)(p[k]);
    UploadMarkers();
    if k == 0 {
      ContainsTransitive(url, "/uploads/stories/images/", "/uploads/");
    } else if k == 1 {
      ContainsTransitive(url, "/uploads/stories/videos/", "/uploads/");
    } else if k == 3 {
      ContainsTransitive(url, "localhost:4200/assets/", "localhost");
    }
  }

  /** The media `enhanceStoriesWithMedia` replaces: missing, with an empty URL, or broken. */
  predicate NeedsFallback(media: Option<StoryMedia>) {
    media.None? || media.value.url == MediaService.Link("")
    || (media.value.url.Link? && IsBrokenMediaUrl(media.value.url.url))
  }

  /** An image on the inline story placeholder, shown for 30 seconds. */
  function FallbackMedia(): StoryMedia {
    StoryMedia(Image, MediaService.InlinePlaceholder(MediaService.Story),
               Some(MediaService.InlinePlaceholder(MediaService.Story)), 30)
  }

  function Enhanced(story: ViewStory): ViewStory {
    if NeedsFallback(story.media) then story.(media := Some(FallbackMedia())) else story
  }

  /**
   * `enhanceStoriesWithMedia`: same length and order; a story whose media
   * needs it gets the fallback image, every other story is left as it was,
   * and afterwards no story needs a fallback, so the later repair of broken
   * image URLs never applies.
   */
  function EnhanceStoriesWithMedia(stories: seq<ViewStory>): (r: seq<ViewStory>)
    ensures |r| == |stories|
    ensures forall i :: 0 <= i < |r| ==> r[i].id == stories[i].id && r[i].createdAt == stories[i].createdAt
    ensures forall i :: 0 <= i < |r| ==> NeedsFallback(stories[i].media) ==> r[i].media == Some(FallbackMedia())
    ensures forall i :: 0 <= i < |r| ==> !NeedsFallback(stories[i].media) ==> r[i] == stories[i]
    ensures forall i :: 0 <= i < |r| ==> !NeedsFallback(r[i].media)
  {
    seq(|stories|, i requires 0 <= i < |stories| => Enhanced(stories[i]))
  }

  /** Enhancing twice is enhancing once. */
  lemma EnhanceIdempotent(stories: seq<ViewStory>)
    ensures EnhanceStoriesWithMedia(EnhanceStoriesWithMedia(stories)) == EnhanceStoriesWithMedia(stories)
  {
  }

  /** `getProgressWidth`: full before the current story, the running progress at it, empty after. */
  function ProgressWidth(index: int, current: int, progress: int): (r: int)
    ensures index < current ==> r == 100
    ensures index == current ==> r == progress
    ensures index > current ==> r == 0
  {
    if index < current then 100 else if index == current then progress else 0
  }

  /** `padStart(2, '0')` of a one- or two-digit text. */
  function PadTwo(s: string): (r: string)
    ensures |s| < 2 ==> r == ['0'] + s
    ensures |s| >= 2 ==> r == s
  {
    if |s| < 2 then ['0'] + s else s
  }

  predicate AllDigits(s: string) {
    forall i :: 0 <= i < |s| ==> '0' <= s[i] <= '9'
  }

  /** The seconds part: exactly two digits that read back as the number. */
  lemma PaddedSeconds(n: nat)
    requires n < 60
    ensures |PadTwo(NatToString(n))| == 2 && AllDigits(PadTwo(NatToString(n)))
    ensures DigitsValue(PadTwo(NatToString(n))) == n
  {
    var s := NatToString(n);
    NatToStringValue(n);
    if n >= 10 {
      assert s == NatToString(n / 10) + [DigitChar(n % 10)];
      assert NatToString(n / 10) == [DigitChar(n / 10)];
    } else {
      assert s == [DigitChar(n)];
      var p := PadTwo(s);
      assert p == ['0', DigitChar(n)];
      assert p[..1] == ['0'];
      assert DigitsValue(p[..1]) == 0 by { assert p[..1][..0] == []; }
    }
  }

  /**
   * `formatDuration`: whole minutes, a colon, and the remaining seconds as
   * exactly two digits; reading the two numbers back gives the duration.
   */
  function FormatDuration(seconds: nat): (r: string)
    ensures |r| >= 4 && r[|r| - 3] == ':'
    ensures r[..|r| - 3] == NatToString(seconds / 60)
    ensures AllDigits(r[|r| - 2..]) && DigitsValue(r[|r| - 2..]) == seconds % 60
    ensures DigitsValue(r[..|r| - 3]) * 60 + DigitsValue(r[|r| - 2..]) == seconds
  {
    var m := NatToString(seconds / 60);
    var p := PadTwo(NatToString(seconds % 60));
    NatToStringValue(seconds / 60);
    PaddedSeconds(seconds % 60);
    var r := m + [':'] + p;
    assert r[..|r| - 3] == m;
    assert r[|r| - 2..] == p;
    r
  }

  class Viewer {
    var userStories: seq<ViewStory>
    var currentStoryIndex: int
    /** `currentStory`; `None` when the index is outside the list. */
    var currentStory: Option<ViewStory>
    var progress: int
    /** Whether the 50 ms progress timer is running. */
    var ticking: bool
    /** Whether `closeStory` has navigated away. */
    var closed: bool

    predicate Valid()
      reads this
    {
      0 <= currentStoryIndex < |userStories| && currentStory == Some(userStories[currentStoryIndex])
    }

    constructor()
      ensures userStories == [] && currentStoryIndex == 0 && currentStory.None?
      ensures progress == 0 && !ticking && !closed
    {
      userStories := [];
      currentStoryIndex := 0;
      currentStory := None;
      progress := 0;
      ticking := false;
      closed := false;
    }

    /** `startStoryProgress`: progress back to 0; the timer runs unless the story is a video. */
    method StartStoryProgress()
      modifies this
      ensures progress == 0
      ensures ticking <==> !(currentStory.Some? && currentStory.value.media.Some?
                             && currentStory.value.media.value.kind == Video)
      ensures userStories == old(userStories) && currentStoryIndex == old(currentStoryIndex)
      ensures currentStory == old(currentStory) && closed == old(closed)
    {
      progress := 0;
      ticking := !(currentStory.Some? && currentStory.value.media.Some? && currentStory.value.media.value.kind == Video);
    }

    /**
     * `loadUserStories` on a reply: the stories get usable media and the
     * index becomes min(startIndex, length - 1), which is -1 for an empty
     * list.
     */
    method LoadUserStories(fetched: seq<ViewStory>, startIndex: int)
      modifies this
      ensures userStories == EnhanceStoriesWithMedia(fetched)
      ensures currentStoryIndex == Lists.Min(startIndex, |fetched| - 1)
      ensures fetched == [] && startIndex >= 0 ==> currentStoryIndex == -1 && currentStory.None?
      ensures fetched != [] && startIndex >= 0 ==> Valid()
      ensures progress == 0 && closed == old(closed)
    {
      userStories := EnhanceStoriesWithMedia(fetched);
      currentStoryIndex := Lists.Min(startIndex, |userStories| - 1);
      currentStory := if 0 <= currentStoryIndex < |userStories| then Some(userStories[currentStoryIndex]) else None;
      StartStoryProgress();
    }

    /** `nextStory`: forward while there is a later story, otherwise close. */
    method NextStory()
      modifies this
      ensures old(currentStoryIndex) < |userStories| - 1 ==>
        currentStoryIndex == old(currentStoryIndex) + 1 && progress == 0 && closed == old(closed)
      ensures old(currentStoryIndex) >= |userStories| - 1 ==>
        currentStoryIndex == old(currentStoryIndex) && currentStory == old(currentStory) && closed
      ensures old(Valid()) ==> Valid()
      ensures userStories == old(userStories)
    {
      if currentStoryIndex < |userStories| - 1 {
        currentStoryIndex := currentStoryIndex + 1;
        currentStory := if currentStoryIndex >= 0 then Some(userStories[currentStoryIndex]) else None;
        StartStoryProgress();
      } else {
        closed := true;
      }
    }

    /** `previousStory`: back one story only above the first. */
    method PreviousStory()
      modifies this
      ensures old(currentStoryIndex) > 0 ==> currentStoryIndex == old(currentStoryIndex) - 1 && progress == 0
      ensures old(currentStoryIndex) <= 0 ==>
        currentStoryIndex == old(currentStoryIndex) && currentStory == old(currentStory) && progress == old(progress)
      ensures old(Valid()) ==> Valid()
      ensures userStories == old(userStories) && closed == old(closed)
    {
      if currentStoryIndex > 0 {
        currentStoryIndex := currentStoryIndex - 1;
        currentStory := if currentStoryIndex < |userStories| then Some(userStories[currentStoryIndex]) else None;
        StartStoryProgress();
      }
    }
  }
}

=== FILE: text.dfy ===
/**
 * String helpers with JavaScript/Python semantics, used by every module that
 * matches paths, e-mail addresses and media URLs. Strings are `seq<char>`;
 * case folding is ASCII only.
 */
module Text {

  predicate StartsWith(s: string, p: string) {
    |p| <= |s| && s[..|p|] == p
  }

  predicate EndsWith(s: string, p: string) {
    |p| <= |s| && s[|s| - |p|..] == p
  }

  /** `p` occurs in `s` starting at index `i`. */
  predicate OccursAt(s: string, p: string, i: int) {
    0 <= i <= |s| - |p| && s[i..i + |p|] == p
  }

  /** `s.includes(p)` / Python `p in s`. */
  predicate Contains(s: string, p: string) {
    exists i :: 0 <= i <= |s| - |p| && OccursAt(s, p, i)
  }

  lemma StartsWithContains(s: string, p: string)
    requires StartsWith(s, p)
    ensures Contains(s, p)
  {
    assert OccursAt(s, p, 0);
  }

  lemma EndsWithContains(s: string, p: string)
    requires EndsWith(s, p)
    ensures Contains(s, p)
  {
    assert OccursAt(s, p, |s| - |p|);
  }

  /** An occurrence inside a prefix or suffix of `s` is an occurrence in `s`. */
  lemma ContainsInSuffix(s: string, k: nat, p: string)
    requires k <= |s| && Contains(s[k..], p)
    ensures Contains(s, p)
  {
    var i :| 0 <= i <= |s[k..]| - |p| && OccursAt(s[k..], p, i);
    assert s[k..][i..i + |p|] == s[k + i..k + i + |p|];
    assert OccursAt(s, p, k + i);
  }

  lemma ContainsInPrefix(s: string, k: nat, p: string)
    requires k <= |s| && Contains(s[..k], p)
    ensures Contains(s, p)
  {
    var i :| 0 <= i <= |s[..k]| - |p| && OccursAt(s[..k], p, i);
    assert s[..k][i..i + |p|] == s[i..i + |p|];
    assert OccursAt(s, p, i);
  }

  // ---------------------------------------------------------------------------
  // Splitting on a separator (`s.split(sep)` in both languages)

  /**
   * Left-to-right split on a non-empty separator. There is always at least one
   * piece, and gluing the pieces back with the separator gives `s` again.
   */
  function Split(s: string, sep: string): (r: seq<string>)
    requires |sep| > 0
    ensures |r| >= 1
    ensures Join(r, sep) == s
    decreases |s|
  {
    if |s| < |sep| then [s]
    else if s[..|sep|] == sep then
      assert s == sep + s[|sep|..];
      [""] + Split(s[|sep|..], sep)
    else
      var t := Split(s[1..], sep);
      assert s == [s[0]] + Join(t, sep);
      [[s[0]] + t[0]] + t[1..]
  }

  function Join(pieces: seq<string>, sep: string): string
    requires |pieces| >= 1
  {
    if |pieces| == 1 then pieces[0] else pieces[0] + sep + Join(pieces[1..], sep)
  }

  /** Without the separator at the head, the first character joins the first piece. */
  lemma SplitConsHead(s: string, sep: string)
    requires |sep| > 0 && |s| >= |sep| && s[..|sep|] != sep
    ensures Split(s, sep) == [[s[0]] + Split(s[1..], sep)[0]] + Split(s[1..], sep)[1..]
  {
  }

  /** With the separator at the head, the first piece is empty. */
  lemma SplitSepHead(s: string, c: char)
    requires |s| >= 1 && s[0] == c
    ensures Split(s, [c]) == [""] + Split(s[1..], [c])
  {
    assert s[..1] == [c];
  }

  /** A text without the separator character splits into one piece. */
  lemma {:induction false} SplitNoSeparator(s: string, c: char)
    requires c !in s
    ensures Split(s, [c]) == [s]
    decreases |s|
  {
    if |s| >= 1 {
      assert s[..1] != [c] by { assert s[..1][0] == s[0]; }
      SplitNoSeparator(s[1..], c);
      assert [s[0]] + s[1..] == s;
    }
  }

  /** A leading piece without the separator character stays one piece. */
  lemma {:induction false} SplitAppend(a: string, c: char, b: string)
    requires c !in a
    ensures Split(a + [c] + b, [c]) == [a] + Split(b, [c])
    decreases |a|
  {
    var s := a + [c] + b;
    if |a| == 0 {
      assert s[..1] == [c];
      assert s[1..] == b;
    } else {
      assert s[..1] != [c] by { assert s[..1][0] == a[0]; }
      assert s[1..] == a[1..] + [c] + b;
      SplitAppend(a[1..], c, b);
      assert [a[0]] + a[1..] == a;
    }
  }

  /** The number of times character `c` occurs in `s`. */
  function Count(s: string, c: char): (n: nat)
    ensures n <= |s|
  {
    if |s| == 0 then 0 else (if s[0] == c then 1 else 0) + Count(s[1..], c)
  }

  /** Splitting on one character gives one more piece than it has occurrences. */
  lemma {:induction false} SplitPieces(s: string, c: char)
    ensures |Split(s, [c])| == Count(s, c) + 1
    decreases |s|
  {
    if |s| >= 1 {
      SplitPieces(s[1..], c);
      if s[0] == c {
        assert s[..1] == [c];
      } else {
        assert s[..1] != [c] by { assert s[..1][0] == s[0]; }
      }
    }
  }

  /** The last piece of `s.split(c)`. */
  function LastPiece(s: string, c: char): string {
    var r := Split(s, [c]);
    r[|r| - 1]
  }

  /** The last piece of a split has no separator and is what follows the last one. */
  lemma {:induction false} SplitLast(s: string, c: char)
    ensures var l := LastPiece(s, c);
      c !in l && |l| <= |s| && l == s[|s| - |l|..] && (|l| < |s| ==> s[|s| - |l| - 1] == c)
    decreases |s|
  {
    if |s| >= 1 {
      var t := Split(s[1..], [c]);
      var lt := LastPiece(s[1..], c);
      var l := LastPiece(s, c);
      SplitLast(s[1..], c);
      if s[0] != c {
        assert s[..1] != [c] by { assert s[..1][0] == s[0]; }
        SplitConsHead(s, [c]);
      } else {
        SplitSepHead(s, c);
      }
      if s[0] != c && |t| == 1 {
        assert lt == Join(t, [c]) == s[1..];
        assert l == [s[0]] + s[1..] == s;
      } else {
        assert l == lt;
        assert s[|s| - |l|..] == s[1..][|s| - 1 - |lt|..];
        if |l| < |s| - 1 {
          assert s[|s| - |l| - 1] == s[1..][|s| - 1 - |lt| - 1];
        }
      }
    }
  }

  /** When a text ends with a suffix free of `c`, so does its last piece. */
  lemma SplitLastEndsWith(s: string, c: char, suffix: string)
    requires EndsWith(s, suffix) && c !in suffix
    ensures EndsWith(Split(s, [c])[|Split(s, [c])| - 1], suffix)
  {
    var l := Split(s, [c])[|Split(s, [c])| - 1];
    SplitLast(s, c);
    var n := |suffix|;
    assert l[|l| - n..] == s[|s| - n..];
  }

  /** One separator followed by a word without it adds one to the count. */
  lemma CountSeparatedWord(w: string, rest: string, c: char)
    requires c !in w
    ensures Count([c] + w + rest, c) == 1 + Count(rest, c)
  {
    CountAppend([c] + w, rest, c);
    CountAppend([c], w, c);
    CountAbsent(w, c);
  }

  /** A text containing `p` splits into more pieces than `p` has separators. */
  lemma SplitAtLeast(s: string, p: string, c: char)
    requires Contains(s, p)
    ensures |Split(s, [c])| >= Count(p, c) + 1
  {
    CountContains(s, p, c);
    SplitPieces(s, c);
  }

  lemma {:induction false} CountAppend(a: string, b: string, c: char)
    ensures Count(a + b, c) == Count(a, c) + Count(b, c)
    decreases |a|
  {
    if |a| >= 1 {
      assert (a + b)[1..] == a[1..] + b;
      CountAppend(a[1..], b, c);
    } else {
      assert a + b == b;
    }
  }

  lemma {:induction false} CountAbsent(s: string, c: char)
    requires c !in s
    ensures Count(s, c) == 0
    decreases |s|
  {
    if |s| > 0 {
      assert forall x :: x in s[1..] ==> x in s;
      CountAbsent(s[1..], c);
    }
  }

  /** Every occurrence of a word adds its own occurrences of `c` to the count. */
  lemma CountContains(s: string, p: string, c: char)
    requires Contains(s, p)
    ensures Count(s, c) >= Count(p, c)
  {
    var i :| 0 <= i <= |s| - |p| && OccursAt(s, p, i);
    assert s == s[..i] + (p + s[i + |p|..]);
    CountAppend(s[..i], p + s[i + |p|..], c);
    CountAppend(p, s[i + |p|..], c);
  }

  // ---------------------------------------------------------------------------
  // Case, whitespace, replacement

  /** A character outside the Basic Multilingual Plane, which UTF-16 writes as a surrogate pair. */
  predicate Astral(c: char) {
    c as int > 0xFFFF
  }

  /**
   * JavaScript's `length`: the number of UTF-16 code units, so every astral
   * character counts twice. It equals the character count exactly when no
   * character is astral.
   */
  function Utf16Length(s: string): (r: nat)
    ensures |s| <= r <= 2 * |s|
    ensures r == |s| <==> forall i :: 0 <= i < |s| ==> !Astral(s[i])
  {
    if s == [] then 0
    else
      var rest := Utf16Length(s[1..]);
      assert forall i :: 1 <= i < |s| ==> s[i] == s[1..][i - 1];
      (if Astral(s[0]) then 2 else 1) + rest
  }

  function LowerChar(c: char): char {
    if 'A' <= c <= 'Z' then (c as int + 32) as char else c
  }

  /** `s.toLowerCase()` on ASCII letters. */
  function ToLower(s: string): (r: string)
    ensures |r| == |s|
    ensures forall i :: 0 <= i < |s| ==> r[i] == LowerChar(s[i])
  {
    seq(|s|, i requires 0 <= i < |s| => LowerChar(s[i]))
  }

  /**
   * The characters `String.prototype.trim` and `parseInt` skip: ECMAScript's
   * WhiteSpace (tab, vertical tab, form feed, space, no-break space, byte
   * order mark and the space separators of category Zs) and LineTerminator.
   */
  predicate IsSpace(c: char) {
    c == '\t' || c == '\U{000B}' || c == '\U{000C}' || c == ' ' || c == '\U{00A0}' || c == '\U{FEFF}'
    || c == '\U{1680}' || ('\U{2000}' <= c <= '\U{200A}') || c == '\U{202F}' || c == '\U{205F}' || c == '\U{3000}'
    || c == '\n' || c == '\r' || c == '\U{2028}' || c == '\U{2029}'
  }

  function TrimStart(s: string): (r: string)
    ensures |r| <= |s| && r == s[|s| - |r|..]
    ensures r == [] || !IsSpace(r[0])
    ensures forall i :: 0 <= i < |s| - |r| ==> IsSpace(s[i])
  {
    if |s| > 0 && IsSpace(s[0]) then TrimStart(s[1..]) else s
  }

  function TrimEnd(s: string): (r: string)
    ensures |r| <= |s| && r == s[..|r|]
    ensures r == [] || !IsSpace(r[|r| - 1])
    ensures forall i :: |r| <= i < |s| ==> IsSpace(s[i])
  {
    if |s| > 0 && IsSpace(s[|s| - 1]) then TrimEnd(s[..|s| - 1]) else s
  }

  /** `s.trim()`: the text without leading and trailing whitespace. */
  function Trim(s: string): (r: string)
    ensures r == [] || (!IsSpace(r[0]) && !IsSpace(r[|r| - 1]))
    ensures r == [] <==> forall i :: 0 <= i < |s| ==> IsSpace(s[i])
  {
    TrimEnd(TrimStart(s))
  }

  /** Replaces the first occurrence of character `c` by `d` (`s.replace('.', ' ')`). */
  function ReplaceFirst(s: string, c: char, d: char): (r: string)
    ensures |r| == |s|
    ensures c !in s ==> r == s
  {
    if |s| == 0 then s
    else if s[0] == c then [d] + s[1..]
    else [s[0]] + ReplaceFirst(s[1..], c, d)
  }

  /** The first occurrence is replaced and everything else stays as it was. */
  lemma {:induction false} ReplaceFirstAt(s: string, c: char, d: char, k: nat)
    requires k < |s| && s[k] == c && c !in s[..k]
    ensures ReplaceFirst(s, c, d) == s[..k] + [d] + s[k + 1..]
    decreases k
  {
    if k > 0 {
      assert s[1..][..k - 1] == s[..k][1..];
      ReplaceFirstAt(s[1..], c, d, k - 1);
      assert s[..k] == [s[0]] + s[1..][..k - 1];
    }
  }

  /**
   * `s.replace(p, q)` with a string pattern: the first occurrence of `p` is
   * replaced by `q`; without an occurrence `s` is returned unchanged.
   */
  function ReplaceText(s: string, p: string, q: string): (r: string)
    requires |p| > 0
    ensures StartsWith(s, p) ==> r == q + s[|p|..]
    decreases |s|
  {
    if |s| < |p| then s
    else if s[..|p|] == p then q + s[|p|..]
    else [s[0]] + ReplaceText(s[1..], p, q)
  }

  lemma {:induction false} ReplaceTextAbsent(s: string, p: string, q: string)
    requires |p| > 0 && !Contains(s, p)
    ensures ReplaceText(s, p, q) == s
    decreases |s|
  {
    if |s| >= |p| {
      assert !OccursAt(s, p, 0);
      if Contains(s[1..], p) {
        ContainsInSuffix(s, 1, p);
      }
      ReplaceTextAbsent(s[1..], p, q);
    }
  }

  /** An occurrence of `q` inside an occurrence of `p` is an occurrence in `s`. */
  lemma ContainsTransitive(s: string, p: string, q: string)
    requires Contains(s, p) && Contains(p, q)
    ensures Contains(s, q)
  {
    var i :| 0 <= i <= |s| - |p| && OccursAt(s, p, i);
    var j :| 0 <= j <= |p| - |q| && OccursAt(p, q, j);
    forall k | 0 <= k < |q|
      ensures s[i + j + k] == q[k]
    {
      assert s[i..i + |p|][j + k] == p[j + k];
    }
    assert s[i + j..i + j + |q|] == q;
    assert OccursAt(s, q, i + j);
  }

  /** `s.indexOf(p)`: the first position where `p` occurs, or -1. */
  function IndexOf(s: string, p: string): (r: int)
    ensures r >= -1
    ensures r == -1 <==> !Contains(s, p)
    ensures r >= 0 ==> OccursAt(s, p, r) && forall j :: 0 <= j < r ==> !OccursAt(s, p, j)
    decreases |s|
  {
    if |s| < |p| then -1
    else if s[..|p|] == p then
      assert OccursAt(s, p, 0);
      0
    else
      var k := IndexOf(s[1..], p);
      assert forall j :: 1 <= j <= |s| - |p| ==> (OccursAt(s, p, j) <==> OccursAt(s[1..], p, j - 1)) by {
        forall j | 1 <= j <= |s| - |p|
          ensures OccursAt(s, p, j) <==> OccursAt(s[1..], p, j - 1)
        {
          assert s[1..][j - 1..j - 1 + |p|] == s[j..j + |p|];
        }
      }
      if k == -1 then
        assert forall j :: 1 <= j <= |s| - |p| ==> !OccursAt(s, p, j);
        -1
      else
        assert OccursAt(s, p, k + 1);
        k + 1
  }

  /** Occurrences in `s[1..]` are those of `s` one position later. */
  lemma OccursAtTail(s: string, sep: string, j: int)
    requires |s| > 0 && 0 <= j
    ensures OccursAt(s[1..], sep, j) <==> OccursAt(s, sep, j + 1)
  {
    if 0 <= j <= |s| - 1 - |sep| {
      assert s[1..][j..j + |sep|] == s[j + 1..j + 1 + |sep|];
    }
  }

  /** Splitting cuts at the first occurrence of the separator. */
  lemma {:induction false} SplitAtFirst(s: string, sep: string, i: nat)
    requires |sep| > 0 && OccursAt(s, sep, i)
    requires forall j :: 0 <= j < i ==> !OccursAt(s, sep, j)
    ensures Split(s, sep) == [s[..i]] + Split(s[i + |sep|..], sep)
    decreases i
  {
    if i == 0 {
      assert s[..|sep|] == sep;
    } else {
      assert !OccursAt(s, sep, 0);
      var t := s[1..];
      OccursAtTail(s, sep, i - 1);
      forall j | 0 <= j < i - 1
        ensures !OccursAt(t, sep, j)
      {
        OccursAtTail(s, sep, j);
      }
      SplitAtFirst(t, sep, i - 1);
      assert t[..i - 1] == s[1..i];
      assert t[i - 1 + |sep|..] == s[i + |sep|..];
      SplitConsHead(s, sep);
      assert [s[0]] + s[1..i] == s[..i];
    }
  }

  /**
   * `s.split(sep)[1]` when `sep` occurs: the text after the first occurrence,
   * up to the next occurrence if there is one.
   */
  function SecondPiece(s: string, sep: string): (r: string)
    requires |sep| > 0 && Contains(s, sep)
    ensures IndexOf(s, sep) >= 0
    ensures var rest := s[IndexOf(s, sep) + |sep|..];
            StartsWith(rest, r) && (r == rest || OccursAt(rest, sep, |r|))
  {
    var i := IndexOf(s, sep);
    SplitAtFirst(s, sep, i);
    FirstPiece(s[i + |sep|..], sep);
    Split(s, sep)[1]
  }

  /** The first piece of a split is the whole text or ends where the separator starts. */
  lemma FirstPiece(s: string, sep: string)
    requires |sep| > 0
    ensures var p := Split(s, sep)[0];
            StartsWith(s, p) && (p == s || OccursAt(s, sep, |p|))
  {
    var t := Split(s, sep);
    if |t| > 1 {
      assert s == t[0] + sep + Join(t[1..], sep);
      assert s[..|t[0]|] == t[0];
      assert s[|t[0]|..|t[0]| + |sep|] == sep;
    }
  }

  /** A text containing a pattern that starts with a non-space is not blank. */
  lemma ContainsNotBlank(s: string, p: string)
    requires Contains(s, p) && |p| > 0 && !IsSpace(p[0])
    ensures Trim(s) != ""
  {
    var i :| 0 <= i <= |s| - |p| && OccursAt(s, p, i);
    assert s[i..i + |p|][0] == s[i];
  }

  // ---------------------------------------------------------------------------
  // Decimal numbers (`${n}` and `String(n)`)

  function DigitChar(d: nat): char
    requires d < 10
  {
    ('0' as int + d) as char
  }

  function NatToString(n: nat): (r: string)
    ensures |r| >= 1
    ensures forall i :: 0 <= i < |r| ==> '0' <= r[i] <= '9'
    decreases n
  {
    if n < 10 then [DigitChar(n)] else NatToString(n / 10) + [DigitChar(n % 10)]
  }

  function DigitsValue(s: string): int
    requires forall i :: 0 <= i < |s| ==> '0' <= s[i] <= '9'
  {
    if |s| == 0 then 0 else 10 * DigitsValue(s[..|s| - 1]) + (s[|s| - 1] as int - '0' as int)
  }

  /** Reading back the decimal text of `n` gives `n`. */
  lemma {:induction false} NatToStringValue(n: nat)
    ensures DigitsValue(NatToString(n)) == n
    decreases n
  {
    if n >= 10 {
      NatToStringValue(n / 10);
      var s := NatToString(n);
      assert s[..|s| - 1] == NatToString(n / 10);
      assert s[|s| - 1] as int - '0' as int == n % 10;
    }
  }
}

=== FILE: time_ago.dfy ===
/**
 * The "time ago" labels of the client. Elapsed time is `now - createdAt` in
 * integer milliseconds, and every `Math.floor(ms / unit)` of the client is
 * Dafny's `/`, which rounds down for a positive divisor, also for a negative
 * elapsed time (a date in the future).
 */
module TimeAgo {
  import Text

  const MinuteMs := 60000
  const HourMs := 3600000
  const DayMs := 86400000

  /** The bucket a label is drawn from; `OnDate` is the locale date fallback. */
  datatype Ago = JustNow | MinutesAgo(minutes: nat) | HoursAgo(hours: nat) | DaysAgo(days: nat) | OnDate(at: int)

  /**
   * The hour buckets: 'now' under an hour, `${h}h` under a day and
   * `${floor(h / 24)}d` beyond, where h is the number of whole hours.
   */
  function HourBucket(createdAt: int, now: int): (a: Ago)
    ensures a == JustNow <==> now - createdAt < HourMs
    ensures a.HoursAgo? <==> HourMs <= now - createdAt < DayMs
    ensures a.DaysAgo? <==> DayMs <= now - createdAt
    ensures a.HoursAgo? ==> 1 <= a.hours < 24 && a.hours * HourMs <= now - createdAt < (a.hours + 1) * HourMs
    ensures a.DaysAgo? ==> 1 <= a.days && a.days * DayMs <= now - createdAt < (a.days + 1) * DayMs
  {
    var hours := (now - createdAt) / HourMs;
    if hours < 1 then JustNow
    else if hours < 24 then HoursAgo(hours)
    else
      var days := hours / 24;
      assert days * DayMs <= now - createdAt < (days + 1) * DayMs by {
        assert days * 24 <= hours < (days + 1) * 24;
        assert hours * HourMs <= now - createdAt < (hours + 1) * HourMs;
      }
      DaysAgo(days)
  }

  /**
   * The minute buckets: 'now', `Nm` under an hour, `Nh` under a day, `Nd`
   * under a week, and the date itself from seven days on.
   */
  function MinuteBucket(createdAt: int, now: int): (a: Ago)
    ensures a == JustNow <==> now - createdAt < MinuteMs
    ensures a.MinutesAgo? <==> MinuteMs <= now - createdAt < HourMs
    ensures a.MinutesAgo? ==> 1 <= a.minutes < 60 && a.minutes * MinuteMs <= now - createdAt < (a.minutes + 1) * MinuteMs
    ensures a.DaysAgo? ==> 1 <= a.days < 7
    ensures a.OnDate? <==> 7 * DayMs <= now - createdAt
    ensures a.OnDate? ==> a.at == createdAt
  {
    var elapsed := now - createdAt;
    var minutes := elapsed / MinuteMs;
    var hours := elapsed / HourMs;
    var days := elapsed / DayMs;
    if minutes < 1 then JustNow
    else if minutes < 60 then MinutesAgo(minutes)
    else if hours < 24 then HoursAgo(hours)
    else if days < 7 then DaysAgo(days)
    else OnDate(createdAt)
  }

  /**
   * From one hour to seven days the two bucketings agree: the minute variant
   * only adds the minute labels below an hour and the date beyond a week.
   */
  lemma MinuteBucketRefinesHourBucket(createdAt: int, now: int)
    requires HourMs <= now - createdAt < 7 * DayMs
    ensures MinuteBucket(createdAt, now) == HourBucket(createdAt, now)
  {
    var a, b := MinuteBucket(createdAt, now), HourBucket(createdAt, now);
    if a.HoursAgo? {
      assert b.HoursAgo?;
    } else {
      assert a.DaysAgo? && b.DaysAgo?;
    }
  }

  /** The text of a bucket; the locale date is not rendered here. */
  function Label(a: Ago): (r: string)
    requires !a.OnDate?
    ensures a.JustNow? ==> r == "now"
    ensures !a.JustNow? ==> |r| >= 2 && forall i :: 0 <= i < |r| - 1 ==> '0' <= r[i] <= '9'
    ensures a.MinutesAgo? ==> r[|r| - 1] == 'm' && Text.DigitsValue(r[..|r| - 1]) == a.minutes
    ensures a.HoursAgo? ==> r[|r| - 1] == 'h' && Text.DigitsValue(r[..|r| - 1]) == a.hours
    ensures a.DaysAgo? ==> r[|r| - 1] == 'd' && Text.DigitsValue(r[..|r| - 1]) == a.days
  {
    match a
    case JustNow => "now"
    case MinutesAgo(m) => Suffixed(m, 'm')
    case HoursAgo(h) => Suffixed(h, 'h')
    case DaysAgo(d) => Suffixed(d, 'd')
  }

  /** The decimal text of `n` followed by a unit letter. */
  function Suffixed(n: nat, unit: char): (r: string)
    ensures |r| >= 2 && r[|r| - 1] == unit
    ensures forall i :: 0 <= i < |r| - 1 ==> '0' <= r[i] <= '9'
    ensures Text.DigitsValue(r[..|r| - 1]) == n
  {
    var s := Text.NatToString(n);
    Text.NatToStringValue(n);
    assert (s + [unit])[..|s|] == s;
    s + [unit]
  }
}

=== FILE: users_routes.dfy ===
/**
 * backend/routes/users.js: the follow/unfollow toggle between two user
 * documents, with their id lists and their `socialStats` counters.
 */
module UsersRoutes {

  datatype Member = Member(
    id: string, following: seq<string>, followers: seq<string>,
    followingCount: int, followersCount: int)

  /**
   * The reply of POST /follow/:userId: 404 for an unknown target, 400 for
   * oneself, 500 when the signed-in user's own document is gone (reading its
   * `following` throws), otherwise the new following state.
   */
  datatype FollowReply = NotFound | SelfFollow | ServerError | Toggled(message: string, isFollowing: bool)

  /** Mongoose `array.pull(x)`: every element equal to `x` is removed. */
  function Pull(xs: seq<string>, x: string): (r: seq<string>)
    ensures x !in r
    ensures forall y :: y != x ==> (y in r <==> y in xs)
    ensures |r| <= |xs|
  {
    if xs == [] then []
    else if xs[0] == x then Pull(xs[1..], x)
    else [xs[0]] + Pull(xs[1..], x)
  }

  /** Pulling an element that was just pushed onto a list without it gives the list back. */
  lemma {:induction false} PullPushed(xs: seq<string>, x: string)
    requires x !in xs
    ensures Pull(xs + [x], x) == xs
  {
    if xs != [] {
      assert (xs + [x])[1..] == xs[1..] + [x];
      PullPushed(xs[1..], x);
    }
  }

  function FollowReplyOf(ms: map<string, Member>, current: string, target: string): (r: FollowReply)
    ensures r.NotFound? <==> target !in ms
    ensures r.SelfFollow? <==> target in ms && target == current
    ensures r.Toggled? <==> target in ms && current in ms && target != current
    ensures r.Toggled? ==> r.isFollowing == (target !in ms[current].following)
  {
    if target !in ms then NotFound
    else if target == current then SelfFollow
    else if current !in ms then ServerError
    else
      var was := target in ms[current].following;
      Toggled(if was then "Unfollowed successfully" else "Followed successfully", !was)
  }

  /**
   * The two documents after the toggle. Unfollowing pulls each id from the
   * other's list and lowers both counters by one; following pushes them and
   * raises both by one. The two counters always move together, and no other
   * document changes.
   */
  function AfterFollow(ms: map<string, Member>, current: string, target: string): (r: map<string, Member>)
    ensures r.Keys == ms.Keys
    ensures !FollowReplyOf(ms, current, target).Toggled? ==> r == ms
    ensures forall k :: k in ms && k != current && k != target ==> r[k] == ms[k]
    ensures FollowReplyOf(ms, current, target).Toggled? ==>
      var now := FollowReplyOf(ms, current, target).isFollowing;
      var step := if now then 1 else -1;
      r[current].followingCount == ms[current].followingCount + step
      && r[target].followersCount == ms[target].followersCount + step
      && r[current].followersCount == ms[current].followersCount
      && r[target].followingCount == ms[target].followingCount
      && r[current].following
         == (if now then ms[current].following + [target] else Pull(ms[current].following, target))
      && r[target].followers
         == (if now then ms[target].followers + [current] else Pull(ms[target].followers, current))
      && r[current].followers == ms[current].followers && r[target].following == ms[target].following
      && r[current].id == ms[current].id && r[target].id == ms[target].id
      && (target in r[current].following <==> now)
      && (current in r[target].followers <==> now)
  {
    if FollowReplyOf(ms, current, target).Toggled? then
      var c := ms[current];
      var t := ms[target];
      if target in c.following then
        ms[current := c.(following := Pull(c.following, target), followingCount := c.followingCount - 1)]
          [target := t.(followers := Pull(t.followers, current), followersCount := t.followersCount - 1)]
      else
        ms[current := c.(following := c.following + [target], followingCount := c.followingCount + 1)]
          [target := t.(followers := t.followers + [current], followersCount := t.followersCount + 1)]
    else ms
  }

  /**
   * Following someone one did not follow and then unfollowing them restores
   * both documents exactly, lists and counters.
   */
  lemma FollowThenUnfollowRestores(ms: map<string, Member>, current: string, target: string)
    requires current in ms && target in ms && current != target
    requires target !in ms[current].following && current !in ms[target].followers
    ensures FollowReplyOf(ms, current, target) == Toggled("Followed successfully", true)
    ensures FollowReplyOf(AfterFollow(ms, current, target), current, target) == Toggled("Unfollowed successfully", false)
    ensures AfterFollow(AfterFollow(ms, current, target), current, target) == ms
  {
    var ms1 := AfterFollow(ms, current, target);
    PullPushed(ms[current].following, target);
    PullPushed(ms[target].followers, current);
    var ms2 := AfterFollow(ms1, current, target);
    assert ms2[current] == ms[current];
    assert ms2[target] == ms[target];
    assert ms2 == ms;
  }

  /** The user documents, as the route loads, changes and saves them. */
  class Directory {
    var members: map<string, Member>

    constructor(ms: map<string, Member>)
      ensures members == ms
    {
      members := ms;
    }

    method Follow(current: string, target: string) returns (r: FollowReply)
      modifies this
      ensures r == FollowReplyOf(old(members), current, target)
      ensures members == AfterFollow(old(members), current, target)
    {
      if target !in members {
        return NotFound;
      }
      if target == current {
        return SelfFollow;
      }
      if current !in members {
        return ServerError;
      }
      var c := members[current];
      var t := members[target];
      var isFollowing := target in c.following;
      if isFollowing {
        c := c.(following := Pull(c.following, target), followingCount := c.followingCount - 1);
        t := t.(followers := Pull(t.followers, current), followersCount := t.followersCount - 1);
      } else {
        c := c.(following := c.following + [target], followingCount := c.followingCount + 1);
        t := t.(followers := t.followers + [current], followersCount := t.followersCount + 1);
      }
      members := members[current := c];
      members := members[target := t];
      r := Toggled(if isFollowing then "Unfollowed successfully" else "Followed successfully", !isFollowing);
    }
  }
}

=== FILE: vendor_stories.dfy ===
/**
 * frontend/src/app/features/vendor/pages/stories/vendor-stories.component.ts:
 * the vendor's list of their own stories, each shown with the time it has
 * left out of its 24 hours and an active/expired status.
 */
module VendorStories {
  import opened Wrappers
  import Lists
  import TimeAgo

  /** What `getTimeRemaining` shows. */
  datatype Remaining = Expired | MinutesLeft(minutes: int) | HoursLeft(hours: int)

  /** JavaScript `%`: the remainder takes the sign of the dividend. */
  function JsRem(a: int, b: int): (r: int)
    ensures b != 0 && a >= 0 ==> r == a % b
  {
    if b == 0 then 0
    else if a >= 0 then a % b
    else -((-a) % b)
  }

  /** `Math.floor((diffMs % 3600000) / 60000)`: the minutes into the current hour. */
  function MinutesIntoHour(diffMs: int): (m: int)
    ensures diffMs >= 0 ==> 0 <= m < 60
  {
    JsRem(diffMs, TimeAgo.HourMs) / TimeAgo.MinuteMs
  }

  /**
   * `getTimeRemaining`: the whole hours elapsed, floored, taken from 24.
   * Nothing left means expired; the minutes branch for less than one hour
   * left is kept as written.
   */
  function TimeRemaining(createdAt: int, now: int): (r: Remaining)
    ensures r == Expired <==> now - createdAt >= 24 * TimeAgo.HourMs
    ensures r.HoursLeft? ==> (r.hours >= 1
                              && (24 - r.hours) * TimeAgo.HourMs <= now - createdAt < (25 - r.hours) * TimeAgo.HourMs)
    ensures now - createdAt >= 0 ==> r.HoursLeft? ==> r.hours <= 24
  {
    var diffMs := now - createdAt;
    var diffHours := diffMs / TimeAgo.HourMs;
    var remainingHours := 24 - diffHours;
    if remainingHours <= 0 then Expired
    else if remainingHours < 1 then
      MinutesLeft(60 - MinutesIntoHour(diffMs))
    else HoursLeft(remainingHours)
  }

  /** The hours left are a whole number, so the minutes branch is never taken. */
  lemma {:induction false} NoMinutesBranch(createdAt: int, now: int)
    ensures !TimeRemaining(createdAt, now).MinutesLeft?
  {
    var diffHours := (now - createdAt) / TimeAgo.HourMs;
    assert 24 - diffHours <= 0 || 24 - diffHours >= 1;
  }

  datatype Status = Active | ExpiredStatus

  /** `getStoryStatus`: expired once the exact elapsed hours reach 24. */
  function StoryStatus(createdAt: int, now: int): (s: Status)
    ensures s == ExpiredStatus <==> now - createdAt >= 24 * TimeAgo.HourMs
  {
    if (now - createdAt) as real / TimeAgo.HourMs as real >= 24.0 then ExpiredStatus else Active
  }

  /** The countdown says 'Expired' exactly when the status says 'expired'. */
  lemma RemainingAgreesWithStatus(createdAt: int, now: int)
    ensures TimeRemaining(createdAt, now) == Expired <==> StoryStatus(createdAt, now) == ExpiredStatus
  {
  }

  datatype VendorStory = VendorStory(id: string, createdAt: int)

  function OtherThan(id: string): VendorStory -> bool {
    (s: VendorStory) => s.id != id
  }

  class StoryList {
    var stories: seq<VendorStory>

    /** After `loadStories`: the list is empty. */
    constructor()
      ensures stories == []
    {
      stories := [];
    }

    /** `deleteStory`: when confirmed, every story with that id goes and the rest stay in order. */
    method DeleteStory(id: string, confirmed: bool)
      modifies this
      ensures confirmed ==> stories == Lists.Filter(old(stories), OtherThan(id))
      ensures confirmed ==> forall s :: s in stories <==> s in old(stories) && s.id != id
      ensures !confirmed ==> stories == old(stories)
    {
      if confirmed {
        stories := Lists.Filter(stories, OtherThan(id));
        forall s ensures s in stories <==> s in old(stories) && s.id != id {
          Lists.FilterMember(old(stories), OtherThan(id), s);
        }
      }
    }
  }
}

=== FILE: wishlist_service.dfy ===
/**
 * frontend/src/app/core/services/wishlist.service.ts: the in-memory wishlist
 * the page shows, its count, and the offline copy kept under the storage key
 * 'wishlist', which the offline add and remove read and rewrite.
 */
module WishlistService {
  import opened Wrappers
  import opened Text
  import Lists

  datatype WishlistProduct = WishlistProduct(id: string, name: string, price: real, brand: string)

  datatype WishlistItem = WishlistItem(id: string, product: WishlistProduct, addedAt: int)

  function ForProduct(productId: string): WishlistItem -> bool {
    (item: WishlistItem) => item.product.id == productId
  }

  function OtherProduct(productId: string): WishlistItem -> bool {
    (item: WishlistItem) => item.product.id != productId
  }

  /** `items.some(item => item.product._id === productId)`. */
  function IsInWishlist(items: seq<WishlistItem>, productId: string): (r: bool)
    ensures r <==> exists i :: 0 <= i < |items| && items[i].product.id == productId
  {
    Lists.Any(items, ForProduct(productId))
  }

  /**
   * The stored items after an offline add: the stored list (empty when
   * nothing is stored) with a new item, whose id is the time of the add,
   * appended exactly when no item carries the product; otherwise `None`,
   * meaning nothing is written.
   */
  function AddedOffline(stored: Option<seq<WishlistItem>>, product: WishlistProduct, now: nat): (r: Option<seq<WishlistItem>>)
    ensures r.None? <==> IsInWishlist(stored.GetOr([]), product.id)
    ensures r.Some? ==> r.value == stored.GetOr([]) + [WishlistItem(NatToString(now), product, now)]
  {
    var items := stored.GetOr([]);
    match Lists.Find(items, ForProduct(product.id))
    case Some(_) => None
    case None =>
      Some(items + [WishlistItem(NatToString(now), product, now)])
  }

  /** The stored items after an offline remove: every item of the product dropped, the rest kept in order. */
  function RemovedOffline(stored: seq<WishlistItem>, productId: string): (r: seq<WishlistItem>)
    ensures !IsInWishlist(r, productId)
    ensures forall x :: x in r <==> x in stored && x.product.id != productId
  {
    var r := Lists.Filter(stored, OtherProduct(productId));
    forall x ensures x in r <==> x in stored && x.product.id != productId {
      Lists.FilterMember(stored, OtherProduct(productId), x);
    }
    r
  }

  /** Removing what an offline add appended gives back the stored list. */
  lemma AddThenRemoveRestores(stored: seq<WishlistItem>, product: WishlistProduct, now: nat)
    requires !IsInWishlist(stored, product.id)
    ensures AddedOffline(Some(stored), product, now).Some?
    ensures RemovedOffline(AddedOffline(Some(stored), product, now).value, product.id) == stored
  {
    var item := WishlistItem(NatToString(now), product, now);
    Lists.FilterAppend(stored, [item], OtherProduct(product.id));
    Lists.FilterAll(stored, OtherProduct(product.id));
    assert Lists.Filter([item], OtherProduct(product.id)) == [];
  }

  class Wishlist {
    /** `wishlistItemsSubject.value`. */
    var items: seq<WishlistItem>
    /** `wishlistCountSubject.value`. */
    var count: int
    /** The parsed 'wishlist' entry of local storage, if any. */
    var stored: Option<seq<WishlistItem>>

    constructor()
      ensures items == [] && count == 0 && stored.None?
    {
      items := [];
      count := 0;
      stored := None;
    }

    /**
     * `addToWishlistOffline`: when the stored list has no item of the
     * product, the new item is appended and both the storage and the shown
     * list become the new list, with the count its length; otherwise nothing
     * changes.
     */
    method AddOffline(product: WishlistProduct, now: nat)
      modifies this
      ensures AddedOffline(old(stored), product, now).None? ==>
        items == old(items) && count == old(count) && stored == old(stored)
      ensures AddedOffline(old(stored), product, now).Some? ==>
        stored == AddedOffline(old(stored), product, now) && items == stored.value && count == |items|
      ensures IsInWishlist(stored.GetOr([]), product.id)
    {
      var data := stored.GetOr([]);
      var existing := Lists.Find(data, ForProduct(product.id));
      if existing.None? {
        data := data + [WishlistItem(NatToString(now), product, now)];
        assert ForProduct(product.id)(data[|data| - 1]);
        stored := Some(data);
        items := data;
        count := |data|;
      }
    }

    /**
     * `removeFromWishlistOffline`: with a stored list, every item of the
     * product is dropped from it, and the storage and the shown list become
     * the rest, with the count its length; with nothing stored nothing
     * changes.
     */
    method RemoveOffline(productId: string)
      modifies this
      ensures old(stored).None? ==> items == old(items) && count == old(count) && stored == old(stored)
      ensures old(stored).Some? ==>
        stored == Some(RemovedOffline(old(stored).value, productId)) && items == stored.value && count == |items|
    {
      if stored.Some? {
        var data := RemovedOffline(stored.value, productId);
        stored := Some(data);
        items := data;
        count := |data|;
      }
    }

    /** `toggleWishlistOffline`: the decision reads the shown list, the change the stored one. */
    method ToggleOffline(product: WishlistProduct, now: nat)
      modifies this
      ensures IsInWishlist(old(items), product.id) && old(stored).None? ==>
        items == old(items) && count == old(count) && stored == old(stored)
      ensures IsInWishlist(old(items), product.id) && old(stored).Some? ==>
        stored == Some(RemovedOffline(old(stored).value, product.id)) && items == stored.value && count == |items|
      ensures !IsInWishlist(old(items), product.id) ==> IsInWishlist(stored.GetOr([]), product.id)
      ensures !IsInWishlist(old(items), product.id) && AddedOffline(old(stored), product, now).Some? ==>
        stored == AddedOffline(old(stored), product, now) && items == stored.value && count == |items|
      ensures !IsInWishlist(old(items), product.id) && AddedOffline(old(stored), product, now).None? ==>
        items == old(items) && count == old(count) && stored == old(stored)
    {
      if IsInWishlist(items, product.id) {
        RemoveOffline(product.id);
      } else {
        AddOffline(product, now);
      }
    }

    /** The effect of a successful `clearWishlist`: an empty list and a count of 0. */
    method Cleared()
      modifies this
      ensures items == [] && count == 0 && stored == old(stored)
    {
      items := [];
      count := 0;
    }
  }

  /**
   * The shown list and the stored one can disagree: an item shown but not
   * stored makes the toggle's remove a no-op, and the same item stored but
   * not shown makes its add a no-op.
   */
  lemma ToggleCanMissTheStoredList(product: WishlistProduct, now: nat)
    ensures var item := WishlistItem("1", product, 1);
            IsInWishlist([item], product.id) && AddedOffline(Some([item]), product, now).None?
  {
    var item := WishlistItem("1", product, 1);
    assert ForProduct(product.id)([item][0]);
  }
}

=== FILE: wrappers.dfy ===
/** Optional values: JavaScript's `undefined`/`null` and Python's `None`. */
module Wrappers {
  datatype Option<T> = None | Some(value: T)
  {
    /** `x || d` / `x ?? d` on a possibly-missing value. */
    function GetOr(d: T): T {
      match this
      case None => d
      case Some(v) => v
    }
  }
}
